=== FILE: README.md ===
# IronMaskPlus fault-and-correction core, modelled in Dafny

This project models the part of IronMaskPlus that reads a masked, duplicated circuit
and prepares it for the fault analyses. It covers four parts.

**Circuit files (`src/parser.c`).** This covers the string map `StrMap` and the
equation list `EqList`, and the line parsers `parse_idents`, `parse_expr` and
`parse_eq_str`. They read `#correction`, `#correction_output` and `![ ]` annotations.

**The equation pass of `gen_circuit`.** The pass gives every wire three things:

- a dependency vector over the secret-input shares, the randoms, the multiplications,
  the correction outputs and the constant;
- a glitch set;
- a fault taint.

It follows the decision table for products inside correction blocks. It also keeps
the operand weights and moves the output wires to the end.

**Fault-scenario drivers (`src/CRP.c`, `src/CRPC.c`).** These are the name list of
`generate_names` and the single-fault slot layout of `compute_CRP_coeffs`. For
`compute_CRPC` the model covers:

- the enumeration of fault combinations;
- the output prefix of `construct_output_prefix`;
- the entry-wise maximum over the choices of output shares.

**The Python correction tester (`src/testing_correction.py`).** This covers equation reading
and evaluation under stuck-at faults, the correctability test, the input-copy
combinations of `get_input_comb_rec`, and the scan of `get_uncorrected_faulty_combs`.

The Dafny modules follow the source:

| module | file | what |
|---|---|---|
| `Results` | `results.dfy` | Result/Option types and the failures of the source |
| `Seqs` | `seqs.dfy` | reversal, counting, filtering, Python-ordered combinations |
| `StrMaps` | `str_maps.dfy` | `StrMap` as a list of cells, newest first |
| `Equations` | `equations.dfy` | `Expr`, `Equation`, `EqList` and the counters |
| `CText` | `c_text.dfy` | C string scanning, `str_equals_nocase`, decimal names |
| `LineParser` | `line_parser.dfy` | `parse_idents`, `parse_expr`, `parse_eq_str`, the equation loop of `parse_file` |
| `Deps` | `deps.dfy` | dependency vectors, XOR, `is_dep_constant`, `are_dep_equal`, `vec_contains_dep`, glitch sets |
| `Builder` | `builder.dfy` | one equation of `gen_circuit`, and the whole pass |
| `BuilderFacts` | `builder_facts.dfy` | rejection, fresh product slots, taint, the correction-record guard |
| `ProductLaws` | `product_laws.dfy` | the algebra of the pass: linear steps, masks cancelling, the product decision table, glitch sets |
| `Reorder` | `reorder.dfy` | moving the outputs to the end of the wire list |
| `Circuits` | `circuit.dfy` | start wires, `outputs_map`, final weights, the `Circuit` record |
| `FaultNames` | `fault_names.dfy` | `generate_names` |
| `Drivers` | `drivers.dfy` | what CRP and CRPC share: faults, the callback, maxima |
| `Crp` | `crp.dfy` | `compute_CRP_coeffs` |
| `Crpc` | `crpc.dfy` | `construct_output_prefix` and `compute_CRPC` |
| `PyText` | `py_text.dfy` | `str.split`, `list.remove` and the line filter |
| `PyCircuit` | `py_circuit.dfy` | `Equation`, `evaluate`, `evaluate_circuit`, `can_faulty_circuit_be_corrected` |
| `PyRead` | `py_read.dfy` | the duplicate tables and the output extraction of `read_input_circuit` |
| `PyCombs` | `py_combs.dfy` | `get_input_comb_rec` and `get_uncorrected_faulty_combs` |

Dafny has unbounded integers, so a dependency slot is a natural number. XOR on those
numbers is defined bit by bit. Names are strings. A fatal `fprintf` + `exit`, an
`assert` or a Python exception becomes an `Err` with the failure it reports. Code
that the core calls but does not contain becomes a function parameter. The
drivers' model states what they do with such a function's results. Those functions
are:

- the four-argument `gen_circuit` that applies faults;
- `find_all_failures`;
- `update_coeff_c_single`;
- the combination enumerators;
- Sage's ring.

Where the specification and the code disagree, the model follows the code:

- Weights grow by 1 and then by 2 (odd values 1, 3, 5, ...), not saturating at 2.
- The fault taint is one flag per wire, not a mask.
- The glitch sets of the constant wires `0` and `1` are empty.
- Python's `Equation` reads a `~x` operand as `x + 1`. It copies `arg1` for an
  operator other than `+` or `*`; `^` and `&` are such operators, even though the
  C parser reads them as sum and product.

## Model

| member | source | states |
|---|---|---|
| `StrMaps.AddWithVal` | src/parser.c:52-58 | the new cell `(key, val)` becomes the head; name and counter are unchanged |
| `StrMaps.Add` | src/parser.c:60-62 | the key gets the current counter as value, the counter grows by one, and a map whose counter equals its cell count keeps that property |
| `StrMaps.FindFrom` | src/parser.c:88-111 | the list walk finds the first cell with the key at or after a position, or reports that none has it |
| `StrMaps.ContainsIffKey` | src/parser.c:101-111 | `str_map_contains` holds exactly when the key is among the map's keys |
| `StrMaps.Get` | src/parser.c:88-99 | succeeds exactly when the key is present, with the value of a cell holding the key; otherwise fails with the key and map name |
| `StrMaps.GetAfterAdd` | src/parser.c:88-99 | after `str_map_add`, the new key reads back the old counter and every other key reads as before (the newest cell shadows older ones) |
| `StrMaps.Remove` | src/parser.c:64-86 | removal keeps the map's name and counter |
| `StrMaps.RemoveKeys` | src/parser.c:64-86 | removal takes exactly one copy of the key out of the key multiset, and shortens the list by one when the key is present |
| `StrMaps.RemoveFirstOnly` | src/parser.c:64-86 | only the first matching cell is unlinked; every other cell keeps its order |
| `StrMaps.ReverseMap` | src/parser.c:135-148 | `reverse_str_map` reverses the cell list and keeps name and counter; a map with no cell (a NULL head) fails with `EmptyMap`, because `_reverse_str_map` reads `e->next` of its first argument |
| `StrMaps.AddAll` | src/parser.c:359-369 | adding keys one by one adds one cell per key |
| `StrMaps.AddAllEntries` | src/parser.c:359-369 | the added keys are stacked head first with consecutive values from the old counter |
| `StrMaps.ParseThenReverse` | src/parser.c:567-569 | filling a fresh header map and reversing it numbers the identifiers 0, 1, 2, ... in file order, and the counter matches the cell count; a header with no identifier fails at the reversal |
| `Equations.AddEq` | src/parser.c:259-269 | the new equation becomes the head and the size grows by one |
| `Equations.ReverseEqs` | src/parser.c:334-347 | `reverse_eq_list` reverses the items and keeps the size |
| `Equations.CountMults` | src/parser.c:712-718 | the number of multiplications outside correction blocks is at most the number of equations |
| `Equations.CountCorrectionOutputs` | src/parser.c:720-726 | the number of correction outputs is at most the number of equations |
| `Equations.CountsAppend` | src/parser.c:712-726 | both counts add up over a split of the equation list |
| `Equations.CountsReverse` | src/parser.c:712-726 | both counts are the same before and after the list is reversed |
| `Seqs.ReverseOntoIsReverse` | src/parser.c:135-143 | the recursive in-place reversal `_reverse_str_map(e, prev)` yields the reversed list followed by `prev` |
| `Seqs.CombinationsCount` | src/testing_correction.py:200 | `itertools.combinations(xs, r)` yields C(\|xs\|, r) combinations |
| `Seqs.CombinationsShape` | src/testing_correction.py:200 | each combination has `r` elements, all drawn from `xs` |
| `CText.SkipSpaces` | src/parser.c:353-357 | `skip_spaces` stops at the first non-space at or after the start, and passes only spaces, tabs and newlines |
| `CText.StrEqualsNoCase` | src/parser.c:490-497 | true exactly when the first `len` characters agree after upper-casing ASCII lower-case letters |
| `CText.NoCasePrefix` | src/parser.c:473-482 | a match of `correction_o` on 12 characters implies a match of `correction` on 10 |
| `CText.Snprintf` | src/parser.c:823-826 | `snprintf` into `size` bytes keeps a prefix of fewer than `size` characters, and the whole string when it fits |
| `Deps.XorComm` | src/parser.c:898-900 | XOR of slot values commutes |
| `Deps.XorAssoc` | src/parser.c:898-900 | XOR of slot values is associative |
| `Deps.XorSelf` | src/parser.c:898-900 | a value XORed with itself is zero |
| `Deps.XorCancel` | src/parser.c:898-900 | adding the same value twice cancels |
| `Deps.XorBound` | src/parser.c:828 | XOR of two share masks below `1 << n` stays below `1 << n` |
| `Deps.XorVec` | src/parser.c:896-900 | the dependency of a sum is the slot-wise XOR of the operands |
| `Deps.XorVecCancel` | src/parser.c:896-900 | summing with the same vector twice gives the first vector back |
| `Deps.XorVecComm` | src/parser.c:896-900 | a sum's dependency does not depend on the operand order |
| `Deps.IsDepConstant` | src/parser.c:728-734 | true exactly when every slot before the last one in range is zero |
| `Deps.AreDepEqual` | src/parser.c:736-742 | true exactly when the first `size` slots agree |
| `Deps.AreDepEqualFull` | src/parser.c:736-742 | over the full width, `are_dep_equal` is equality of vectors |
| `Deps.VecContainsDep` | src/parser.c:696-710 | true exactly when some element agrees with the vector on every slot but the constant one |
| `Deps.PushNew` | src/parser.c:989-1001 | the dedup loop keeps what was collected and only appends elements of its input |
| `Deps.PushNewCovers` | src/parser.c:989-1001 | every input element is matched, below the constant slot, by an element of the result |
| `Deps.PushNewNoDup` | src/parser.c:989-1001 | the dedup loop never introduces two elements that agree below the constant slot |
| `Deps.GlitchUnionMeaning` | src/parser.c:987-1003 | the glitch union has no duplicate, covers both operands' sets, and holds only their elements |
| `LineParser.Idents` | src/parser.c:359-369 | the identifiers of a header line hold no separator character |
| `LineParser.ParseIdents` | src/parser.c:359-369 | the identifiers are added in order, numbered from the counter, newest first |
| `LineParser.IdentsOfWordsLine` | src/parser.c:359-369 | reading a line that lists identifiers separated by spaces gives exactly those identifiers |
| `LineParser.ParseExpr` | src/parser.c:376-429 | an assignment has no right operand, and a left operand never contains a separator |
| `LineParser.ParseShow` | src/parser.c:376-429 | parsing a printed expression followed by spaces and a comment or line end gives it back |
| `LineParser.ParseAsgn` | src/parser.c:399-406 | a lone operand is read as an assignment |
| `LineParser.ParseBinary` | src/parser.c:399-425 | `l + r` and `l ^ r` read as Add, `l * r` and `l & r` as Mult, with both operands |
| `LineParser.ParseNot` | src/parser.c:384-398 | `~x` reads as `x + 1` |
| `LineParser.ParseNotAlone` | src/parser.c:390-394 | a `~` followed by nothing, a space or a comment is fatal |
| `LineParser.ParseBadOperator` | src/parser.c:405-415 | any other character after the left operand is fatal, naming that character |
| `LineParser.BackOverSpaces` | src/parser.c:461-462 | the backward walk stops at position 0 or at a non-space, passing only spaces |
| `LineParser.TagFlags` | src/parser.c:474-482 | a correction output is always inside a correction block |
| `LineParser.TagFlagsMeaning` | src/parser.c:474-482 | the block flag is set exactly for a `correction` comment and the output flag exactly for `correction_o`, case-insensitively |
| `LineParser.CorrectionFlags` | src/parser.c:473-482 | the flags read from a line's comment never set the output flag without the block flag |
| `LineParser.CommentFlags` | src/parser.c:473-482 | the flags of a ` #tag` comment are read from the tag |
| `LineParser.OutputCommentFlags` | src/parser.c:475-478 | `#correction_output` sets both flags |
| `LineParser.CorrectionCommentFlags` | src/parser.c:479-481 | `#correction` sets the block flag only |
| `LineParser.NoCommentFlags` | src/parser.c:473-474 | an empty line sets no flag; with `FlagsSkipBody`, neither does any line without `#` or NUL |
| `LineParser.FlagsSkipBody` | src/parser.c:473 | text holding no `#` or NUL does not change the flags of what follows it |
| `LineParser.ParseEqStr` | src/parser.c:432-488 | every equation read is well flagged, and an anti-glitch equation is never in a correction block |
| `LineParser.BlankLine` | src/parser.c:438-439 | a line of spaces only gives no equation |
| `LineParser.MissingEquals` | src/parser.c:441-451 | a line without `=` after its first word is rejected as invalid |
| `LineParser.ParseHead` | src/parser.c:441-454 | the `dst = ` head is read off and the rest is parsed as the right-hand side |
| `LineParser.ParseRhs` | src/parser.c:454-485 | the right-hand side keeps the destination and gives a well-flagged equation |
| `LineParser.ParseAntiGlitch` | src/parser.c:456-471 | a successful `![ ... ]` sets the anti-glitch flag and never the correction flags |
| `LineParser.NoCommentAfter` | src/parser.c:469-473 | only spaces after the closing `]`, so no comment flag is read |
| `LineParser.ParsePlainRhs` | src/parser.c:454-485 | a plain right-hand side written with its flag comment reads back to the equation |
| `LineParser.PlainFlags` | src/parser.c:473-482 | the flag comment written after a plain expression sets exactly the equation's flags |
| `LineParser.ParseAntiRhs` | src/parser.c:456-485 | an anti-glitch right-hand side reads back to the equation |
| `LineParser.AntiBody` | src/parser.c:456-471 | the text after `![` of a written anti-glitch line reads back |
| `LineParser.ParseShowEquation` | src/parser.c:432-488 | reading a written equation line gives the equation back, flags included |
| `LineParser.ParsedEqs` | src/parser.c:514-559 | the equations of the lines are at most one per line |
| `LineParser.AddEqLinesStacks` | src/parser.c:514-559 | the loop leaves the parsed equations stacked last line first |
| `LineParser.AddEqLinesFails` | src/parser.c:514-559 | the loop stops with the failure of the first failing line |
| `LineParser.ParsedWellFlagged` | src/parser.c:473-485 | every equation read from a file is well flagged |
| `LineParser.ParseEquations` | src/parser.c:514-570 | a parse failure is passed on; no equation at all is a failure; otherwise the list is in file order with its size and well flagged |
| `Builder.Lookup` | src/parser.c:617-628 | a name resolves to its most recent wire; it fails exactly when no wire has the name |
| `Builder.PlainIsCounted` | src/parser.c:907 | the multiplications that get a slot are the ones `count_mults` counts |
| `Builder.XorFits` | src/parser.c:896-900 | a sum stays within the slot bounds and uses no future product or correction slot |
| `Builder.CorrectionProduct` | src/parser.c:936-977 | a product in a correction block stays within the slot bounds and uses no future slot |
| `Builder.Combine` | src/parser.c:891-977 | the new wire's dependency fails exactly for a plain product of an operand that depends on a product (depth above 1); otherwise it fits the counters |
| `Builder.Product` | src/parser.c:905-977 | a product fails exactly at multiplicative depth above 1, and otherwise fits the advanced counters |
| `Builder.OperandGlitch` | src/parser.c:987-1003 | the operands' glitch sets, merged, have the vector width |
| `Builder.GlitchOf` | src/parser.c:984-1003 | the glitch set of a new wire has the vector width |
| `Builder.CorrRecordOf` | src/parser.c:1019-1041 | a correction record is written exactly for a correction output, under its name |
| `Builder.CorrGuardAsWritten` | src/parser.c:1019-1037 | the guard as written fires for every correction output |
| `Builder.Bump` | src/parser.c:1045 | an unused weight becomes 1, and an odd weight grows and stays odd |
| `Builder.BumpAt` | src/parser.c:1044-1045 | only the operand's weight changes |
| `Builder.BumpOperands` | src/parser.c:1043-1049 | weights that are zero or odd stay so after the left and right operands are bumped |
| `Builder.Extend` | src/parser.c:1051-1056 | the wire is appended under the destination's name with its dependency and taint; the counters advance and the invariant holds |
| `Builder.MultsAfter` | src/parser.c:916-929 | a plain product adds one record whose operand positions are existing wires |
| `Builder.Step` | src/parser.c:884-1057 | one equation appends one wire, advances the counters by its kind and keeps the invariant; it fails only on a missing operand or at depth above 1 |
| `Builder.StepAt` | src/parser.c:889-1057 | with the operands found, the only failure is depth above 1 |
| `Builder.Run` | src/parser.c:884-1057 | the pass appends one wire per equation, named after its destination, keeping earlier wires and counting the plain products |
| `BuilderFacts.MissingOperand` | src/parser.c:886-887 | an operand that names no earlier wire is fatal, the left one first |
| `BuilderFacts.DepthRejection` | src/parser.c:918-925 | with both operands defined, the pass rejects exactly a plain product with an operand in a product slot |
| `BuilderFacts.FreshProduct` | src/parser.c:918-919 | each plain product gets a one-slot vector that no earlier wire uses and that differs from every earlier wire's |
| `BuilderFacts.FreshSlot` | src/parser.c:918-919 | the next product slot is zero in every earlier wire |
| `BuilderFacts.PlainDep` | src/parser.c:918-919 | an accepted plain product depends on its own slot alone |
| `BuilderFacts.StepAtPlain` | src/parser.c:918-919 | with its operands found, an accepted plain product gets the vector of the next product slot |
| `BuilderFacts.StepTaint` | src/parser.c:891-977 | without a tainted operand, only the fallback of a correction product taints a wire |
| `BuilderFacts.CombineTaint` | src/parser.c:891-977 | untainted operands give an untainted wire, except at a correction-block fallback |
| `BuilderFacts.RunUntainted` | src/parser.c:884-1057 | a circuit without correction-block fallbacks has no tainted wire |
| `BuilderFacts.RunStep` | src/parser.c:884 | a successful pass runs its first equation and continues from there |
| `BuilderFacts.CorrIndexAsWritten` | src/parser.c:776-778 | the index read is the correction slot when correction outputs exist, and `corr_output_idx - 1` otherwise |
| `BuilderFacts.CorrGuardAgrees` | src/parser.c:1019-1041 | while correction outputs remain, the guard as written fires exactly for correction outputs |
| `BuilderFacts.CorrGuardOverrun` | src/parser.c:1019-1036 | after the last correction output, `d = 1` passes the guard as written, because the index has reached the constant slot |
| `BuilderFacts.CorrRecordsCounted` | src/parser.c:1033-1040 | with the guard on the equation's own flag, the pass writes one record per correction output, within the allocated records |
| `ProductLaws.ConstantIs` | src/parser.c:728-734 | a vector `is_dep_constant` accepts is the zero vector or the vector of the wire `1`, according to its last slot |
| `ProductLaws.CorrectionLaws` | src/parser.c:936-977 | product in a correction block: an untainted `1` passes the other operand and its taint through; an untainted `0` gives untainted zero; untainted equal operands give that operand; taint on a correction output needs a tainted operand; an untainted pair is tainted only with the zero vector |
| `ProductLaws.CorrectionOutputSlot` | src/parser.c:970-973 | untainted, non-constant, unequal operands give a correction output its own correction slot, untainted |
| `ProductLaws.StepLinear` | src/parser.c:891-903 | an assignment copies its operand's vector and taint; a sum takes the XOR of the vectors and the OR of the taints |
| `ProductLaws.MaskCancels` | src/parser.c:896-903 | masking `t = x + m` and then `y = t + m` gives `y` exactly the vector of `x` |
| `ProductLaws.GlitchLaws` | src/parser.c:984-1003 | an untainted wire without glitches (or under `![ ]`) has only its own vector; otherwise the set is duplicate-free, covers the operands' sets and holds only their elements |
| `Circuits.Copies` | src/parser.c:821-866 | the number of copies per share is at least 1 and is `nb_duplications` when that is positive |
| `Circuits.OutputShareNames` | src/parser.c:1061-1082 | one name per copy of each remaining share of an output |
| `Circuits.OutputNames` | src/parser.c:1060-1082 | one name per copy of each share of each output |
| `Circuits.OutputsMap` | src/parser.c:1060-1082 | the keys of `outputs_map` are exactly the expanded output names, with multiplicity |
| `Circuits.Pow2Below` | src/parser.c:844-846 | the share mask `1 << i` of share `i < n` lies below `1 << n` |
| `Circuits.InputWire` | src/parser.c:842-863 | a copy of an input share is a valid start wire |
| `Circuits.InputShareWires` | src/parser.c:821-866 | the copies of the remaining shares of an input are valid start wires, one per copy |
| `Circuits.InputWires` | src/parser.c:821-866 | the inputs give `inputs * shares * copies` valid start wires |
| `Circuits.RandomWires` | src/parser.c:870-881 | random `y` gets its own name and the slot after the inputs |
| `Circuits.RandomWire` | src/parser.c:870-881 | a random wire depends on its own slot only |
| `Circuits.ConstWires` | src/parser.c:802-818 | the wires `0` and `1` are zero except for the constant slot, which holds 0 and 1 |
| `Circuits.StartWires` | src/parser.c:802-881 | one valid start wire for each constant, each input copy and each random; `0` comes first |
| `Circuits.InitialState` | src/parser.c:794-881 | the state before the first equation satisfies the invariant with both counters at zero |
| `Circuits.Pass` | src/parser.c:745-1057 | a successful pass has one wire per start wire and equation, zero-or-odd weights, wire `0` first, and `count_mults` products |
| `Circuits.Used` | src/parser.c:1121-1123 | an unused weight becomes 1; every final weight is odd and positive |
| `Circuits.PlacedWeights` | src/parser.c:1097-1123 | moving the outputs keeps every weight zero or odd |
| `Circuits.GenCircuit` | src/parser.c:745-1136 | fails exactly when the pass fails, with its failure; otherwise the circuit holds the pass's wires with the outputs moved to the end and the final weights |
| `Circuits.AssembleFacts` | src/parser.c:1125-1136 | the circuit record holds the placed wires with their final weights |
| `Circuits.GenCircuitAsWritten` | src/parser.c:1160-1171 | as written, `gen_circuit` never returns a circuit: after a successful pass it exits |
| `Circuits.DeclaredLengthMatches` | src/parser.c:772-773 | the declared `deps->length` equals the wire count exactly when `nb_duplications >= 1` or there is no input share; with fewer copies it is short by `inputs * shares * (1 - nb_duplications)` |
| `Circuits.ZeroDuplicationsOverflow` | src/parser.c:772-773 | one input, one share and `#DUPLICATIONS 0` give three start wires for two declared cells |
| `Circuits.LengthAsWrittenGap` | src/parser.c:1125 | `c->length` as written, with the raw `nb_duplications`, equals the wire count less the output copies when `nb_duplications >= 1`; below that it differs by `(inputs - outputs) * shares * (1 - nb_duplications)` |
| `Circuits.ZeroDuplicationsLength` | src/parser.c:1125 | two inputs, one share, one output, one equation and `#DUPLICATIONS 0`: four wires besides the output copy, a length of three as written |
| `Reorder.Partition` | src/parser.c:1084-1117 | the walk keeps every wire, either in place or moved to the end |
| `Reorder.PartitionMeaning` | src/parser.c:1084-1117 | the moved and kept wires rearrange the list; moved wires use up output names; no kept wire has a name still waiting |
| `Reorder.ShiftToEnd` | src/parser.c:1107-1109 | the `SWAP_DEPS` loop carries the element at `i` to `end` and shifts the ones between one place left |
| `Reorder.TrailingOutputs` | src/parser.c:1084-1089 | outputs already at the end stay and use up their names; the walk starts at a non-output |
| `Reorder.Pending` | src/parser.c:1105 | the `str_map_contains` test holds exactly when the name still waits |
| `Reorder.Visit` | src/parser.c:1104-1117 | one visit keeps the walk's invariant one step further |
| `Reorder.VisitOutput` | src/parser.c:1105-1115 | an output is moved to `end`, and `end` steps down |
| `Reorder.VisitOther` | src/parser.c:1104-1105 | any other wire stays in place |
| `Reorder.MoveOne` | src/parser.c:1107-1111 | moving one output keeps the walk's invariant |
| `Reorder.MoveOutputs` | src/parser.c:1084-1117 | the result is the kept wires followed by the moved wires of the reference walk, and the map holds the names left over |
| `Reorder.WalkBack` | src/parser.c:1104-1117 | the loop from just before the trailing outputs down to index 0 ends in the state of the reference walk over the whole list: its kept wires, then its moved wires, with its names left over |
| `FaultNames.ShareCopiesLength` | src/CRP.c:54-60 | one name per copy of each remaining share |
| `FaultNames.DupNamesLength` | src/CRP.c:52-62 | one name per copy of each share of each input |
| `FaultNames.ShareCopiesAt` | src/CRP.c:54-59 | copy `j` of share `i` sits at offset `(i - i0) * d + j` |
| `FaultNames.DupNamesAt` | src/CRP.c:52-62 | copy `j` of share `i` of input `b` sits at `(b * shares + i) * d + j` |
| `FaultNames.NonOutputs` | src/CRP.c:71-85 | the destinations kept are exactly those that are not expanded output names |
| `FaultNames.FilterSplit` | src/CRP.c:71-85 | every destination is either kept or an output name |
| `FaultNames.GeneratedLength` | src/CRP.c:29-31 | the returned `length` equals the number of names written exactly when the equation destinations that are expanded output names number `d * shares * outs`, counted with repeats; names written minus `length` is `d * shares * outs` minus that count |
| `FaultNames.GeneratedOrder` | src/CRP.c:51-85 | input copies come first in input, share, copy order, then the randoms, then the non-output destinations |
| `Drivers.Feed` | src/CRP.c:158-174 | counting tuples keeps the width of the coefficient vector |
| `Drivers.MaxAt` | src/CRPC.c:233-244 | the largest entry among the vectors bounds each of them and is one of them (0 without vectors) |
| `Drivers.MaxAtSnoc` | src/CRPC.c:241-243 | one more vector in the fold takes the maximum with its entry |
| `Crp.UpdateCoeffs` | src/CRP.c:95-106 | the whole tuple reaches `update_coeff_c_single` unchanged, unlike in CRPC |
| `Crp.MainLoopMax` | src/CRP.c:121-122 | `-1` stands for the circuit's `length`, and larger bounds are cut down to it |
| `Crp.MaxLen` | src/CRP.c:124-126 | the `max_len` handed to the search is `length` for `-1` and the given bound otherwise, never cut down; `compute_CRPC` resolves its `coeff_max` this way too (CRPC.c lines 148-150) |
| `Crp.Rounds` | src/CRP.c:158-183 | the coefficient vector after the size loop has the width `total_wires + 1` it was allocated with |
| `Crp.ScenarioVector` | src/CRP.c:158-183 | the size loop runs the sizes 0 up to the bound, in order |
| `Crp.SlotLayout` | src/CRP.c:141-153 | fault `names[i]` forced to `s` owns slot `i * 2 + s`, and no other slot has that index and polarity |
| `Crp.ComputeCrpCoeffs` | src/CRP.c:108-204 | fails exactly when `k != 1` (the `assert`); otherwise gives `2 * length` slots of width `total_wires + 1`, slot `j` holding the vector of `names[j / 2]` forced to `j % 2`, so names past `length` are never faulted |
| `Crpc.StripsPrefix` | src/CRPC.c:95-103 | a tuple made of an output prefix and a rest is counted as the rest alone would be by CRP |
| `Crpc.PrefixNamesMembers` | src/CRPC.c:107-113 | the prefix names are exactly the copies of the chosen output shares |
| `Crpc.Scan` | src/CRPC.c:114-125 | the scan takes, in ascending order, exactly the positions past `length` whose name is a prefix name |
| `Crpc.AscendingUnique` | src/CRPC.c:116-125 | two ascending position lists with the same elements are equal, so the prefix is determined |
| `Crpc.OutputPrefix` | src/CRPC.c:105-133 | on success the prefix has `t * nb_duplications` positions of output copies past `length`; otherwise the assertion fails |
| `Crpc.PrefixFound` | src/CRPC.c:114-126 | the assertion holds exactly when the circuit has `t * nb_duplications` such wires, and then the prefix is those positions |
| `Crpc.Prefixes` | src/CRPC.c:208-209 | succeeds exactly when every choice of output shares has its prefix, and gives those prefixes in order |
| `Crpc.TIn` | src/CRPC.c:219 | `t_in` is one less than `t` exactly when every share is observed |
| `Crpc.PrefixVec` | src/CRPC.c:206-236 | a prefix choice's vector keeps the width `total_wires + 1` |
| `Crpc.PerPrefix` | src/CRPC.c:206-236 | one vector per prefix choice, each of the same width |
| `Crpc.SizeRound` | src/CRPC.c:208-237 | one round searches every prefix choice at this size and sets entry `size` to their maximum |
| `Crpc.TailEntry` | src/CRPC.c:241-243 | entry `i` becomes its maximum with every prefix choice's entry `i`; the others are unchanged |
| `Crpc.TailLoop` | src/CRPC.c:239-243 | entries past `coeff_max` up to `total_wires` become the maximum over prefix choices; the earlier ones are unchanged |
| `Crpc.SizeLoop` | src/CRPC.c:206-238 | after the sizes `0 ..= coeff_max`, every entry up to `coeff_max` is its maximum over prefix choices |
| `Crpc.ScenarioCoeffs` | src/CRPC.c:198-244 | the scenario's vector: entries up to `coeff_max` are maxima after their round, entries up to `total_wires` are maxima of the final vectors, the rest are zero |
| `Crpc.FaultsOf` | src/CRPC.c:190-196 | one fault per chosen name, each forcing the wire to 1 |
| `Crpc.Scenarios` | src/CRPC.c:177-269 | the combinations of 1 to `k` faults, all set, on generated names, and then the fault-free run last |
| `Crpc.RunScenario` | src/CRPC.c:198-257 | one scenario succeeds exactly when every prefix is found, and then holds its computed vector |
| `Crpc.RunAll` | src/CRPC.c:177-313 | fails exactly when some scenario circuit lacks an output prefix; otherwise every scenario is computed, in order |
| `Crpc.ComputeCrpc` | src/CRPC.c:135-316 | more than one output is refused; with one output, the scenarios of up to `k` set faults among the first `length` names and the fault-free one are computed with sizes up to `Crpc.SizeBound`, or the prefix assertion fails |
| `Crpc.UnclampedSizeOverrun` | src/CRPC.c:148-150 | as written, a `coeff_max` above `total_wires` makes the size loop write an entry past the `total_wires + 1` allocated |
| `Crpc.SizeBound` | src/CRPC.c:148-150 | the resolved `coeff_max`, cut to `total_wires`, so it indexes within the vectors; a bound that already fits is unchanged |
| `Crpc.ClampedWritesWithin` | src/CRPC.c:198-234 | with the clamped bound, every entry the size loop writes is below `total_wires + 1`, the size of the vectors |
| `PyCircuit.ParseEquation` | src/testing_correction.py:8-26 | three or five tokens are required (an empty third token fails); `~x` becomes `x + 1`; five tokens give `dst = arg1 op arg2` |
| `PyCircuit.ParseLine` | src/testing_correction.py:79-91 | a line gives at most one equation |
| `PyCircuit.ParseLines` | src/testing_correction.py:79-91 | the lines give at most one equation each |
| `PyCircuit.ParseLinesAppend` | src/testing_correction.py:79-91 | a file is read line by line: the equations of two halves are those of each half in order, and the first failure wins |
| `PyCircuit.LineRoundTrip` | src/testing_correction.py:79-91 | writing an equation on a line and reading it back gives the equation |
| `PyCircuit.TokensParse` | src/testing_correction.py:8-26 | the tokens of a written equation construct that equation |
| `PyCircuit.LineParses` | src/testing_correction.py:79-91 | a written equation line reads back as that one equation |
| `PyCircuit.Lookup` | src/testing_correction.py:33-37 | a lookup succeeds exactly for an evaluated name; otherwise it is a `KeyError` |
| `PyCircuit.Evaluate` | src/testing_correction.py:28-39 | `+` gives the ring sum and `*` the ring product of the operand values; any other operator copies `arg1`; a missing operand is a `KeyError` |
| `PyCircuit.NotIsPlusOne` | src/testing_correction.py:11-17 | `dst = ~x` evaluates to the value of `x` plus 1 |
| `PyCircuit.OtherOperatorsCopy` | src/testing_correction.py:36-37 | the operators `^` and `&` evaluate to the value of `arg1` |
| `PyCircuit.InitialEnv` | src/testing_correction.py:121-139 | the randoms, `0`, `1` and every input copy are defined; faulted ones are stuck, and copies take their share's variable |
| `PyCircuit.RunEqs` | src/testing_correction.py:141-148 | the loop defines exactly the names before it and the destinations; names not redefined keep their values; faulted destinations are stuck |
| `PyCircuit.RunEqsAppend` | src/testing_correction.py:141-148 | running two lists of equations in turn is running their concatenation |
| `PyCircuit.RunOuts` | src/testing_correction.py:150-158 | the output loop succeeds exactly when every output equation evaluates; each output then holds the value its last equation gives |
| `PyCircuit.EvaluateCircuit` | src/testing_correction.py:120-160 | the keys of the output dict are exactly the destinations of the output equations |
| `PyCircuit.FaultsAreStuck` | src/testing_correction.py:120-160 | every faulted name, wire or output takes the stuck value, whatever defines it |
| `PyCircuit.InitialStuck` | src/testing_correction.py:123-139 | faulted start names are stuck |
| `PyCircuit.EnvStuck` | src/testing_correction.py:141-148 | faulted names stay stuck through the equation loop |
| `PyCircuit.OutsStuck` | src/testing_correction.py:150-158 | every faulted output holds the stuck value |
| `PyCircuit.DuplicatesAreShares` | src/testing_correction.py:132-139 | an input copy that is neither faulted nor redefined evaluates to its share's variable |
| `PyCircuit.FaultFreeIgnoresSet` | src/testing_correction.py:120-160 | without faults, the `set` polarity does not change the evaluation |
| `PyCircuit.RunEqsNoFaults` | src/testing_correction.py:141-148 | without faults, the equation loop does not depend on `set` |
| `PyCircuit.RunOutsNoFaults` | src/testing_correction.py:150-158 | without faults, the output loop does not depend on `set` |
| `PyCircuit.Bound` | src/testing_correction.py:174 | `(nb_duplications - 1) // 2` with Python's floor division |
| `PyCircuit.Tally` | src/testing_correction.py:176-180 | counter `i` grows by the number of outputs of share `i` that differ from the reference; a missing reference is a `KeyError` |
| `PyCircuit.CanBeCorrected` | src/testing_correction.py:171-186 | correctable exactly when no share has more differing outputs than the bound |
| `PyCircuit.SelfCorrectable` | src/testing_correction.py:171-186 | compared with its own outputs, a circuit is correctable exactly when the bound is not negative |
| `PyCircuit.NoneDiffer` | src/testing_correction.py:177-180 | against identical values, no counter grows |
| `PyText.Split` | src/testing_correction.py:82 | `str.split()` gives non-empty tokens without whitespace |
| `PyText.SplitKeepsText` | src/testing_correction.py:82 | the tokens put back together are the line without its whitespace |
| `PyText.SplitToken` | src/testing_correction.py:82 | a token followed by nothing or by whitespace is split off whole |
| `PyText.SplitJoin` | src/testing_correction.py:82 | splitting undoes joining with single spaces |
| `PyText.SplitNewline` | src/testing_correction.py:82 | a trailing newline does not change the split |
| `PyText.RemoveFirst` | src/testing_correction.py:86-87 | `list.remove` succeeds exactly when the item is present and then removes one copy; otherwise it is a `ValueError` |
| `PyText.RemoveAfter` | src/testing_correction.py:86-87 | the first occurrence is the one removed |
| `PyText.Unbracket` | src/testing_correction.py:85-87 | `![` without `]` is a `ValueError`; otherwise both brackets are removed, or nothing when there is no `![` |
| `PyText.LineTokens` | src/testing_correction.py:79-89 | a line is skipped exactly when blank, a comment or empty after splitting; it fails exactly on bad brackets; otherwise it gives a sub-multiset of its tokens |
| `PyText.DropComment` | src/testing_correction.py:88-89 | an empty token list is an `IndexError`; otherwise at most the last token is dropped |
| `PyText.LineOfTokens` | src/testing_correction.py:79-89 | a line of tokens with an optional trailing comment gives back the tokens |
| `PyText.CommentDropped` | src/testing_correction.py:88-89 | the trailing comment token, if any, is what is dropped |
| `PyText.JoinedLine` | src/testing_correction.py:80-84 | a line of joined tokens is not skipped and splits back into them |
| `PyText.LineOfBracketed` | src/testing_correction.py:85-89 | a line with `![ ... ]` gives its tokens without the brackets |
| `PyText.Unbracketed` | src/testing_correction.py:85-87 | removing the brackets of `pre ![ mid ] post` gives `pre mid post` |
| `PyRead.ShareNamesLength` | src/testing_correction.py:70-72 | one input name per share of each input |
| `PyRead.EntriesHave` | src/testing_correction.py:70-74 | every copy of every share of every input gets an entry |
| `PyRead.EntriesAre` | src/testing_correction.py:70-74 | every entry is a copy of some share of some input |
| `PyRead.Assign` | src/testing_correction.py:73-74 | the dict's keys are the earlier keys and the assigned ones |
| `PyRead.CutDupName` | src/testing_correction.py:74 | the share name of a copy name is what comes before its last `_` |
| `PyRead.DupTableMeaning` | src/testing_correction.py:68-74 | `input_name_from_duplicate` maps copy `j` of share `i` of input `a` to `a` followed by `i` |
| `PyRead.ShareTableRange` | src/testing_correction.py:94-99 | every share index of `output_idx_from_duplicate` is one of the shares |
| `PyRead.OutputIdxShape` | src/testing_correction.py:101-106 | the positions taken are walked positions of output names, strictly descending |
| `PyRead.ExtractionChoice` | src/testing_correction.py:101-106 | the equation at `i` moves exactly when fewer later equations define its name than that name's count among the outputs |
| `PyRead.PopAll` | src/testing_correction.py:108-109 | popping the descending positions returns the equations there in order and leaves the others |
| `PyRead.ExtractOutputs` | src/testing_correction.py:101-109 | the output equations are the ones chosen, last first, and the remaining equations keep their order |
| `PyRead.Assemble` | src/testing_correction.py:93-117 | the circuit's inputs, randoms, counts and tables are those of the header and the extraction |
| `PyRead.ReadCircuit` | src/testing_correction.py:63-118 | anything but one output name fails the `assert`; a parse failure is passed on; the stored outputs are the fault-free ones |
| `PyRead.DuplicateIsShare` | src/testing_correction.py:132-139 | in a circuit that was read, an input copy that is neither faulted nor redefined evaluates to its share's variable |
| `PyCombs.CopyNames` | src/testing_correction.py:195-197 | copy `j` is named `input + "_" + str(j)` |
| `PyCombs.InputCombs` | src/testing_correction.py:188-207 | past the last input the result is empty; it fails (the `ValueError` of `itertools.combinations` with a negative `(nb_dup - 1) // 2`) exactly when an input remains and there is no copy |
| `PyCombs.ExtendLength` | src/testing_correction.py:199-205 | one level gives one list per pair of an earlier list and a combination |
| `PyCombs.ExtendSized` | src/testing_correction.py:199-205 | each list of a level has as many names as an earlier list plus a combination |
| `PyCombs.ExtendAt` | src/testing_correction.py:199-205 | entry `p * max(len(combs), 1) + q` of a level is `combs[q] + cs[p]` (just `cs[p]` when there is no earlier list): the combination loop outside, the earlier lists inside |
| `PyCombs.ExtendOver` | src/testing_correction.py:199-205 | a level draws its names from the earlier lists and the combinations |
| `PyCombs.CopyCombsSized` | src/testing_correction.py:200 | every combination of `cap` of an input's copies has `cap` names, so with `cap = (d-1)//2` each list adds that many faults per input |
| `PyCombs.InputCombsStep` | src/testing_correction.py:188-207 | one level extends the lists from the next input by the combinations of this input's copies |
| `PyCombs.InputCombsCount` | src/testing_correction.py:188-207 | with a copy, there are C(d, (d-1)//2) to the power of the remaining inputs lists |
| `PyCombs.InputCombsSized` | src/testing_correction.py:188-207 | each list faults `(d-1)//2` copies of every remaining input |
| `PyCombs.InputCombsNonEmpty` | src/testing_correction.py:188-207 | with a copy and an input left, there is at least one list |
| `PyCombs.InputCombsOver` | src/testing_correction.py:188-207 | every name in the lists is a copy of a remaining input |
| `PyCombs.Universe` | src/testing_correction.py:214-222 | the fault names are the equation destinations, the randoms and the output destinations, and `length` counts them |
| `PyCombs.CombsUpToShape` | src/testing_correction.py:233-234 | every combination scanned has 1 to `k` names, drawn from the fault names |
| `PyCombs.RandomFaults` | src/testing_correction.py:235-238 | `comb_rands` holds exactly the combination's random variables |
| `PyCombs.Reference` | src/testing_correction.py:240-243 | the reference evaluation can only fail when a random variable is faulted |
| `PyCombs.ReferenceIsRandomsOnly` | src/testing_correction.py:240-243 | using the stored outputs when no random is faulted is a shortcut: they equal the outputs with only the faulted randoms |
| `PyCombs.Verdict` | src/testing_correction.py:245 | the verdict compares the circuit under `prefix + comb` with the reference of `comb` |
| `PyCombs.RandomsOnlyCorrected` | src/testing_correction.py:235-246 | faults on random variables alone are always corrected when there is a copy |
| `PyCombs.Uncorrected` | src/testing_correction.py:250-264 | keeps exactly the combinations judged uncorrectable, and fails exactly when some verdict fails |
| `PyCombs.UncorrectedIsFilter` | src/testing_correction.py:250-264 | the kept combinations are the input list filtered by the verdict, in order and with every repeat `itertools.combinations` yields |
| `PyCombs.PerPrefix` | src/testing_correction.py:229-248 | one list of uncorrected combinations per input prefix, in order |
| `PyCombs.UncorrectedFaultyCombs` | src/testing_correction.py:213-266 | returns the number of fault names. For CRP it gives the uncorrectable combinations of 1 to `k` names. For CRPC it gives one such list per input-copy prefix. CRPC with inputs and no copy is a `ValueError` |

## Left out

- `parse_file` header handling (`fopen`, `getline`, the `#ORDER`, `#SHARES` and
  `#DUPLICATIONS` lines read with `sscanf`, the 99-share limit, "Unrecognized line"):
  this is I/O. The model starts from the header maps and the equation lines.
- Transitions (`transition == true`, parser.c:1004-1017): this is the transition
  leakage model, a separate extension. It is off in every caller of the drivers.
- `compute_total_wires`, `compute_rands_usage`, `compute_contained_secrets`,
  `compute_bit_deps`, `print_circuit`, `remove_elementary_wires`: these are not part
  of this model. The drivers read four fields of a built circuit (`Drivers.Built`):
  `length`, `total_wires`, `share_count` (for `t_in`, CRPC.c:219) and `deps->names`
  (in `construct_output_prefix`, CRPC.c:114-125).
- The four-argument `gen_circuit`, which applies faults, is not part of this model.
  The drivers take it as the parameter `build`.
- `find_all_failures`, `update_coeff_c_single`, `first_comb`, `incr_comb_in_place`
  and `gen_combinations` are not part of this model. They are parameters (`search`,
  `single`, `visits`, `outCombs`), each with the one property the drivers rely on.
- `get_failure_proba`, `compute_combined_intermediate_leakage_proba` and the
  probability in the Python `main` are left out because they are floating-point and
  GMP output. So is the `main` function itself, which uses argument parsing and
  file output.
- Sage's `BooleanPolynomialRing` is an abstract ring (`Ring<V>` with sum, product,
  constants and variables). No algebraic law of the ring is assumed.
- `free`/`malloc` and every memory-management detail are left out. This includes
  `free_circuit(c)` at CRP.c:190, which frees the fault-free circuit again instead
  of the scenario circuit. It also includes `calloc(c->total_wires+1, ..)` at
  CRPC.c:198, which reads the circuit freed at CRPC.c:152; the model reads the
  fault-free `build([]).totalWires` there.
- Printing is left out (`printf`, `print_str_map`, `print_evaluation`).
- C `int`/`uint64_t` widths are not modelled. Dependency slots and coefficients are
  unbounded naturals, and `Pow2` (used by `Circuits.Pow2Below` and `Deps.XorBound`)
  is unbounded. The C code computes the share masks `1 << i` and `(1 << shares) - 1`
  in `int` and stores them in 64-bit dependencies, so it differs from the model for
  more than 31 shares, although the header accepts up to 99.
- The 10-byte `sprintf` buffers of `generate_names` and `construct_output_prefix`
  are not modelled. Names are whole strings, so a name of ten or more characters,
  which would overflow the buffer in C, is modelled as written in full.
- `is_space` recognises only space, tab and newline, as in the C code. On the Python
  side, `PyText.IsPySpace` is `str.isspace`, the set `str.split()` splits on.
- Crpc.ComputeCrpc: four inputs are excluded. A `coeff_max` below -1 is one: the
  tail loop at CRPC.c:239-243 then reads and writes `coeffs` at negative indices.
  A gadget with no output is another: `construct_output_prefix` (CRPC.c:111) then
  dereferences a NULL head as soon as `t >= 1`. The third is a `length` above the
  number of names written, or a negative one: the enumeration would then pick
  unset cells of `names`. `FaultNames.GeneratedLength` says when `generate_names`
  writes fewer names than its `length`. Fewer than `length` names are excluded;
  more are modelled, and the enumeration picks among the first `length` only, as
  the C does after overrunning the `length` cells it allocated (CRP.c:48).
  The fourth is a fault list whose circuit has more wires than the fault-free one
  (`Drivers.NoWider`): the tail loop at CRPC.c:239 runs up to the faulted circuit's
  `total_wires`, past the vectors sized by the fault-free one (CRPC.c:198). A
  narrower faulted circuit is modelled: its entries past its `total_wires` stay
  zero. A `coeff_max` above `total_wires` is not excluded but clamped by
  `Crpc.SizeBound` (see Findings).
- Crpc.RunAll: assumes every fault list gives a circuit of at most the fault-free
  `total_wires` (`Drivers.WiresBelow`), for the reason given for
  `Crpc.ComputeCrpc`. `compute_total_wires` is not part of this model, so nothing
  here shows that faults keep the number of wires.
- Crpc.RunScenario: the same assumption for the one circuit of its fault list.
- Crp.ComputeCrpCoeffs: assumes `0 <= length <= |names|`. A `length` above the
  number of names written would read unset cells of `names`, and a negative one
  would size negative arrays. When
  `generate_names` writes more names than its `length` (`FaultNames.GeneratedLength`
  gives the difference), only the first `length` are faulted. The C does the same
  after writing past its array. This happens, for example, with `nb_duplications`
  of 1: `gen_circuit` then names outputs `"%s%d"` (parser.c:1060-1068), while
  `generate_names` filters only `"%s%d_%d"` names (CRP.c:34-45 and 71-83).
- Circuits.GenCircuit: an output whose expanded share name is "0" (an output with an
  empty name) is excluded, because the C walk that moves the outputs would then
  start from the constant wire and could read before the list.
- PyRead.ReadCircuit: starts after the five header lines. The file read, the skip of a first
  line containing "ORDER" and the positional header parse (testing_correction.py:48-61:
  `int(lines[0].split()[1])`, `int(lines[1].split()[1])`, `lines[2..4].split()[1:]`)
  are taken as given, as a split `Header` and the remaining lines. Unlike the C
  reader, which matches each header line by its keyword, Python reads the header by
  position, so a short or non-numeric header raises `IndexError` or `ValueError`
  there. Those failures are not modelled.
- StrMaps.ParseThenReverse: `parse_file` reverses the `in`, `randoms` and `out` maps
  unconditionally (parser.c:567-569), so a file with no input, no random (or no
  `#RANDOMS` line) or no output crashes there on the NULL head (parser.c:46 and
  136). The model returns `EmptyMap` for that map. `Circuits.GenCircuit` still
  accepts an empty `rands`, a circuit the C parser never delivers.
- Crpc.PrefixVec: the search is an oracle, so its contract states only the width;
  what the vector holds is stated by `Crpc.SizeLoop` and `Crpc.ScenarioCoeffs`.
- Crp.Rounds: the same; the contents are stated by `Crp.ComputeCrpCoeffs` through
  `SlotVector`.
- Builder.GlitchOf: its contract states only the width; the meaning of the glitch
  set is stated by `ProductLaws.GlitchLaws`.
- Builder.OperandGlitch: the same, through `Deps.GlitchUnionMeaning`.
- Drivers.Feed: the callback is an oracle, so only the width is kept.

## Findings

| source | as written | input that shows it | evidently intended | confidence | as-written member | corrected member |
|---|---|---|---|---|---|---|
| src/parser.c:1019-1041 | the correction-record guard tests `dep[first_correction_idx + corr_output_idx] == 1` | a file with one correction output followed by an equation `d = 1`: the index has reached the constant slot, so `d` passes the guard and writes a record past the end of the `correction_outputs` arrays (and with no correction output the index is -1) | one record per correction output, guarded by the equation's own `correction_output` flag | not executed | `BuilderFacts.CorrGuardOverrun` | `BuilderFacts.CorrRecordsCounted` |
| src/parser.c:772-773 | `deps->length` counts `nb_duplications` copies of every input share, but the input loop at 821-840 writes one copy when `nb_duplications <= 1` | `#DUPLICATIONS 0` with one input and one share: three start wires for two declared cells, so the writes overflow `deps->deps`, `names`, `faulted` and `weights` | the length counts the copies actually written, at least one per share | not executed | `Circuits.ZeroDuplicationsOverflow` | `Circuits.DeclaredLengthMatches` |
| src/parser.c:1168 | `exit(EXIT_FAILURE)` before `return c` | any circuit file whose equation pass succeeds: the process exits instead of returning the circuit | `return c` after freeing the temporaries | not executed | `Circuits.GenCircuitAsWritten` | `Circuits.GenCircuit` |
| src/parser.c:1125 | `c->length = deps->length - out->next_val * shares * nb_duplications`, with the raw `nb_duplications`, while only one copy of each output share is written when `nb_duplications <= 1` | two inputs, one share, `#DUPLICATIONS 0`, output `o` and the one equation `o0 = 1`: four wires precede the output copy, but the length is 3, so the second input share falls past `c->length`, among the wires the drivers take for output copies | the wires less the output copies actually written | not executed | `Circuits.LengthAsWrittenGap` | `Circuits.AssembleFacts` |
| src/CRPC.c:148-150 | `if(coeff_max == -1) coeff_max = c->length;` with no upper clamp, then `coeffs[size]` is written for `size <= coeff_max` (206-234) into vectors of `total_wires + 1` entries (198) | a `coeff_max` of `total_wires + 1`: the last size round writes one entry past both `coeffs` and `coeffs_out_comb[l]` | the bound cut to `total_wires`, the last index of the vectors of `total_wires + 1` entries (198) | not executed | `Crpc.UnclampedSizeOverrun` | `Crpc.SizeBound` |

=== FILE: builder.dfy ===
/** The equation pass of `gen_circuit` (src/parser.c): every wire of the circuit gets a
    dependency vector, a glitch set and a fault taint, computed from the wires named by
    its equation's operands; multiplications and correction outputs are recorded, and the
    operands' weights grow. */
module Builder {
  import opened Results
  import opened Equations
  import opened Deps
  import StrMaps

  /** The sizes that fix the slot layout of every dependency vector: secret inputs, then
      randoms, then multiplications, then correction outputs, then the constant slot. */
  datatype Layout = Layout(nIn: nat, nRand: nat, nMult: nat, nCorr: nat, shares: nat, glitch: bool)

  /** `deps_size`. */
  function Size(lay: Layout): nat
  {
    lay.nIn + lay.nRand + lay.nMult + lay.nCorr + 1
  }

  /** `linear_deps_size`: the first multiplication slot. */
  function Lin(lay: Layout): nat
  {
    lay.nIn + lay.nRand
  }

  /** The slot of the `k`-th correction output (`first_correction_idx + k`). */
  function CorrSlot(lay: Layout, k: nat): nat
  {
    Lin(lay) + lay.nMult + k
  }

  /** The constant slot, holding 1 for the wire "1" and its sums. */
  function ConstSlot(lay: Layout): nat
  {
    Size(lay) - 1
  }

  /** A wire with its standard dependency, its glitch set and its fault taint. */
  datatype Wire = Wire(name: string, dep: Dep, glitch: seq<Dep>, faulted: bool)

  /** A `MultDependency` and the operand positions kept in `temporary_mult_idx`. */
  datatype MultRecord = MultRecord(dst: string, left: string, right: string, leftPos: nat, rightPos: nat)

  /** An entry of `correction_outputs`. */
  datatype CorrRecord = CorrRecord(dst: string, glitch: seq<Dep>)

  datatype State = State(
    wires: seq<Wire>,
    positions: StrMaps.StrMap,   // `positions_map`
    weights: seq<int>,
    multIdx: nat,
    corrIdx: nat,
    mults: seq<MultRecord>,
    corrs: seq<CorrRecord>)

  /** Input slots hold share masks below `1 << shares`; every other slot holds 0 or 1. */
  function SlotBound(lay: Layout, k: nat): nat
  {
    if k < lay.nIn then Pow2(lay.shares) else 2
  }

  predicate Bounded(lay: Layout, d: Dep)
  {
    forall k :: 0 <= k < |d| ==> d[k] < SlotBound(lay, k)
  }

  predicate WireOk(lay: Layout, w: Wire)
  {
    |w.dep| == Size(lay) && Sized(w.glitch, Size(lay)) && Bounded(lay, w.dep)
  }

  /** `positions_map` holds one cell per wire, newest first, valued by the wire's index. */
  predicate Mirrors(m: StrMaps.StrMap, wires: seq<Wire>)
  {
    && |m.entries| == |wires|
    && m.nextVal == |wires|
    && forall k :: 0 <= k < |wires| ==>
         m.entries[k] == StrMaps.Entry(wires[|wires| - 1 - k].name, |wires| - 1 - k)
  }

  /** The vector does not use the slot of a multiplication or correction output that
      has not been reached. */
  predicate ClearFrom(lay: Layout, d: Dep, multIdx: nat, corrIdx: nat)
    requires |d| == Size(lay)
  {
    && (forall s :: Lin(lay) + multIdx <= s < Lin(lay) + lay.nMult ==> d[s] == 0)
    && (forall s :: CorrSlot(lay, corrIdx) <= s < CorrSlot(lay, lay.nCorr) ==> d[s] == 0)
  }

  /** No wire depends yet on a multiplication or correction output to come. */
  predicate FutureSlotsClear(lay: Layout, wires: seq<Wire>, multIdx: nat, corrIdx: nat)
  {
    forall i :: 0 <= i < |wires| ==>
      |wires[i].dep| == Size(lay) && ClearFrom(lay, wires[i].dep, multIdx, corrIdx)
  }

  predicate Inv(lay: Layout, st: State)
  {
    && (forall i :: 0 <= i < |st.wires| ==> WireOk(lay, st.wires[i]))
    && Mirrors(st.positions, st.wires)
    && |st.weights| == |st.wires|
    && ZeroOrOdd(st.weights)
    && st.multIdx <= lay.nMult && st.corrIdx <= lay.nCorr
    && |st.mults| == st.multIdx && |st.corrs| == st.corrIdx
    && (forall k :: 0 <= k < |st.mults| ==>
          st.mults[k].leftPos < |st.wires| && st.mults[k].rightPos < |st.wires|)
    && FutureSlotsClear(lay, st.wires, st.multIdx, st.corrIdx)
  }

  /** `dep_map_get` together with `str_map_get(positions_map, ..)`: both maps gain one
      cell per wire in the same order, so both find the most recent wire of that name. */
  function Lookup(st: State, name: string): (r: Result<nat, Failure>)
    requires Mirrors(st.positions, st.wires)
    ensures r.Ok? ==> r.value < |st.wires| && st.wires[r.value].name == name
    ensures r.Ok? ==> forall j :: r.value < j < |st.wires| ==> st.wires[j].name != name
    ensures r.Err? <==> forall j :: 0 <= j < |st.wires| ==> st.wires[j].name != name
    ensures r.Err? ==> r.error == NotFound(name, "Dependencies")
  {
    match StrMaps.FindFrom(st.positions.entries, name, 0)
    case Some(k) =>
      MirrorsFound(st.positions, st.wires, name, k);
      Ok(st.positions.entries[k].val)
    case None =>
      MirrorsMissing(st.positions, st.wires, name);
      Err(NotFound(name, "Dependencies"))
  }

  /** The first cell of `positions_map` with a name holds the index of the last wire
      with that name. */
  lemma MirrorsFound(m: StrMaps.StrMap, wires: seq<Wire>, name: string, k: nat)
    requires Mirrors(m, wires) && k < |m.entries| && m.entries[k].key == name
    requires forall j :: 0 <= j < k ==> m.entries[j].key != name
    ensures m.entries[k].val == |wires| - 1 - k && wires[|wires| - 1 - k].name == name
    ensures forall j :: |wires| - 1 - k < j < |wires| ==> wires[j].name != name
  {
    var n := |wires|;
    forall j | n - 1 - k < j < n ensures wires[j].name != name {
      assert m.entries[n - 1 - j].key == wires[j].name;
    }
  }

  lemma MirrorsMissing(m: StrMaps.StrMap, wires: seq<Wire>, name: string)
    requires Mirrors(m, wires)
    requires forall j :: 0 <= j < |m.entries| ==> m.entries[j].key != name
    ensures forall j :: 0 <= j < |wires| ==> wires[j].name != name
  {
    var n := |wires|;
    forall j | 0 <= j < n ensures wires[j].name != name {
      assert m.entries[n - 1 - j].key == wires[j].name;
    }
  }

  /** The multiplication-slot range that `gen_circuit` checks before accepting a
      multiplication: an operand that already depends on a product is rejected. */
  predicate DependsOnProduct(lay: Layout, d: Dep)
    requires |d| == Size(lay)
  {
    exists k :: Lin(lay) <= k < Lin(lay) + lay.nMult && d[k] != 0
  }

  /** `is_dep_constant` and the constant slot together: the wire is the constant 1. */
  predicate IsOne(lay: Layout, d: Dep)
    requires |d| == Size(lay)
  {
    IsDepConstant(d, Size(lay)) && d[ConstSlot(lay)] != 0
  }

  /** A multiplication that receives a slot of its own: outside correction blocks. */
  predicate Plain(e: Equation)
  {
    e.expr.op == Mult && !e.correction
  }

  /** On the equations the parser produces, this is the test `count_mults` counts. */
  lemma PlainIsCounted(e: Equation)
    requires WellFlagged(e)
    ensures Plain(e) <==> IsPlainMult(e)
  {
  }

  /** A vector the pass may produce after one more equation: the right width, within the
      slot bounds, and clear of the slots still to come. */
  predicate Fits(lay: Layout, d: Dep, multIdx: nat, corrIdx: nat)
  {
    |d| == Size(lay) && Bounded(lay, d) && ClearFrom(lay, d, multIdx, corrIdx)
  }

  lemma FitsLater(lay: Layout, d: Dep, multIdx: nat, corrIdx: nat, m2: nat, c2: nat)
    requires Fits(lay, d, multIdx, corrIdx) && multIdx <= m2 && corrIdx <= c2
    ensures Fits(lay, d, m2, c2)
  {
  }

  lemma SingleFits(lay: Layout, slot: nat, multIdx: nat, corrIdx: nat)
    requires Lin(lay) <= slot < Size(lay)
    requires !(Lin(lay) + multIdx <= slot < Lin(lay) + lay.nMult)
    requires !(CorrSlot(lay, corrIdx) <= slot < CorrSlot(lay, lay.nCorr))
    ensures Fits(lay, Single(Size(lay), slot, 1), multIdx, corrIdx)
  {
  }

  /** Sums keep the slot bounds (XOR of share masks stays a share mask) and do not
      create a slot that no summand uses. */
  lemma XorFits(lay: Layout, a: Dep, b: Dep, multIdx: nat, corrIdx: nat)
    requires Fits(lay, a, multIdx, corrIdx) && Fits(lay, b, multIdx, corrIdx)
    ensures Fits(lay, XorVec(a, b), multIdx, corrIdx)
  {
    var x := XorVec(a, b);
    forall k | 0 <= k < |x| ensures x[k] < SlotBound(lay, k) {
      if k < lay.nIn {
        XorBound(a[k], b[k], lay.shares);
      } else {
        XorBound(a[k], b[k], 1);
      }
    }
  }

  /** The product of two operands inside a correction block. A constant operand gives
      the other operand (constant 1) or zero (constant 0), equal operands give either
      one, a correction output gets its own slot, and anything else is tainted. */
  function CorrectionProduct(lay: Layout, e: Equation, l: Wire, r: Wire, multIdx: nat, corrIdx: nat): (p: (Dep, bool))
    requires WireOk(lay, l) && WireOk(lay, r)
    requires Fits(lay, l.dep, multIdx, corrIdx + CorrStep(e)) && Fits(lay, r.dep, multIdx, corrIdx + CorrStep(e))
    requires e.correctionOutput ==> corrIdx < lay.nCorr
    ensures Fits(lay, p.0, multIdx, corrIdx + CorrStep(e))
  {
    var size := Size(lay);
    if IsDepConstant(l.dep, size) && !l.faulted then
      (if l.dep[size - 1] != 0 then (r.dep, r.faulted) else (Zero(size), false))
    else if IsDepConstant(r.dep, size) && !r.faulted then
      (if r.dep[size - 1] != 0 then (l.dep, l.faulted) else (Zero(size), false))
    else if AreDepEqual(l.dep, r.dep, size) && !l.faulted && !r.faulted then
      (l.dep, false)
    else if e.correctionOutput then
      SingleFits(lay, CorrSlot(lay, corrIdx), multIdx, corrIdx + 1);
      (Single(size, CorrSlot(lay, corrIdx), 1), false)
    else
      (Zero(size), true)
  }

  /** The increments of the two counters for one equation. */
  function MultStep(e: Equation): nat
  {
    if Plain(e) then 1 else 0
  }

  function CorrStep(e: Equation): nat
  {
    if e.correctionOutput then 1 else 0
  }

  /** The dependency and taint of the wire an equation defines. A plain multiplication
      fails exactly when an operand already depends on a product. */
  function Combine(lay: Layout, e: Equation, l: Wire, r: Wire, multIdx: nat, corrIdx: nat): (c: Result<(Dep, bool), Failure>)
    requires WireOk(lay, l) && WireOk(lay, r)
    requires Fits(lay, l.dep, multIdx, corrIdx) && Fits(lay, r.dep, multIdx, corrIdx)
    requires Plain(e) ==> multIdx < lay.nMult
    requires e.correctionOutput ==> corrIdx < lay.nCorr
    ensures c.Err? <==> Plain(e) && (DependsOnProduct(lay, l.dep) || DependsOnProduct(lay, r.dep))
    ensures c.Err? ==> c.error == MultiplicativeDepth(e.dst)
    ensures c.Ok? ==> Fits(lay, c.value.0, multIdx + MultStep(e), corrIdx + CorrStep(e))
  {
    var m2, c2 := multIdx + MultStep(e), corrIdx + CorrStep(e);
    FitsLater(lay, l.dep, multIdx, corrIdx, m2, c2);
    FitsLater(lay, r.dep, multIdx, corrIdx, m2, c2);
    match e.expr.op
    case Asgn => Ok((l.dep, l.faulted))
    case Add =>
      XorFits(lay, l.dep, r.dep, m2, c2);
      Ok((XorVec(l.dep, r.dep), l.faulted || r.faulted))
    case Mult => Product(lay, e, l, r, multIdx, corrIdx)
  }

  /** The `Mult` case of `Combine`: a fresh multiplication slot outside correction
      blocks, the correction-block rules inside. */
  function Product(lay: Layout, e: Equation, l: Wire, r: Wire, multIdx: nat, corrIdx: nat): (c: Result<(Dep, bool), Failure>)
    requires e.expr.op == Mult
    requires WireOk(lay, l) && WireOk(lay, r)
    requires Fits(lay, l.dep, multIdx + MultStep(e), corrIdx + CorrStep(e))
    requires Fits(lay, r.dep, multIdx + MultStep(e), corrIdx + CorrStep(e))
    requires Plain(e) ==> multIdx < lay.nMult
    requires e.correctionOutput ==> corrIdx < lay.nCorr
    ensures c.Err? <==> Plain(e) && (DependsOnProduct(lay, l.dep) || DependsOnProduct(lay, r.dep))
    ensures c.Err? ==> c.error == MultiplicativeDepth(e.dst)
    ensures c.Ok? ==> Fits(lay, c.value.0, multIdx + MultStep(e), corrIdx + CorrStep(e))
  {
    if !e.correction then
      if DependsOnProduct(lay, l.dep) || DependsOnProduct(lay, r.dep) then Err(MultiplicativeDepth(e.dst))
      else
        SingleFits(lay, Lin(lay) + multIdx, multIdx + 1, corrIdx + CorrStep(e));
        Ok((Single(Size(lay), Lin(lay) + multIdx, 1), l.faulted || r.faulted))
    else Ok(CorrectionProduct(lay, e, l, r, multIdx, corrIdx))
  }

  /** The glitch sets of the operands, left first, deduplicated (the right operand only
      for a binary operation). */
  function OperandGlitch(lay: Layout, e: Equation, l: Wire, r: Wire): (g: seq<Dep>)
    requires WireOk(lay, l) && WireOk(lay, r)
    ensures Sized(g, Size(lay))
  {
    if e.expr.op == Asgn then PushNew([], l.glitch, Size(lay))
    else GlitchUnion(l.glitch, r.glitch, Size(lay))
  }

  /** The glitch set of the new wire: its own dependency alone when glitches are off or
      stopped by `![ ]` and the wire is untainted, the operands' sets otherwise. */
  function GlitchOf(lay: Layout, e: Equation, l: Wire, r: Wire, dep: Dep, faulted: bool): (g: seq<Dep>)
    requires WireOk(lay, l) && WireOk(lay, r) && |dep| == Size(lay)
    ensures Sized(g, Size(lay))
  {
    if (!lay.glitch || e.antiGlitch) && !faulted then [dep] else OperandGlitch(lay, e, l, r)
  }

  /** The correction-output record for the equation, guarded by the equation's own flag;
      the record holds the operands' glitch sets when the wire received its correction
      slot, and nothing otherwise. */
  function CorrRecordOf(lay: Layout, e: Equation, l: Wire, r: Wire, dep: Dep, corrIdx: nat): (c: Option<CorrRecord>)
    requires WireOk(lay, l) && WireOk(lay, r) && |dep| == Size(lay)
    requires e.correctionOutput ==> corrIdx < lay.nCorr
    ensures c.Some? <==> e.correctionOutput
    ensures c.Some? ==> c.value.dst == e.dst
  {
    if !e.correctionOutput then None
    else if dep[CorrSlot(lay, corrIdx)] == 1 then Some(CorrRecord(e.dst, OperandGlitch(lay, e, l, r)))
    else Some(CorrRecord(e.dst, []))
  }

  /** The guard as `gen_circuit` writes it: the slot `first_correction_idx +
      corr_output_idx` holds 1, or the equation is a correction output.
      `first_correction_idx` is -1 when there are no correction outputs; an index
      outside the vector is read as not holding 1. */
  function CorrGuardAsWritten(lay: Layout, e: Equation, dep: Dep, corrIdx: nat): (fires: bool)
    ensures e.correctionOutput ==> fires
  {
    var first := if lay.nCorr == 0 then -1 else Lin(lay) + lay.nMult;
    var idx := first + corrIdx;
    (0 <= idx < |dep| && dep[idx] == 1) || e.correctionOutput
  }

  /** `weights[idx] += weights[idx] == 0 ? 1 : 2`. */
  function Bump(w: int): (r: int)
    ensures w == 0 ==> r == 1
    ensures w > 0 && w % 2 == 1 ==> r % 2 == 1 && r > w
  {
    if w == 0 then 1 else w + 2
  }

  function BumpAt(ws: seq<int>, i: nat): (r: seq<int>)
    requires i < |ws|
    ensures |r| == |ws| && r[i] == Bump(ws[i])
    ensures forall j :: 0 <= j < |ws| && j != i ==> r[j] == ws[j]
  {
    ws[i := Bump(ws[i])]
  }

  /** Every wire of a state satisfying the invariant fits the current counters. */
  lemma WireFits(lay: Layout, st: State, i: nat)
    requires Inv(lay, st) && i < |st.wires|
    ensures WireOk(lay, st.wires[i]) && Fits(lay, st.wires[i].dep, st.multIdx, st.corrIdx)
  {
  }

  /** `str_map_add(positions_map, dst)` next to the new wire keeps the mirror. */
  lemma MirrorsAdd(m: StrMaps.StrMap, wires: seq<Wire>, w: Wire)
    requires Mirrors(m, wires)
    ensures Mirrors(StrMaps.Add(m, w.name), wires + [w])
  {
    var n := |wires|;
    var m2, ws := StrMaps.Add(m, w.name), wires + [w];
    forall k | 0 <= k < n + 1 ensures m2.entries[k] == StrMaps.Entry(ws[n - k].name, n - k) {
      if k > 0 {
        assert m2.entries[k] == m.entries[k - 1];
        assert ws[n - k] == wires[n - 1 - (k - 1)];
      }
    }
  }

  /** Weights are 0 (unused) or positive and odd. */
  predicate ZeroOrOdd(ws: seq<int>)
  {
    forall j :: 0 <= j < |ws| ==> ws[j] == 0 || (ws[j] > 0 && ws[j] % 2 == 1)
  }

  /** The weight update of one equation: the left operand, then the right one of a
      binary operation (twice the same wire when both operands name it). */
  function BumpOperands(ws: seq<int>, binary: bool, li: nat, ri: nat): (r: seq<int>)
    requires li < |ws| && ri < |ws|
    ensures |r| == |ws|
    ensures ZeroOrOdd(ws) ==> ZeroOrOdd(r)
  {
    if binary then BumpAt(BumpAt(ws, li), ri) else BumpAt(ws, li)
  }

  /** Appends the wire an equation defines, with its bookkeeping. */
  function Extend(lay: Layout, st: State, e: Equation, li: nat, ri: nat, dep: Dep, faulted: bool): (r: State)
    requires Inv(lay, st) && li < |st.wires| && ri < |st.wires|
    requires Fits(lay, dep, st.multIdx + MultStep(e), st.corrIdx + CorrStep(e))
    requires Plain(e) ==> st.multIdx < lay.nMult
    requires e.correctionOutput ==> st.corrIdx < lay.nCorr
    ensures Inv(lay, r)
    ensures |r.wires| == |st.wires| + 1 && r.wires[..|st.wires|] == st.wires
    ensures r.wires[|st.wires|].name == e.dst
    ensures r.wires[|st.wires|].dep == dep && r.wires[|st.wires|].faulted == faulted
    ensures r.multIdx == st.multIdx + MultStep(e) && r.corrIdx == st.corrIdx + CorrStep(e)
  {
    var l, rw := st.wires[li], st.wires[ri];
    WireFits(lay, st, li);
    WireFits(lay, st, ri);
    var w := Wire(e.dst, dep, GlitchOf(lay, e, l, rw, dep, faulted), faulted);
    var weights := BumpOperands(st.weights, e.expr.op != Asgn, li, ri) + [0];
    var mults := MultsAfter(st.mults, e, li, ri, |st.wires|);
    var corr := CorrRecordOf(lay, e, l, rw, dep, st.corrIdx);
    var corrs := if corr.Some? then st.corrs + [corr.value] else st.corrs;
    ExtendInv(lay, st, w, weights, st.multIdx + MultStep(e), st.corrIdx + CorrStep(e), mults, corrs);
    State(st.wires + [w], StrMaps.Add(st.positions, w.name), weights,
          st.multIdx + MultStep(e), st.corrIdx + CorrStep(e), mults, corrs)
  }

  /** The multiplication records after one equation: a plain multiplication appends its
      record, with operand positions among the wires already defined. */
  function MultsAfter(ms: seq<MultRecord>, e: Equation, li: nat, ri: nat, n: nat): (r: seq<MultRecord>)
    requires li < n && ri < n
    requires forall k :: 0 <= k < |ms| ==> ms[k].leftPos < n && ms[k].rightPos < n
    ensures |r| == |ms| + MultStep(e)
    ensures forall k :: 0 <= k < |r| ==> r[k].leftPos < n && r[k].rightPos < n
  {
    if Plain(e) then ms + [MultRecord(e.dst, e.expr.left, e.expr.right, li, ri)] else ms
  }

  /** Appending a wire that fits the counters, with a weight for it and the records of
      the step, keeps the invariant. */
  lemma ExtendInv(lay: Layout, st: State, w: Wire, weights: seq<int>, m2: nat, c2: nat,
                  mults: seq<MultRecord>, corrs: seq<CorrRecord>)
    requires Inv(lay, st) && st.multIdx <= m2 <= lay.nMult && st.corrIdx <= c2 <= lay.nCorr
    requires WireOk(lay, w) && Fits(lay, w.dep, m2, c2)
    requires |weights| == |st.wires| + 1 && ZeroOrOdd(weights[..|st.wires|]) && weights[|st.wires|] == 0
    requires |mults| == m2 && |corrs| == c2
    requires forall k :: 0 <= k < |mults| ==> mults[k].leftPos < |st.wires| && mults[k].rightPos < |st.wires|
    ensures Inv(lay, State(st.wires + [w], StrMaps.Add(st.positions, w.name), weights, m2, c2, mults, corrs))
  {
    MirrorsAdd(st.positions, st.wires, w);
    ExtendFits(lay, st, w, m2, c2);
    var n := |st.wires|;
    forall j | 0 <= j < |weights| ensures weights[j] == 0 || (weights[j] > 0 && weights[j] % 2 == 1) {
      if j < n {
        assert weights[j] == weights[..n][j];
      }
    }
  }

  lemma ExtendFits(lay: Layout, st: State, w: Wire, m2: nat, c2: nat)
    requires Inv(lay, st) && st.multIdx <= m2 && st.corrIdx <= c2
    requires WireOk(lay, w) && Fits(lay, w.dep, m2, c2)
    ensures var ws := st.wires + [w];
            && (forall i :: 0 <= i < |ws| ==> WireOk(lay, ws[i]))
            && FutureSlotsClear(lay, ws, m2, c2)
  {
    var ws := st.wires + [w];
    forall i | 0 <= i < |ws| ensures WireOk(lay, ws[i]) && |ws[i].dep| == Size(lay) && ClearFrom(lay, ws[i].dep, m2, c2) {
      if i < |st.wires| {
        WireFits(lay, st, i);
        FitsLater(lay, ws[i].dep, st.multIdx, st.corrIdx, m2, c2);
      }
    }
  }

  /** One equation of the pass: look the operands up (left first), compute the new wire,
      record a multiplication or correction output, bump the operands' weights and append
      the wire under its destination name. */
  function Step(lay: Layout, st: State, e: Equation): (r: Result<State, Failure>)
    requires Inv(lay, st)
    requires Plain(e) ==> st.multIdx < lay.nMult
    requires e.correctionOutput ==> st.corrIdx < lay.nCorr
    ensures r.Ok? ==> Inv(lay, r.value)
    ensures r.Ok? ==> |r.value.wires| == |st.wires| + 1 && r.value.wires[..|st.wires|] == st.wires
                      && r.value.wires[|st.wires|].name == e.dst
    ensures r.Ok? ==> r.value.multIdx == st.multIdx + MultStep(e) && r.value.corrIdx == st.corrIdx + CorrStep(e)
    ensures r.Err? ==> r.error in {NotFound(e.expr.left, "Dependencies"), NotFound(e.expr.right, "Dependencies"),
                                    MultiplicativeDepth(e.dst)}
  {
    var li :- Lookup(st, e.expr.left);
    var ri :- if e.expr.op == Asgn then Ok(li) else Lookup(st, e.expr.right);
    StepAt(lay, st, e, li, ri)
  }

  /** The part of `Step` after the operands have been found at `li` and `ri`. */
  function StepAt(lay: Layout, st: State, e: Equation, li: nat, ri: nat): (r: Result<State, Failure>)
    requires Inv(lay, st) && li < |st.wires| && ri < |st.wires|
    requires Plain(e) ==> st.multIdx < lay.nMult
    requires e.correctionOutput ==> st.corrIdx < lay.nCorr
    ensures r.Ok? ==> Inv(lay, r.value)
    ensures r.Ok? ==> |r.value.wires| == |st.wires| + 1 && r.value.wires[..|st.wires|] == st.wires
                      && r.value.wires[|st.wires|].name == e.dst
    ensures r.Ok? ==> r.value.multIdx == st.multIdx + MultStep(e) && r.value.corrIdx == st.corrIdx + CorrStep(e)
    ensures r.Err? ==> r.error == MultiplicativeDepth(e.dst)
  {
    WireFits(lay, st, li);
    WireFits(lay, st, ri);
    var c :- Combine(lay, e, st.wires[li], st.wires[ri], st.multIdx, st.corrIdx);
    Ok(Extend(lay, st, e, li, ri, c.0, c.1))
  }

  /** The names of wires, and the destinations of equations, in order. */
  function Names(ws: seq<Wire>): (r: seq<string>)
    ensures |r| == |ws| && forall i :: 0 <= i < |ws| ==> r[i] == ws[i].name
  {
    seq(|ws|, i requires 0 <= i < |ws| => ws[i].name)
  }

  function Dsts(eqs: seq<Equation>): (r: seq<string>)
    ensures |r| == |eqs| && forall i :: 0 <= i < |eqs| ==> r[i] == eqs[i].dst
  {
    seq(|eqs|, i requires 0 <= i < |eqs| => eqs[i].dst)
  }

  /** The equation loop of `gen_circuit`, in list order; the first failing equation
      ends the pass. */
  function Run(lay: Layout, st: State, eqs: seq<Equation>): (r: Result<State, Failure>)
    requires Inv(lay, st) && AllWellFlagged(eqs)
    requires st.multIdx + CountMults(eqs) <= lay.nMult
    requires st.corrIdx + CountCorrectionOutputs(eqs) <= lay.nCorr
    ensures r.Ok? ==> Inv(lay, r.value)
    ensures r.Ok? ==> Names(r.value.wires) == Names(st.wires) + Dsts(eqs)
    ensures r.Ok? ==> r.value.wires[..|st.wires|] == st.wires
    ensures r.Ok? ==> r.value.multIdx == st.multIdx + CountMults(eqs)
                      && r.value.corrIdx == st.corrIdx + CountCorrectionOutputs(eqs)
    decreases |eqs|
  {
    if eqs == [] then
      assert Names(st.wires) + Dsts(eqs) == Names(st.wires);
      Ok(st)
    else
      PlainIsCounted(eqs[0]);
      var st1 :- Step(lay, st, eqs[0]);
      var r := Run(lay, st1, eqs[1..]);
      if r.Ok? then
        RunNames(st.wires, st1.wires, r.value.wires, eqs);
        r
      else r
  }

  lemma RunNames(w0: seq<Wire>, w1: seq<Wire>, w2: seq<Wire>, eqs: seq<Equation>)
    requires |eqs| > 0
    requires |w1| == |w0| + 1 && w1[..|w0|] == w0 && w1[|w0|].name == eqs[0].dst
    requires Names(w2) == Names(w1) + Dsts(eqs[1..]) && w2[..|w1|] == w1
    ensures Names(w2) == Names(w0) + Dsts(eqs)
    ensures w2[..|w0|] == w0
  {
    var n := |w0|;
    assert forall i :: 0 <= i < n ==> w2[i] == w1[i] == w0[i];
    var a, b := Names(w2), Names(w0) + Dsts(eqs);
    forall i | 0 <= i < |a| ensures a[i] == b[i] {
      if i < n {
        assert w2[i] == w0[i];
      } else if i == n {
        assert a[i] == Names(w1)[n] == eqs[0].dst;
      } else {
        assert a[i] == Dsts(eqs[1..])[i - n - 1] == eqs[i - n].dst;
      }
    }
  }
}

=== FILE: builder_facts.dfy ===
/** Properties of the equation pass of `gen_circuit`: which equations it rejects, the
    fresh slot of every multiplication, where fault taint comes from, and the
    correction-output bookkeeping. */
module BuilderFacts {
  import opened Results
  import opened Equations
  import opened Deps
  import opened Builder

  /** The wire an operand name denotes for the equation: the most recent one. */
  function LeftWire(st: State, e: Equation): (w: Wire)
    requires Mirrors(st.positions, st.wires) && Lookup(st, e.expr.left).Ok?
  {
    st.wires[Lookup(st, e.expr.left).value]
  }

  function RightWire(st: State, e: Equation): (w: Wire)
    requires Mirrors(st.positions, st.wires) && Lookup(st, e.expr.left).Ok?
    requires e.expr.op != Asgn ==> Lookup(st, e.expr.right).Ok?
  {
    if e.expr.op == Asgn then LeftWire(st, e) else st.wires[Lookup(st, e.expr.right).value]
  }

  /** An operand that names no earlier wire is fatal, the left one first. */
  lemma MissingOperand(lay: Layout, st: State, e: Equation)
    requires Inv(lay, st)
    requires Plain(e) ==> st.multIdx < lay.nMult
    requires e.correctionOutput ==> st.corrIdx < lay.nCorr
    ensures (forall j :: 0 <= j < |st.wires| ==> st.wires[j].name != e.expr.left) ==>
              Step(lay, st, e) == Err(NotFound(e.expr.left, "Dependencies"))
    ensures Lookup(st, e.expr.left).Ok? && e.expr.op != Asgn &&
            (forall j :: 0 <= j < |st.wires| ==> st.wires[j].name != e.expr.right) ==>
              Step(lay, st, e) == Err(NotFound(e.expr.right, "Dependencies"))
  {
  }

  /** With both operands defined, the pass rejects an equation exactly when it is a
      multiplication outside a correction block with an operand that already depends on
      a product (multiplicative depth above one). */
  lemma DepthRejection(lay: Layout, st: State, e: Equation)
    requires Inv(lay, st)
    requires Plain(e) ==> st.multIdx < lay.nMult
    requires e.correctionOutput ==> st.corrIdx < lay.nCorr
    requires Lookup(st, e.expr.left).Ok? && (e.expr.op != Asgn ==> Lookup(st, e.expr.right).Ok?)
    ensures WireOk(lay, LeftWire(st, e)) && WireOk(lay, RightWire(st, e))
    ensures Step(lay, st, e).Err? <==>
              Plain(e) && (DependsOnProduct(lay, LeftWire(st, e).dep) || DependsOnProduct(lay, RightWire(st, e).dep))
    ensures Step(lay, st, e).Err? ==> Step(lay, st, e).error == MultiplicativeDepth(e.dst)
  {
    var li := Lookup(st, e.expr.left).value;
    var ri := if e.expr.op == Asgn then li else Lookup(st, e.expr.right).value;
    WireFits(lay, st, li);
    WireFits(lay, st, ri);
  }

  /** Every multiplication outside a correction block gets a slot that no earlier wire
      uses, so its dependency differs from every earlier one. */
  lemma FreshProduct(lay: Layout, st: State, e: Equation)
    requires Inv(lay, st) && Plain(e) && st.multIdx < lay.nMult
    requires e.correctionOutput ==> st.corrIdx < lay.nCorr
    requires Step(lay, st, e).Ok?
    ensures var w := Step(lay, st, e).value.wires[|st.wires|];
            && |w.dep| == Size(lay)
            && w.dep[Lin(lay) + st.multIdx] == 1
            && forall j :: 0 <= j < |st.wires| ==>
                 st.wires[j].dep[Lin(lay) + st.multIdx] == 0 && st.wires[j].dep != w.dep
  {
    var li := Lookup(st, e.expr.left).value;
    var ri := if e.expr.op == Asgn then li else Lookup(st, e.expr.right).value;
    assert Step(lay, st, e) == StepAt(lay, st, e, li, ri);
    StepAtPlain(lay, st, e, li, ri);
    FreshSlot(lay, st, Single(Size(lay), Lin(lay) + st.multIdx, 1));
  }

  lemma StepAtPlain(lay: Layout, st: State, e: Equation, li: nat, ri: nat)
    requires Inv(lay, st) && li < |st.wires| && ri < |st.wires|
    requires Plain(e) && st.multIdx < lay.nMult
    requires e.correctionOutput ==> st.corrIdx < lay.nCorr
    requires StepAt(lay, st, e, li, ri).Ok?
    ensures StepAt(lay, st, e, li, ri).value.wires[|st.wires|].dep == Single(Size(lay), Lin(lay) + st.multIdx, 1)
  {
    WireFits(lay, st, li);
    WireFits(lay, st, ri);
    PlainDep(lay, e, st.wires[li], st.wires[ri], st.multIdx, st.corrIdx);
  }

  /** The slot of the next multiplication is unused by every wire so far, so the vector
      holding that slot alone is new. */
  lemma FreshSlot(lay: Layout, st: State, d: Dep)
    requires Inv(lay, st) && st.multIdx < lay.nMult
    requires d == Single(Size(lay), Lin(lay) + st.multIdx, 1)
    ensures |d| == Size(lay) && d[Lin(lay) + st.multIdx] == 1
    ensures forall j :: 0 <= j < |st.wires| ==>
              st.wires[j].dep[Lin(lay) + st.multIdx] == 0 && st.wires[j].dep != d
  {
    forall j | 0 <= j < |st.wires|
      ensures st.wires[j].dep[Lin(lay) + st.multIdx] == 0 && st.wires[j].dep != d
    {
      WireFits(lay, st, j);
    }
  }

  /** A plain multiplication that is accepted depends on its own slot alone. */
  lemma PlainDep(lay: Layout, e: Equation, l: Wire, r: Wire, multIdx: nat, corrIdx: nat)
    requires WireOk(lay, l) && WireOk(lay, r)
    requires Fits(lay, l.dep, multIdx, corrIdx) && Fits(lay, r.dep, multIdx, corrIdx)
    requires Plain(e) && multIdx < lay.nMult
    requires e.correctionOutput ==> corrIdx < lay.nCorr
    requires Combine(lay, e, l, r, multIdx, corrIdx).Ok?
    ensures Combine(lay, e, l, r, multIdx, corrIdx).value.0 == Single(Size(lay), Lin(lay) + multIdx, 1)
  {
  }

  /** The equations whose wire may become tainted without a tainted operand: products
      inside a correction block that are not correction outputs. */
  predicate TaintSource(e: Equation)
  {
    e.expr.op == Mult && e.correction && !e.correctionOutput
  }

  predicate Untainted(ws: seq<Wire>)
  {
    forall i :: 0 <= i < |ws| ==> !ws[i].faulted
  }

  /** Taint spreads from operands and starts only at the last fallback of a correction
      product. */
  lemma StepTaint(lay: Layout, st: State, e: Equation)
    requires Inv(lay, st)
    requires Plain(e) ==> st.multIdx < lay.nMult
    requires e.correctionOutput ==> st.corrIdx < lay.nCorr
    requires Step(lay, st, e).Ok? && Untainted(st.wires) && !TaintSource(e)
    ensures Untainted(Step(lay, st, e).value.wires)
  {
    var li := Lookup(st, e.expr.left).value;
    var ri := if e.expr.op == Asgn then li else Lookup(st, e.expr.right).value;
    assert Step(lay, st, e) == StepAt(lay, st, e, li, ri);
    StepAtTaint(lay, st, e, li, ri);
    UntaintedExtend(st.wires, Step(lay, st, e).value.wires);
  }

  lemma UntaintedExtend(ws0: seq<Wire>, ws: seq<Wire>)
    requires |ws| == |ws0| + 1 && ws[..|ws0|] == ws0
    requires Untainted(ws0) && !ws[|ws0|].faulted
    ensures Untainted(ws)
  {
    forall i | 0 <= i < |ws0| ensures !ws[i].faulted {
      assert ws[i] == ws[..|ws0|][i];
    }
  }

  lemma StepAtTaint(lay: Layout, st: State, e: Equation, li: nat, ri: nat)
    requires Inv(lay, st) && li < |st.wires| && ri < |st.wires|
    requires Plain(e) ==> st.multIdx < lay.nMult
    requires e.correctionOutput ==> st.corrIdx < lay.nCorr
    requires StepAt(lay, st, e, li, ri).Ok? && !st.wires[li].faulted && !st.wires[ri].faulted && !TaintSource(e)
    ensures !StepAt(lay, st, e, li, ri).value.wires[|st.wires|].faulted
  {
    WireFits(lay, st, li);
    WireFits(lay, st, ri);
    CombineTaint(lay, e, st.wires[li], st.wires[ri], st.multIdx, st.corrIdx);
  }

  /** Untainted operands give an untainted wire, except at a taint source. */
  lemma CombineTaint(lay: Layout, e: Equation, l: Wire, r: Wire, multIdx: nat, corrIdx: nat)
    requires WireOk(lay, l) && WireOk(lay, r)
    requires Fits(lay, l.dep, multIdx, corrIdx) && Fits(lay, r.dep, multIdx, corrIdx)
    requires Plain(e) ==> multIdx < lay.nMult
    requires e.correctionOutput ==> corrIdx < lay.nCorr
    requires !l.faulted && !r.faulted && !TaintSource(e)
    ensures var c := Combine(lay, e, l, r, multIdx, corrIdx);
            c.Ok? ==> !c.value.1
  {
  }

  /** A circuit without taint sources has no tainted wire. */
  lemma {:induction false} RunUntainted(lay: Layout, st: State, eqs: seq<Equation>)
    requires Inv(lay, st) && AllWellFlagged(eqs)
    requires st.multIdx + CountMults(eqs) <= lay.nMult
    requires st.corrIdx + CountCorrectionOutputs(eqs) <= lay.nCorr
    requires Run(lay, st, eqs).Ok? && Untainted(st.wires)
    requires forall k :: 0 <= k < |eqs| ==> !TaintSource(eqs[k])
    ensures Untainted(Run(lay, st, eqs).value.wires)
    decreases |eqs|
  {
    if eqs != [] {
      RunStep(lay, st, eqs);
      StepTaint(lay, st, eqs[0]);
      var st1 := Step(lay, st, eqs[0]).value;
      assert forall k :: 0 <= k < |eqs[1..]| ==> !TaintSource(eqs[1..][k]) by {
        forall k | 0 <= k < |eqs[1..]| ensures !TaintSource(eqs[1..][k]) {
          assert eqs[1..][k] == eqs[k + 1];
        }
      }
      RunUntainted(lay, st1, eqs[1..]);
    }
  }

  /** The requirements of the pass over `eqs` from `st`. */
  predicate Ready(lay: Layout, st: State, eqs: seq<Equation>)
  {
    && Inv(lay, st) && AllWellFlagged(eqs)
    && st.multIdx + CountMults(eqs) <= lay.nMult
    && st.corrIdx + CountCorrectionOutputs(eqs) <= lay.nCorr
  }

  /** A pass that succeeds runs its first equation, and the rest of the pass continues
      from the state that equation leaves. */
  lemma RunStep(lay: Layout, st: State, eqs: seq<Equation>)
    requires Ready(lay, st, eqs) && eqs != [] && Run(lay, st, eqs).Ok?
    ensures Plain(eqs[0]) ==> st.multIdx < lay.nMult
    ensures eqs[0].correctionOutput ==> st.corrIdx < lay.nCorr
    ensures Step(lay, st, eqs[0]).Ok?
    ensures Ready(lay, Step(lay, st, eqs[0]).value, eqs[1..])
    ensures Run(lay, st, eqs) == Run(lay, Step(lay, st, eqs[0]).value, eqs[1..])
  {
    PlainIsCounted(eqs[0]);
  }

  /** The index the correction-output bookkeeping reads as written:
      `first_correction_idx + corr_output_idx`, with `first_correction_idx` set to -1
      when there are no correction outputs. */
  function CorrIndexAsWritten(lay: Layout, corrIdx: nat): (idx: int)
    ensures lay.nCorr > 0 ==> idx == CorrSlot(lay, corrIdx)
    ensures lay.nCorr == 0 ==> idx == corrIdx - 1
  {
    (if lay.nCorr == 0 then -1 else Lin(lay) + lay.nMult) + corrIdx
  }

  /** While correction outputs remain, the guard as written fires exactly for correction
      outputs: no other wire uses the slot of the next correction output. */
  lemma CorrGuardAgrees(lay: Layout, e: Equation, dep: Dep, multIdx: nat, corrIdx: nat)
    requires corrIdx < lay.nCorr
    requires Fits(lay, dep, multIdx, corrIdx + CorrStep(e))
    ensures CorrGuardAsWritten(lay, e, dep, corrIdx) <==> e.correctionOutput
  {
    if !e.correctionOutput {
      assert dep[CorrSlot(lay, corrIdx)] == 0;
    }
  }

  /** After the last correction output the index reaches the constant slot: the
      equation `d = 1`, which is no correction output, passes the guard as written, and
      its record would be number `nCorr` of an array of `nCorr` records. */
  lemma CorrGuardOverrun(lay: Layout, st: State, dst: string)
    requires Inv(lay, st) && 0 < lay.nCorr == st.corrIdx
    requires Lookup(st, "1").Ok?
    requires st.wires[Lookup(st, "1").value].dep == Single(Size(lay), ConstSlot(lay), 1)
    ensures var e := Equation(Expr(Asgn, "1", ""), dst, false, false, false);
            && Step(lay, st, e).Ok?
            && !e.correctionOutput
            && CorrGuardAsWritten(lay, e, Step(lay, st, e).value.wires[|st.wires|].dep, st.corrIdx)
            && CorrIndexAsWritten(lay, st.corrIdx) == ConstSlot(lay)
  {
    var e := Equation(Expr(Asgn, "1", ""), dst, false, false, false);
    var r := Step(lay, st, e);
    assert r.Ok?;
    assert r.value.wires[|st.wires|].dep == Single(Size(lay), ConstSlot(lay), 1);
  }

  /** With the guard on the equation's own flag, the pass writes one record per
      correction output, within the `nCorr` records allocated. */
  lemma CorrRecordsCounted(lay: Layout, st: State, eqs: seq<Equation>)
    requires Inv(lay, st) && AllWellFlagged(eqs)
    requires st.multIdx + CountMults(eqs) <= lay.nMult
    requires st.corrIdx + CountCorrectionOutputs(eqs) <= lay.nCorr
    requires Run(lay, st, eqs).Ok?
    ensures |Run(lay, st, eqs).value.corrs| == |st.corrs| + CountCorrectionOutputs(eqs) <= lay.nCorr
  {
  }
}

=== FILE: c_text.dfy ===
/** Character classes and string scanning of src/parser.c, over strings read as C
    strings: reading at or past the end yields the terminator '\0'. */
module CText {

  /** The character at position `i` of a C string (the terminator past the end). */
  function At(s: string, i: int): char
  {
    if 0 <= i < |s| then s[i] else '\0'
  }

  /** `is_space`. */
  predicate IsSpace(c: char)
  {
    c == ' ' || c == '\t' || c == '\n'
  }

  /** `is_eol`: end of string or start of a comment. */
  predicate IsEol(c: char)
  {
    c == '\0' || c == '#'
  }

  /** `is_add`, `is_mult`, `is_not`, `is_operator`. */
  predicate IsAddOp(c: char)
  {
    c == '+' || c == '^'
  }

  predicate IsMultOp(c: char)
  {
    c == '*' || c == '&'
  }

  predicate IsOperator(c: char)
  {
    IsAddOp(c) || IsMultOp(c) || c == '~'
  }

  predicate IsNul(c: char)
  {
    c == '\0'
  }

  /** `skip_spaces`: the first position at or after `i` that is not a space. */
  function SkipSpaces(s: string, i: nat): (j: nat)
    ensures i <= j
    ensures j == i || j <= |s|
    ensures forall k :: i <= k < j ==> IsSpace(At(s, k))
    ensures !IsSpace(At(s, j))
    decreases |s| - i
  {
    if i < |s| && IsSpace(s[i]) then SkipSpaces(s, i + 1) else i
  }

  /** The first position at or after `i` whose character satisfies `stop` (every scan
      loop of the parser stops at least at the terminator). */
  function ScanUntil(s: string, i: nat, stop: char -> bool): (j: nat)
    requires stop('\0')
    ensures i <= j
    ensures j == i || j <= |s|
    ensures forall k :: i <= k < j ==> !stop(At(s, k))
    ensures stop(At(s, j))
    decreases |s| - i
  {
    if i < |s| && !stop(s[i]) then ScanUntil(s, i + 1, stop) else i
  }

  /** A scan ends at the first stopping character, so knowing that character fixes it. */
  lemma ScanUntilAt(s: string, i: nat, stop: char -> bool, e: nat)
    requires stop('\0') && i <= e
    requires forall k :: i <= k < e ==> !stop(At(s, k))
    requires stop(At(s, e))
    ensures ScanUntil(s, i, stop) == e
  {
  }

  lemma SkipSpacesAt(s: string, i: nat, e: nat)
    requires i <= e
    requires forall k :: i <= k < e ==> IsSpace(At(s, k))
    requires !IsSpace(At(s, e))
    ensures SkipSpaces(s, i) == e
  {
  }

  /** The `uppercase` macro: ASCII lower-case letters only. */
  function Upper(c: char): char
  {
    if 'a' <= c <= 'z' then (c as int - 32) as char else c
  }

  /** `str_equals_nocase(s1, s2, len)`: the first `len` characters agree up to ASCII
      case. */
  function StrEqualsNoCase(s1: string, s2: string, len: int): (r: bool)
    ensures r <==> forall i :: 0 <= i < len ==> Upper(At(s1, i)) == Upper(At(s2, i))
  {
    NoCaseFrom(s1, s2, len, 0)
  }

  function NoCaseFrom(s1: string, s2: string, len: int, i: nat): (r: bool)
    ensures r <==> forall k :: i <= k < len ==> Upper(At(s1, k)) == Upper(At(s2, k))
    decreases len - i
  {
    if i >= len then true
    else if Upper(At(s1, i)) != Upper(At(s2, i)) then false
    else NoCaseFrom(s1, s2, len, i + 1)
  }

  /** A case-insensitive match of a longer prefix implies a match of each shorter one. */
  lemma NoCasePrefix(s1: string, s2: string, t2: string, len: int, shorter: int)
    requires 0 <= shorter <= len && shorter <= |s2| && shorter <= |t2|
    requires forall i :: 0 <= i < shorter ==> s2[i] == t2[i]
    requires StrEqualsNoCase(s1, s2, len)
    ensures StrEqualsNoCase(s1, t2, shorter)
  {
    forall i | 0 <= i < shorter ensures Upper(At(s1, i)) == Upper(At(t2, i)) {
      assert Upper(At(s1, i)) == Upper(At(s2, i));
    }
  }

  /** Decimal rendering of a natural number, as `%d` prints it. */
  function Digits(n: nat): (r: string)
    ensures |r| > 0
    ensures forall c :: c in r ==> '0' <= c <= '9'
  {
    if n < 10 then [Digit(n)] else Digits(n / 10) + [Digit(n % 10)]
  }

  function Digit(d: nat): (c: char)
    requires d < 10
    ensures '0' <= c <= '9'
  {
    ('0' as int + d) as char
  }

  /** `snprintf` into a buffer of `size` bytes: at most `size - 1` characters of the
      formatted text are kept. */
  function Snprintf(s: string, size: nat): (r: string)
    requires size > 0
    ensures |r| < size && r <= s
    ensures |s| < size ==> r == s
  {
    if |s| < size then s else s[..size - 1]
  }

  /** `"%s%d"`: the name of share `i` of `base`. */
  function ShareName(base: string, i: nat): string
  {
    base + Digits(i)
  }

  /** `"%s%d_%d"`: the name of duplicate `j` of share `i` of `base`. */
  function DupName(base: string, i: nat, j: nat): string
  {
    base + Digits(i) + "_" + Digits(j)
  }
}

=== FILE: circuit.dfy ===
/** `gen_circuit` of src/parser.c around its equation pass: the constant, input-share
    and random wires it starts from, the expanded output names, the move of the outputs
    to the end of the wire list, the final weights and the fields of the `Circuit`. */
module Circuits {
  import opened Results
  import opened Equations
  import opened Deps
  import opened Builder
  import opened CText
  import StrMaps
  import Reorder

  // ---------------------------------------------------------------------------------
  // Names

  /** The number of copies of every share: `nb_duplications`, where a count below 2
      means a single, undecorated copy. */
  function Copies(nbDup: int): (n: nat)
    ensures n >= 1 && (nbDup >= 1 ==> n == nbDup)
  {
    if nbDup <= 1 then 1 else nbDup
  }

  /** `a * b` as repeated addition, so that the solver unfolds it one addition at a
      time rather than reasoning about a product. */
  function Times(a: nat, b: nat): nat
    decreases a
  {
    if a == 0 then 0 else b + Times(a - 1, b)
  }

  lemma {:induction false} TimesIsProduct(a: nat, b: nat)
    ensures Times(a, b) == a * b
    decreases a
  {
    if a > 0 {
      TimesIsProduct(a - 1, b);
    }
  }

  /** The name of copy `j` of share `i` of input `key`: `"%s%d"` into `strlen + 3` bytes
      without duplication, `"%s%d_%d"` into `strlen + 6` bytes with it. */
  function InputName(key: string, i: nat, j: nat, nbDup: int): string
  {
    if nbDup <= 1 then Snprintf(ShareName(key, i), |key| + 3) else Snprintf(DupName(key, i, j), |key| + 6)
  }

  /** The same for an output; without duplication the buffer has one byte more. */
  function OutputName(key: string, i: nat, j: nat, nbDup: int): string
  {
    if nbDup <= 1 then Snprintf(ShareName(key, i), |key| + 4) else Snprintf(DupName(key, i, j), |key| + 6)
  }

  /** The copies of share `i`, then of the shares after it, of one output. */
  function OutputShareNames(key: string, i: nat, shares: nat, nbDup: int): (r: seq<string>)
    requires i <= shares
    ensures |r| == Times(shares - i, Copies(nbDup))
    decreases shares - i
  {
    if i == shares then []
    else
      var copies := seq(Copies(nbDup), j requires 0 <= j < Copies(nbDup) => OutputName(key, i, j, nbDup));
      copies + OutputShareNames(key, i + 1, shares, nbDup)
  }

  /** The keys of `outputs_map`: every copy of every share of every output, in the
      order of the `out` map. */
  function OutputNames(outs: seq<string>, shares: nat, nbDup: int): (r: seq<string>)
    ensures |r| == Times(|outs|, Times(shares, Copies(nbDup)))
  {
    if outs == [] then []
    else OutputShareNames(outs[0], 0, shares, nbDup) + OutputNames(outs[1..], shares, nbDup)
  }

  /** `outputs_map`, filled with `str_map_add_with_val(outputs_map, name, 1)`: its keys
      are the expanded output names, each as often as it was produced. */
  function OutputsMap(names: seq<string>): (m: StrMaps.StrMap)
    ensures StrMaps.Keys(m) == multiset(names)
    decreases |names|
  {
    if names == [] then StrMaps.Make("outputs expanded")
    else
      var init, last := names[..|names| - 1], names[|names| - 1];
      var m0 := OutputsMap(init);
      var m := StrMaps.AddWithVal(m0, last, 1);
      assert StrMaps.KeySeq(m.entries) == [last] + StrMaps.KeySeq(m0.entries);
      assert names == init + [last];
      m
  }

  // ---------------------------------------------------------------------------------
  // The wires the pass starts from

  lemma {:induction false} Pow2Below(i: nat, n: nat)
    requires i < n
    ensures Pow2(i) < Pow2(n)
    decreases n
  {
    if i < n - 1 {
      Pow2Below(i, n - 1);
    }
  }

  /** A wire the pass may start from: it fits the layout and uses no slot of a
      multiplication or a correction output. */
  predicate Initial(lay: Layout, w: Wire)
  {
    WireOk(lay, w) && ClearFrom(lay, w.dep, 0, 0)
  }

  /** Copy `j` of share `i` of input number `b`: the slot of the input holds the share
      mask `1 << i`, and the glitch set holds the dependency itself. */
  function InputWire(lay: Layout, key: string, b: nat, i: nat, j: nat, nbDup: int): (w: Wire)
    requires b < lay.nIn && i < lay.shares
    ensures Initial(lay, w)
  {
    Pow2Below(i, lay.shares);
    var d := Single(Size(lay), b, Pow2(i));
    Wire(InputName(key, i, j, nbDup), d, [d], false)
  }

  /** The copies of share `i`, then of the shares after it, of input number `b`. */
  function InputShareWires(lay: Layout, key: string, b: nat, i: nat, nbDup: int): (r: seq<Wire>)
    requires b < lay.nIn && i <= lay.shares
    ensures |r| == Times(lay.shares - i, Copies(nbDup))
    ensures forall k :: 0 <= k < |r| ==> Initial(lay, r[k])
    decreases lay.shares - i
  {
    if i == lay.shares then []
    else
      var copies := seq(Copies(nbDup), j requires 0 <= j < Copies(nbDup) => InputWire(lay, key, b, i, j, nbDup));
      copies + InputShareWires(lay, key, b, i + 1, nbDup)
  }

  /** The share wires of the inputs `keys`, the first of which is input number `b`. */
  function InputWires(lay: Layout, keys: seq<string>, b: nat, nbDup: int): (r: seq<Wire>)
    requires b + |keys| <= lay.nIn
    ensures |r| == Times(|keys|, Times(lay.shares, Copies(nbDup)))
    ensures forall k :: 0 <= k < |r| ==> Initial(lay, r[k])
    decreases |keys|
  {
    if keys == [] then []
    else InputShareWires(lay, keys[0], b, 0, nbDup) + InputWires(lay, keys[1..], b + 1, nbDup)
  }

  /** Random number `y` has the slot after the inputs and its own name. */
  function RandomWires(lay: Layout, keys: seq<string>): (r: seq<Wire>)
    requires |keys| == lay.nRand
    ensures |r| == |keys|
    ensures forall y :: 0 <= y < |r| ==> Initial(lay, r[y]) && r[y].name == keys[y]
    ensures forall y :: 0 <= y < |r| ==> r[y].dep == Single(Size(lay), lay.nIn + y, 1)
  {
    seq(|keys|, y requires 0 <= y < |keys| => RandomWire(lay, keys[y], y))
  }

  function RandomWire(lay: Layout, key: string, y: nat): (w: Wire)
    requires y < lay.nRand
    ensures Initial(lay, w) && w.name == key && w.dep == Single(Size(lay), lay.nIn + y, 1)
  {
    var d := Single(Size(lay), lay.nIn + y, 1);
    assert Bounded(lay, d) by {
      forall k | 0 <= k < |d| ensures d[k] < SlotBound(lay, k) {
      }
    }
    Wire(key, d, [d], false)
  }

  /** The number of start wires: the constants `0` and `1`, every copy of every input
      share, then the randoms. */
  function StartCount(nIn: nat, shares: nat, nbDup: int, nRand: nat): nat
  {
    2 + Times(nIn, Times(shares, Copies(nbDup))) + nRand
  }

  /** The wires "0" and "1": zero apart from the constant slot, which holds the
      constant; their glitch sets are empty. */
  function ConstWires(lay: Layout): (r: seq<Wire>)
    ensures |r| == 2 && r[0].name == "0" && r[1].name == "1"
    ensures forall k :: 0 <= k < 2 ==> Initial(lay, r[k]) && r[k].dep == Single(Size(lay), ConstSlot(lay), k)
  {
    seq(2, k requires 0 <= k < 2 => Wire(if k == 0 then "0" else "1", Single(Size(lay), ConstSlot(lay), k), [], false))
  }

  function StartWires(lay: Layout, ins: seq<string>, rands: seq<string>, nbDup: int): (r: seq<Wire>)
    requires |ins| == lay.nIn && |rands| == lay.nRand
    ensures |r| == StartCount(|ins|, lay.shares, nbDup, |rands|)
    ensures forall k :: 0 <= k < |r| ==> Initial(lay, r[k])
    ensures r[0].name == "0"
  {
    ConstWires(lay) + InputWires(lay, ins, 0, nbDup) + RandomWires(lay, rands)
  }

  /** The state before the first equation: the start wires, each registered in
      `positions_map` under its index, all weights zero, no multiplication or correction
      output yet. It satisfies the invariant of the pass. */
  function InitialState(lay: Layout, ins: seq<string>, rands: seq<string>, nbDup: int): (st: State)
    requires |ins| == lay.nIn && |rands| == lay.nRand
    ensures Inv(lay, st) && st.multIdx == 0 && st.corrIdx == 0
    ensures |st.wires| == StartCount(|ins|, lay.shares, nbDup, |rands|) && st.wires[0].name == "0"
  {
    var ws := StartWires(lay, ins, rands, nbDup);
    StartInv(lay, ws);
    State(ws, StrMaps.AddAll(StrMaps.Make("Positions"), Names(ws)), seq(|ws|, _ => 0), 0, 0, [], [])
  }

  /** Registering the start wires in order makes the positions map mirror them. */
  lemma StartMirrors(ws: seq<Wire>)
    ensures Mirrors(StrMaps.AddAll(StrMaps.Make("Positions"), Names(ws)), ws)
  {
    var names := Names(ws);
    var positions := StrMaps.AddAll(StrMaps.Make("Positions"), names);
    var numbered := StrMaps.Numbered(names, 0);
    var rev := Seqs.Reverse(numbered);
    assert positions.entries == rev && positions.nextVal == |ws| by {
      StrMaps.AddAllEntries(StrMaps.Make("Positions"), names);
      assert rev + [] == rev;
    }
    assert |rev| == |numbered| == |names| == |ws|;
    forall k | 0 <= k < |ws| ensures rev[k] == StrMaps.Entry(ws[|ws| - 1 - k].name, |ws| - 1 - k) {
      var j := |ws| - 1 - k;
      assert rev[k] == numbered[j];
      assert numbered[j] == StrMaps.Entry(names[j], j);
      assert names[j] == ws[j].name;
    }
  }

  /** A state holding only start wires satisfies the invariant of the pass. */
  lemma StartInv(lay: Layout, ws: seq<Wire>)
    requires forall k :: 0 <= k < |ws| ==> Initial(lay, ws[k])
    ensures Inv(lay, State(ws, StrMaps.AddAll(StrMaps.Make("Positions"), Names(ws)), seq(|ws|, _ => 0), 0, 0, [], []))
  {
    StartMirrors(ws);
  }

  /** The layout `gen_circuit` derives from its arguments. */
  function LayoutOf(shares: nat, eqs: seq<Equation>, ins: seq<string>, rands: seq<string>, glitch: bool): Layout
  {
    Layout(|ins|, |rands|, CountMults(eqs), CountCorrectionOutputs(eqs), shares, glitch)
  }

  /** The equation pass over the start wires. */
  function Pass(shares: nat, eqs: seq<Equation>, ins: seq<string>, rands: seq<string>, glitch: bool, nbDup: int)
    : (r: Result<State, Failure>)
    requires AllWellFlagged(eqs)
    ensures r.Ok? ==> |r.value.wires| == StartCount(|ins|, shares, nbDup, |rands|) + |eqs|
    ensures r.Ok? ==> |r.value.weights| == |r.value.wires| && ZeroOrOdd(r.value.weights)
    ensures r.Ok? ==> r.value.wires[0].name == "0"
    ensures r.Ok? ==> r.value.multIdx == CountMults(eqs)
  {
    Started(LayoutOf(shares, eqs, ins, rands, glitch), ins, rands, nbDup, eqs)
  }

  /** The pass from the start wires, for any layout with room for the equations'
      multiplications and correction outputs. */
  function Started(lay: Layout, ins: seq<string>, rands: seq<string>, nbDup: int, eqs: seq<Equation>)
    : (r: Result<State, Failure>)
    requires |ins| == lay.nIn && |rands| == lay.nRand && AllWellFlagged(eqs)
    requires CountMults(eqs) <= lay.nMult && CountCorrectionOutputs(eqs) <= lay.nCorr
    ensures r.Ok? ==> |r.value.wires| == StartCount(|ins|, lay.shares, nbDup, |rands|) + |eqs|
    ensures r.Ok? ==> |r.value.weights| == |r.value.wires| && ZeroOrOdd(r.value.weights)
    ensures r.Ok? ==> r.value.wires[0].name == "0"
    ensures r.Ok? ==> r.value.multIdx == CountMults(eqs)
  {
    RunFrom(lay, InitialState(lay, ins, rands, nbDup), eqs)
  }

  /** The pass from a state with at least one wire: it appends one wire per equation,
      keeps the first one and leaves every weight zero or odd. */
  function RunFrom(lay: Layout, st0: State, eqs: seq<Equation>): (r: Result<State, Failure>)
    requires Inv(lay, st0) && AllWellFlagged(eqs) && |st0.wires| > 0
    requires st0.multIdx + CountMults(eqs) <= lay.nMult
    requires st0.corrIdx + CountCorrectionOutputs(eqs) <= lay.nCorr
    ensures r.Ok? ==> |r.value.wires| == |st0.wires| + |eqs| && r.value.wires[0] == st0.wires[0]
    ensures r.Ok? ==> |r.value.weights| == |r.value.wires| && ZeroOrOdd(r.value.weights)
    ensures r.Ok? ==> r.value.multIdx == st0.multIdx + CountMults(eqs)
  {
    var r := Run(lay, st0, eqs);
    if r.Ok? then
      Extended(st0.wires, r.value.wires, eqs);
      r
    else r
  }

  lemma Extended(w0: seq<Wire>, w: seq<Wire>, eqs: seq<Equation>)
    requires |w0| > 0 && Names(w) == Names(w0) + Dsts(eqs) && w[..|w0|] == w0
    ensures |w| == |w0| + |eqs| && w[0] == w0[0]
  {
    assert |Names(w)| == |w0| + |eqs|;
    assert w[0] == w[..|w0|][0];
  }

  // ---------------------------------------------------------------------------------
  // Moving the outputs and the final circuit

  /** A wire together with its weight: `SWAP_DEPS` moves both. */
  datatype Slot = Slot(wire: Wire, weight: int)

  function SlotName(s: Slot): string
  {
    s.wire.name
  }

  function Slots(ws: seq<Wire>, weights: seq<int>): (r: seq<Slot>)
    requires |weights| == |ws|
    ensures |r| == |ws| && forall i :: 0 <= i < |ws| ==> r[i] == Slot(ws[i], weights[i])
  {
    seq(|ws|, i requires 0 <= i < |ws| => Slot(ws[i], weights[i]))
  }

  /** The wire order after the outputs moved: the reference walk of `Reorder`. */
  function Placed(st: State, outNames: seq<string>): (r: Reorder.Split<Slot>)
    requires |st.weights| == |st.wires|
  {
    Reorder.Partition(Slots(st.wires, st.weights), SlotName, multiset(outNames))
  }

  /** The final weight of a wire: one for a wire no equation used. */
  function Used(w: int): (r: int)
    ensures w != 0 ==> r == w
    ensures w == 0 || (w > 0 && w % 2 == 1) ==> r >= 1 && r % 2 == 1
  {
    if w == 0 then 1 else w
  }

  /** The `Circuit` record: wires in final order (name, dependency and glitch set),
      their weights, the counts of secrets, outputs, shares and randoms, and the records
      of the pass. */
  datatype Circuit = Circuit(
    length: int,
    nbDup: int,
    wires: seq<Wire>,
    weights: seq<int>,
    secretCount: nat,
    outputCount: nat,
    shareCount: nat,
    randomCount: nat,
    allSharesMask: nat,
    containsMults: bool,
    glitch: bool,
    layout: Layout,
    mults: seq<MultRecord>,
    corrs: seq<CorrRecord>)

  /** The circuit fields once the pass has succeeded and the outputs have moved. */
  function Assemble(shares: nat, eqs: seq<Equation>, ins: seq<string>, rands: seq<string>, outs: seq<string>,
                    glitch: bool, nbDup: int, st: State, ys: seq<Slot>): (c: Circuit)
  {
    Circuit(|ys| - |OutputNames(outs, shares, nbDup)|, nbDup,
            seq(|ys|, i requires 0 <= i < |ys| => ys[i].wire),
            seq(|ys|, i requires 0 <= i < |ys| => Used(ys[i].weight)),
            |ins|, |outs|, shares, |rands|, Pow2(shares) - 1, st.multIdx != 0, glitch,
            LayoutOf(shares, eqs, ins, rands, glitch), st.mults, st.corrs)
  }

  /** `gen_circuit` with its final `return c`: the equation pass, then the outputs moved
      behind the other wires, then the unused weights set to one. An output named "0"
      (an output declared with an empty name) is excluded: the C walk would then start
      from the constant wire and could read before the list. */
  method GenCircuit(shares: nat, eqs: seq<Equation>, ins: seq<string>, rands: seq<string>, outs: seq<string>,
                    glitch: bool, nbDup: int) returns (r: Result<Circuit, Failure>)
    requires AllWellFlagged(eqs)
    requires "0" !in OutputNames(outs, shares, nbDup)
    ensures r.Err? <==> Pass(shares, eqs, ins, rands, glitch, nbDup).Err?
    ensures r.Err? ==> r.error == Pass(shares, eqs, ins, rands, glitch, nbDup).error
    ensures r.Ok? ==> Built(shares, eqs, ins, rands, outs, nbDup, Pass(shares, eqs, ins, rands, glitch, nbDup).value, r.value)
  {
    var pass := Pass(shares, eqs, ins, rands, glitch, nbDup);
    if pass.Err? {
      return Err(pass.error);
    }
    var st := pass.value;
    var lay := LayoutOf(shares, eqs, ins, rands, glitch);
    assert st.multIdx == CountMults(eqs);
    var outNames := OutputNames(outs, shares, nbDup);
    var xs := Slots(st.wires, st.weights);
    var outputs := OutputsMap(outNames);
    var ys, rest := Reorder.MoveOutputs(xs, SlotName, outputs);
    var c := Assemble(shares, eqs, ins, rands, outs, glitch, nbDup, st, ys);
    AssembleFacts(shares, eqs, ins, rands, outs, glitch, nbDup, st, ys);
    r := Ok(c);
  }

  /** The circuit after a pass that ended in `st`: the pass's wires with the outputs
      moved behind the others, each with its final weight, every weight odd; one wire
      per start wire and per equation, the output wires left out of `length`; and the
      multiplication flag set exactly when some equation is a plain multiplication. */
  ghost predicate Built(shares: nat, eqs: seq<Equation>, ins: seq<string>, rands: seq<string>, outs: seq<string>,
                        nbDup: int, st: State, c: Circuit)
    requires |st.weights| == |st.wires|
  {
    var p := Placed(st, OutputNames(outs, shares, nbDup));
    var ys := p.kept + p.moved;
    && |c.wires| == |ys| == |c.weights|
    && (forall i :: 0 <= i < |ys| ==> c.wires[i] == ys[i].wire && c.weights[i] == Used(ys[i].weight))
    && (forall i :: 0 <= i < |ys| ==> c.weights[i] >= 1 && c.weights[i] % 2 == 1)
    && |c.wires| == StartCount(|ins|, shares, nbDup, |rands|) + |eqs|
    && c.length == |c.wires| - Times(|outs|, Times(shares, Copies(nbDup)))
    && (c.containsMults <==> CountMults(eqs) > 0)
  }

  /** The assembled circuit holds the placed wires with their final weights. */
  lemma AssembleFacts(shares: nat, eqs: seq<Equation>, ins: seq<string>, rands: seq<string>, outs: seq<string>,
                      glitch: bool, nbDup: int, st: State, ys: seq<Slot>)
    requires |st.weights| == |st.wires| && ZeroOrOdd(st.weights)
    requires |st.wires| == StartCount(|ins|, shares, nbDup, |rands|) + |eqs|
    requires st.multIdx == CountMults(eqs)
    requires var p := Placed(st, OutputNames(outs, shares, nbDup)); ys == p.kept + p.moved
    ensures Built(shares, eqs, ins, rands, outs, nbDup, st, Assemble(shares, eqs, ins, rands, outs, glitch, nbDup, st, ys))
  {
    PlacedWeights(st, OutputNames(outs, shares, nbDup));
  }

  /** Every placed wire comes from the pass, so its weight is zero or odd. */
  lemma PlacedWeights(st: State, outNames: seq<string>)
    requires |st.weights| == |st.wires| && ZeroOrOdd(st.weights)
    ensures var p := Placed(st, outNames);
            forall i :: 0 <= i < |p.kept + p.moved| ==>
              (p.kept + p.moved)[i].weight == 0 || ((p.kept + p.moved)[i].weight > 0 && (p.kept + p.moved)[i].weight % 2 == 1)
  {
    var xs := Slots(st.wires, st.weights);
    var p := Placed(st, outNames);
    Reorder.PartitionMeaning(xs, SlotName, multiset(outNames));
    var ys := p.kept + p.moved;
    assert multiset(ys) == multiset(xs);
    forall i | 0 <= i < |ys| ensures ys[i].weight == 0 || (ys[i].weight > 0 && ys[i].weight % 2 == 1) {
      assert ys[i] in multiset(xs);
      var k :| 0 <= k < |xs| && xs[k] == ys[i];
    }
  }

  // ---------------------------------------------------------------------------------
  // As written

  /** `gen_circuit` as written: after filling the circuit it frees its temporaries and
      calls `exit(EXIT_FAILURE)` before `return c`, so no caller ever receives a
      circuit. */
  method GenCircuitAsWritten(shares: nat, eqs: seq<Equation>, ins: seq<string>, rands: seq<string>,
                             outs: seq<string>, glitch: bool, nbDup: int) returns (r: Result<Circuit, Failure>)
    requires AllWellFlagged(eqs)
    requires "0" !in OutputNames(outs, shares, nbDup)
    ensures r.Err?
    ensures Pass(shares, eqs, ins, rands, glitch, nbDup).Ok? ==> r.error == Exited
    ensures Pass(shares, eqs, ins, rands, glitch, nbDup).Err? ==>
              r.error == Pass(shares, eqs, ins, rands, glitch, nbDup).error
  {
    var c := GenCircuit(shares, eqs, ins, rands, outs, glitch, nbDup);
    if c.Err? {
      return c;
    }
    r := Err(Exited);
  }

  /** `deps->length` as written: `nb_duplications` copies of every input share, although
      the input loop writes one copy when `nb_duplications <= 1`. */
  function DeclaredLength(nEqs: nat, nRand: nat, nIn: nat, shares: nat, nbDup: int): int
  {
    nEqs + nRand + nIn * shares * nbDup + 2
  }

  /** The arrays sized by `deps->length` hold every wire exactly when duplication is on
      (at least one copy) or there is no input share; with `nb_duplications` at 0 or
      below they are too short by `nIn * shares * (1 - nb_duplications)` cells. */
  lemma DeclaredLengthMatches(nEqs: nat, nRand: nat, nIn: nat, shares: nat, nbDup: int)
    ensures DeclaredLength(nEqs, nRand, nIn, shares, nbDup) == StartCount(nIn, shares, nbDup, nRand) + nEqs
            <==> nbDup >= 1 || nIn * shares == 0
    ensures nbDup < 1 ==> StartCount(nIn, shares, nbDup, nRand) + nEqs - DeclaredLength(nEqs, nRand, nIn, shares, nbDup)
                          == nIn * shares * (1 - nbDup)
  {
    StartCountProduct(nIn, shares, nbDup, nRand);
    var p := nIn * shares;
    assert nIn * shares * nbDup == p * nbDup;
    if nbDup < 1 {
      assert p * Copies(nbDup) - p * nbDup == p * (1 - nbDup);
      if p != 0 {
        assert p * (1 - nbDup) >= p;
      }
    }
  }

  lemma StartCountProduct(nIn: nat, shares: nat, nbDup: int, nRand: nat)
    ensures StartCount(nIn, shares, nbDup, nRand) == 2 + nIn * shares * Copies(nbDup) + nRand
  {
    TimesIsProduct(shares, Copies(nbDup));
    TimesIsProduct(nIn, shares * Copies(nbDup));
    assert nIn * (shares * Copies(nbDup)) == nIn * shares * Copies(nbDup);
  }

  /** A file with one input, one share and `#DUPLICATIONS 0`: three wires ("0", "1" and
      the share) for two declared cells. */
  lemma ZeroDuplicationsOverflow()
    ensures DeclaredLength(0, 0, 1, 1, 0) == 2
    ensures |StartWires(Layout(1, 0, 0, 0, 1, false), ["a"], [], 0)| == 3
  {
  }

  /** `c->length` as written: the declared `deps->length` less `nb_duplications` copies
      of every output share, both with the raw `nb_duplications`. */
  function LengthAsWritten(nEqs: nat, nRand: nat, nIn: nat, nOut: nat, shares: nat, nbDup: int): int
  {
    DeclaredLength(nEqs, nRand, nIn, shares, nbDup) - nOut * shares * nbDup
  }

  /** The wires of a pass less the output copies, as `Built` counts `length`, against
      the length as written: equal with duplication on, and otherwise apart by
      `(nIn - nOut) * shares * (1 - nb_duplications)`. */
  lemma LengthAsWrittenGap(nEqs: nat, nRand: nat, nIn: nat, nOut: nat, shares: nat, nbDup: int)
    ensures var counted := StartCount(nIn, shares, nbDup, nRand) + nEqs - Times(nOut, Times(shares, Copies(nbDup)));
            counted - LengthAsWritten(nEqs, nRand, nIn, nOut, shares, nbDup)
            == if nbDup >= 1 then 0 else (nIn - nOut) * shares * (1 - nbDup)
  {
    var c, a, b := Copies(nbDup), nIn * shares, nOut * shares;
    var counted := StartCount(nIn, shares, nbDup, nRand) + nEqs - Times(nOut, Times(shares, c));
    assert counted == 2 + a * c + nRand + nEqs - b * c by {
      StartCountProduct(nIn, shares, nbDup, nRand);
      TimesIsProduct(shares, c);
      TimesIsProduct(nOut, shares * c);
      MulAssoc(nOut, shares, c);
    }
    assert LengthAsWritten(nEqs, nRand, nIn, nOut, shares, nbDup) == nEqs + nRand + a * nbDup + 2 - b * nbDup;
    Factor(a, b, c, nbDup);
    assert counted - LengthAsWritten(nEqs, nRand, nIn, nOut, shares, nbDup) == (a - b) * (c - nbDup);
    if nbDup < 1 {
      assert c == 1;
      Factor(nIn, nOut, shares, 0);
      assert (nIn - nOut) * shares == a - b;
    }
  }

  lemma MulAssoc(x: int, y: int, z: int)
    ensures x * (y * z) == x * y * z
  {
  }

  lemma Factor(a: int, b: int, x: int, y: int)
    ensures a * x - b * x - (a * y - b * y) == (a - b) * (x - y)
  {
    assert (a - b) * (x - y) == (a - b) * x - (a - b) * y;
    assert (a - b) * x == a * x - b * x;
    assert (a - b) * y == a * y - b * y;
  }

  /** Two inputs, one share, one output and `#DUPLICATIONS 0`, with one equation: the
      pass has four wires besides the output copy, the length as written is three. */
  lemma ZeroDuplicationsLength()
    ensures StartCount(2, 1, 0, 0) + 1 - Times(1, Times(1, Copies(0))) == 4
    ensures LengthAsWritten(1, 0, 2, 1, 1, 0) == 3
  {
  }
}

=== FILE: crp.dfy ===
/** `compute_CRP_coeffs` of src/CRP.c: one coefficient vector per single fault (a name
    of `generate_names`, forced to 0 or to 1), each filled by the leakage search for
    every tuple size up to a bound. */
module Crp {
  import opened Results
  import opened Drivers

  /** `update_coeffs`: the whole tuple is counted, nothing is stripped. */
  function UpdateCoeffs(single: Single, c: Built, v: seq<nat>, comb: seq<nat>): (r: seq<nat>)
    ensures r == single(c, v, comb)
  {
    Callback(single, c, v, comb, 0)
  }

  /** `coeff_max_main_loop`: the largest tuple size searched; `-1` stands for the
      circuit's `length`, and larger bounds are cut down to it. */
  function MainLoopMax(coeffMax: int, length: nat): (r: int)
    ensures r <= length
    ensures coeffMax == -1 ==> r == length
    ensures coeffMax != -1 ==> r <= coeffMax && (r == coeffMax || r == length)
  {
    if coeffMax == -1 then length else if coeffMax > length then length else coeffMax
  }

  /** `coeff_max` after its default is resolved: the `max_len` handed to every search.
      Unlike the size bound, it is not cut down to the circuit's `length`. */
  function MaxLen(coeffMax: int, length: nat): (r: int)
    ensures coeffMax == -1 ==> r == length
    ensures coeffMax != -1 ==> r == coeffMax
  {
    if coeffMax == -1 then length else coeffMax
  }

  /** The vector of one scenario once the searches for sizes `0, 1, .., upTo` have
      run, each with `max_len` `maxLen`, on a zeroed vector of `w` entries. */
  function Rounds(search: Search, single: Single, c: Built, w: nat, upTo: int, maxLen: int): (r: seq<nat>)
    requires KeepsWidth(single)
    ensures |r| == w
    decreases if upTo < 0 then 0 else upTo + 1
  {
    if upTo < 0 then Zeros(w)
    else Feed(single, c, Rounds(search, single, c, w, upTo - 1, maxLen), search(c, -1, [], upTo, maxLen, true), 0)
  }

  /** The size loop of one scenario: sizes `0 ..= upTo`, in increasing order. */
  method ScenarioVector(search: Search, single: Single, c: Built, w: nat, upTo: int, maxLen: int)
    returns (v: seq<nat>)
    requires KeepsWidth(single)
    ensures v == Rounds(search, single, c, w, upTo, maxLen)
  {
    v := Zeros(w);
    var size := 0;
    while size <= upTo
      invariant 0 <= size && (upTo < 0 ==> size == 0) && (upTo >= 0 ==> size <= upTo + 1)
      invariant v == Rounds(search, single, c, w, size - 1, maxLen)
      decreases upTo - size
    {
      v := Feed(single, c, v, search(c, -1, [], size, maxLen, true), 0);
      size := size + 1;
    }
    if upTo < 0 {
      assert Rounds(search, single, c, w, size - 1, maxLen) == Zeros(w) == Rounds(search, single, c, w, upTo, maxLen);
    }
  }

  /** The fault of slot `j`: `names[j / 2]`, forced to `j % 2`. */
  function SlotFault(names: seq<string>, j: nat): (f: Fault)
    requires j < 2 * |names|
  {
    Fault(names[j / 2], j % 2 == 1)
  }

  /** The slot layout: fault `names[i]` forced to `s` owns slot `i * 2 + s`, and no
      other slot is given the same name index and polarity. */
  lemma SlotLayout(names: seq<string>, i: nat, s: nat)
    requires i < |names| && s < 2
    ensures i * 2 + s < 2 * |names|
    ensures SlotFault(names, i * 2 + s) == Fault(names[i], s == 1)
    ensures forall j :: 0 <= j < 2 * |names| && j != i * 2 + s ==> j / 2 != i || j % 2 != s
  {
    var j0 := i * 2 + s;
    assert j0 / 2 == i && j0 % 2 == s;
    forall j | 0 <= j < 2 * |names| && j != i * 2 + s
      ensures j / 2 != i || j % 2 != s
    {
      assert j == j / 2 * 2 + j % 2;
    }
  }

  /** What slot `j` holds once the driver is done. */
  function SlotVector(names: seq<string>, base: Built, build: Build, search: Search, single: Single,
                      coeffMax: int, j: nat): (v: seq<nat>)
    requires KeepsWidth(single) && j < 2 * |names|
  {
    Rounds(search, single, build([SlotFault(names, j)]), base.totalWires + 1,
           MainLoopMax(coeffMax, base.length), MaxLen(coeffMax, base.length))
  }

  /** `compute_CRP_coeffs` on the names and `length` of `generate_names` and the
      fault-free circuit `base`. Only single faults are supported (`k == 1` is asserted).
      Fault `names[i]` forced to `s` fills slot `i * 2 + s` and no other; names written
      past `length` are never faulted. */
  method ComputeCrpCoeffs(names: seq<string>, length: int, base: Built, build: Build,
                          search: Search, single: Single, coeffMax: int, k: int)
    returns (r: Result<seq<seq<nat>>, Failure>)
    requires KeepsWidth(single)
    requires 0 <= length <= |names|
    ensures r.Err? <==> k != 1
    ensures r.Err? ==> r.error == AssertionFailed
    ensures r.Ok? ==> |r.value| == 2 * length
    ensures r.Ok? ==> forall j :: 0 <= j < |r.value| ==>
              |r.value[j]| == base.totalWires + 1 &&
              r.value[j] == SlotVector(names, base, build, search, single, coeffMax, j)
  {
    var w := base.totalWires + 1;
    var upTo := MainLoopMax(coeffMax, base.length);
    var maxLen := MaxLen(coeffMax, base.length);
    var slots := seq(2 * length, _ => Zeros(w));
    if k != 1 {
      return Err(AssertionFailed);
    }
    var i := 0;
    while i < length
      invariant 0 <= i <= length && |slots| == 2 * length
      invariant forall j :: 0 <= j < 2 * i ==> slots[j] == SlotVector(names, base, build, search, single, coeffMax, j)
      invariant forall j :: 2 * i <= j < 2 * length ==> slots[j] == Zeros(w)
    {
      var s := 0;
      while s < 2
        invariant 0 <= s <= 2 && |slots| == 2 * length
        invariant forall j :: 0 <= j < 2 * i + s ==> slots[j] == SlotVector(names, base, build, search, single, coeffMax, j)
        invariant forall j :: 2 * i + s <= j < 2 * length ==> slots[j] == Zeros(w)
      {
        var c := build([Fault(names[i], s == 1)]);
        var v := ScenarioVector(search, single, c, w, upTo, maxLen);
        assert SlotFault(names, i * 2 + s) == Fault(names[i], s == 1);
        slots := slots[i * 2 + s := v];
        s := s + 1;
      }
      i := i + 1;
    }
    return Ok(slots);
  }
}

=== FILE: crpc.dfy ===
/** `compute_CRPC` of src/CRPC.c: for every fault scenario (each combination of up to
    `k` names of `generate_names`, all forced to 1, then one fault-free run), the
    coefficient vector is the entrywise maximum, over every choice of `t` output
    shares, of the vectors counted with that choice as a fixed tuple prefix. */
module Crpc {
  import opened Results
  import opened CText
  import opened Drivers
  import Crp
  import Seqs

  /** `update_coeffs`: the first `t * nb_duplications` entries of the tuple, the output
      prefix, are dropped before counting. */
  function UpdateCoeffs(single: Single, c: Built, v: seq<nat>, comb: seq<nat>, t: nat, d: nat): (r: seq<nat>)
    requires t * d <= |comb|
  {
    Callback(single, c, v, comb, t * d)
  }

  /** A tuple made of an output prefix and the rest is counted as the single-fault
      driver would count the rest alone. */
  lemma StripsPrefix(single: Single, c: Built, v: seq<nat>, prefix: seq<nat>, rest: seq<nat>, t: nat, d: nat)
    requires |prefix| == t * d
    ensures UpdateCoeffs(single, c, v, prefix + rest, t, d) == Crp.UpdateCoeffs(single, c, v, rest)
  {
    assert (prefix + rest)[t * d..] == rest;
  }

  /** The names of copies `j < d` of output shares `outComb[0], .., outComb[t - 1]`, at
      position `i * d + j`. */
  function PrefixNames(key: string, outComb: seq<nat>, t: nat, d: nat): (r: seq<string>)
    requires t <= |outComb|
  {
    if t == 0 then []
    else PrefixNames(key, outComb, t - 1, d) + seq(d, j requires 0 <= j < d => DupName(key, outComb[t - 1], j))
  }

  /** The prefix names are exactly the copies of the chosen shares. */
  lemma {:induction false} PrefixNamesMembers(key: string, outComb: seq<nat>, t: nat, d: nat)
    requires t <= |outComb|
    ensures forall i, j :: 0 <= i < t && 0 <= j < d ==> DupName(key, outComb[i], j) in PrefixNames(key, outComb, t, d)
    ensures forall x :: x in PrefixNames(key, outComb, t, d) ==>
              exists i, j :: 0 <= i < t && 0 <= j < d && x == DupName(key, outComb[i], j)
  {
    if t > 0 {
      PrefixNamesMembers(key, outComb, t - 1, d);
      var front := PrefixNames(key, outComb, t - 1, d);
      var last := seq(d, j requires 0 <= j < d => DupName(key, outComb[t - 1], j));
      assert PrefixNames(key, outComb, t, d) == front + last;
      forall i, j | 0 <= i < t && 0 <= j < d
        ensures DupName(key, outComb[i], j) in front + last
      {
        if i == t - 1 {
          assert last[j] == DupName(key, outComb[i], j);
        }
      }
      forall x | x in front + last
        ensures exists i, j :: 0 <= i < t && 0 <= j < d && x == DupName(key, outComb[i], j)
      {
        if x !in front {
          var j :| 0 <= j < d && last[j] == x;
          assert x == DupName(key, outComb[t - 1], j);
        }
      }
    }
  }

  predicate Ascending(xs: seq<nat>)
  {
    forall a, b :: 0 <= a < b < |xs| ==> xs[a] < xs[b]
  }

  /** The scan of `construct_output_prefix`: the positions from `from` on whose name is
      wanted, in increasing order. */
  function Scan(names: seq<string>, from: nat, wanted: seq<string>): (r: seq<nat>)
    ensures Ascending(r)
    ensures forall k :: 0 <= k < |r| ==> from <= r[k] < |names| && names[r[k]] in wanted
    ensures forall i :: from <= i < |names| && names[i] in wanted ==> i in r
    decreases |names| - from
  {
    if from >= |names| then []
    else if names[from] in wanted then [from] + Scan(names, from + 1, wanted)
    else Scan(names, from + 1, wanted)
  }

  lemma SameEmpty(xs: seq<nat>, ys: seq<nat>)
    requires forall x :: x in xs <==> x in ys
    ensures xs == [] <==> ys == []
  {
    if xs != [] {
      assert xs[0] in ys;
    }
    if ys != [] {
      assert ys[0] in xs;
    }
  }

  /** Two ascending sequences with the same elements are equal. */
  lemma {:induction false} AscendingUnique(xs: seq<nat>, ys: seq<nat>)
    requires Ascending(xs) && Ascending(ys)
    requires forall x :: x in xs <==> x in ys
    ensures xs == ys
    decreases |xs|
  {
    SameEmpty(xs, ys);
    if xs != [] {
      assert xs[0] in ys && ys[0] in xs;
      assert xs[0] == ys[0];
      forall x
        ensures x in xs[1..] <==> x in ys[1..]
      {
        if x in xs[1..] {
          var k :| 0 <= k < |xs| - 1 && xs[1..][k] == x;
          assert xs[0] < xs[k + 1] && xs[k + 1] == x && x in xs;
          var m :| 0 <= m < |ys| && ys[m] == x;
          assert m != 0;
          assert ys[1..][m - 1] == x;
        }
        if x in ys[1..] {
          var k :| 0 <= k < |ys| - 1 && ys[1..][k] == x;
          assert ys[0] < ys[k + 1] && ys[k + 1] == x && x in ys;
          var m :| 0 <= m < |xs| && xs[m] == x;
          assert m != 0;
          assert xs[1..][m - 1] == x;
        }
      }
      AscendingUnique(xs[1..], ys[1..]);
      assert xs == [xs[0]] + xs[1..];
      assert ys == [ys[0]] + ys[1..];
    }
  }

  /** The positions in `[length, |names|)` whose name is one of the output copies. */
  predicate IsPrefixOf(c: Built, wanted: seq<string>, xs: seq<nat>)
  {
    && Ascending(xs)
    && (forall k :: 0 <= k < |xs| ==> c.length <= xs[k] < |c.names| && c.names[xs[k]] in wanted)
    && (forall i :: c.length <= i < |c.names| && c.names[i] in wanted ==> i in xs)
  }

  /** `construct_output_prefix`: the positions, among the wires past `c->length`, of
      the copies of the chosen output shares, in increasing order. There must be
      exactly `t * nb_duplications` of them (asserted). */
  function OutputPrefix(c: Built, key: string, outComb: seq<nat>, t: nat, d: nat): (r: Result<seq<nat>, Failure>)
    requires t <= |outComb|
    ensures r.Ok? ==> |r.value| == t * d && IsPrefixOf(c, PrefixNames(key, outComb, t, d), r.value)
    ensures r.Err? ==> r.error == AssertionFailed
  {
    var hits := Scan(c.names, c.length, PrefixNames(key, outComb, t, d));
    if |hits| == t * d then Ok(hits) else Err(AssertionFailed)
  }

  /** The assertion holds exactly when the circuit has `t * nb_duplications` wires,
      past `c->length`, named after the chosen output copies. */
  lemma PrefixFound(c: Built, key: string, outComb: seq<nat>, t: nat, d: nat, xs: seq<nat>)
    requires t <= |outComb|
    requires IsPrefixOf(c, PrefixNames(key, outComb, t, d), xs)
    ensures OutputPrefix(c, key, outComb, t, d).Ok? <==> |xs| == t * d
    ensures OutputPrefix(c, key, outComb, t, d).Ok? ==> OutputPrefix(c, key, outComb, t, d).value == xs
  {
    var wanted := PrefixNames(key, outComb, t, d);
    var hits := Scan(c.names, c.length, wanted);
    AscendingUnique(hits, xs);
  }

  /** The output prefixes of every choice of output shares, or the failed assertion. */
  function Prefixes(c: Built, key: string, outCombs: seq<seq<nat>>, t: nat, d: nat): (r: Result<seq<seq<nat>>, Failure>)
    requires forall l :: 0 <= l < |outCombs| ==> t <= |outCombs[l]|
    ensures r.Ok? <==> forall l :: 0 <= l < |outCombs| ==> OutputPrefix(c, key, outCombs[l], t, d).Ok?
    ensures r.Ok? ==> |r.value| == |outCombs|
    ensures r.Ok? ==> forall l :: 0 <= l < |outCombs| ==> r.value[l] == OutputPrefix(c, key, outCombs[l], t, d).value
    ensures r.Err? ==> r.error == AssertionFailed
  {
    var found := seq(|outCombs|, l requires 0 <= l < |outCombs| => OutputPrefix(c, key, outCombs[l], t, d));
    assert forall l :: 0 <= l < |outCombs| ==> found[l] == OutputPrefix(c, key, outCombs[l], t, d);
    var r := AllOk(found, 0);
    assert r.Err? ==> r.error == AssertionFailed by {
      if r.Err? {
        var l :| 0 <= l < |found| && found[l] == Err(r.error);
      }
    }
    r
  }

  /** The values of `rs[i..]` when every one is `Ok`, otherwise the first failure. */
  function AllOk<T>(rs: seq<Result<T, Failure>>, i: nat): (r: Result<seq<T>, Failure>)
    requires i <= |rs|
    ensures r.Ok? <==> forall l :: i <= l < |rs| ==> rs[l].Ok?
    ensures r.Ok? ==> |r.value| == |rs| - i && forall l :: i <= l < |rs| ==> r.value[l - i] == rs[l].value
    ensures r.Err? ==> exists l :: i <= l < |rs| && rs[l] == Err(r.error)
    decreases |rs| - i
  {
    if i == |rs| then Ok([])
    else
      var first :- rs[i];
      var rest :- AllOk(rs, i + 1);
      Ok([first] + rest)
  }

  /** `t_in`: one less than `t` when every share is observed. */
  function TIn(t: nat, shareCount: int): (r: int)
    ensures r < t <==> t == shareCount
  {
    if t == shareCount then t - 1 else t
  }

  /** The vector of output-prefix choice `prefix` after the searches for sizes
      `0 ..= s`; each search has `comb_len` and `max_len` `size + |prefix|`. */
  function PrefixVec(search: Search, single: Single, c: Built, tIn: int, prefix: seq<nat>, w: nat, s: int): (r: seq<nat>)
    requires KeepsWidth(single) && TuplesSized(search)
    ensures |r| == w
    decreases if s < 0 then 0 else s + 1
  {
    if s < 0 then Zeros(w)
    else
      var tuples := search(c, tIn, prefix, s + |prefix|, s + |prefix|, false);
      Feed(single, c, PrefixVec(search, single, c, tIn, prefix, w, s - 1), tuples, |prefix|)
  }

  /** The vectors of all prefix choices after the sizes `0 ..= s`. */
  function PerPrefix(search: Search, single: Single, c: Built, tIn: int, prefixes: seq<seq<nat>>, w: nat, s: int): (r: seq<seq<nat>>)
    requires KeepsWidth(single) && TuplesSized(search)
    ensures |r| == |prefixes| && forall l :: 0 <= l < |r| ==> |r[l]| == w
  {
    seq(|prefixes|, l requires 0 <= l < |prefixes| => PrefixVec(search, single, c, tIn, prefixes[l], w, s))
  }

  /** Entry `s` of the result: the largest entry `s` among the prefix choices right
      after the search at size `s`. */
  function SizeMax(search: Search, single: Single, c: Built, tIn: int, prefixes: seq<seq<nat>>, w: nat, s: nat): nat
    requires KeepsWidth(single) && TuplesSized(search) && s < w
  {
    MaxAt(PerPrefix(search, single, c, tIn, prefixes, w, s), s)
  }

  /** One round of the size loop: every prefix choice is searched at `size`, and entry
      `size` of the result becomes the largest entry `size` among them. */
  method SizeRound(search: Search, single: Single, c: Built, tIn: int, prefixes: seq<seq<nat>>, w: nat,
                   size: nat, vecs: seq<seq<nat>>, coeffs: seq<nat>)
    returns (vecs': seq<seq<nat>>, coeffs': seq<nat>)
    requires KeepsWidth(single) && TuplesSized(search)
    requires size < w && Maxed(search, single, c, tIn, prefixes, w, coeffs, size)
    requires vecs == PerPrefix(search, single, c, tIn, prefixes, w, size - 1)
    ensures vecs' == PerPrefix(search, single, c, tIn, prefixes, w, size)
    ensures Maxed(search, single, c, tIn, prefixes, w, coeffs', size + 1)
  {
    ghost var after := PerPrefix(search, single, c, tIn, prefixes, w, size);
    vecs', coeffs' := vecs, coeffs;
    var l := 0;
    while l < |prefixes|
      invariant 0 <= l <= |prefixes| == |vecs'|
      invariant forall m :: 0 <= m < l ==> vecs'[m] == after[m]
      invariant forall m :: l <= m < |vecs'| ==> vecs'[m] == vecs[m]
      invariant |coeffs'| == w && coeffs'[size] == MaxAt(after[..l], size)
      invariant forall s :: 0 <= s < w && s != size ==> coeffs'[s] == coeffs[s]
    {
      var tuples := search(c, tIn, prefixes[l], size + |prefixes[l]|, size + |prefixes[l]|, false);
      var v := Feed(single, c, vecs'[l], tuples, |prefixes[l]|);
      assert v == after[l] by {
        NextRound(search, single, c, tIn, prefixes, w, size, l);
      }
      MaxAtSnoc(after, l, size);
      vecs' := vecs'[l := v];
      coeffs' := coeffs'[size := Max(coeffs'[size], v[size])];
      l := l + 1;
    }
    assert after[..l] == after;
    MaxedStep(search, single, c, tIn, prefixes, w, coeffs, coeffs', size);
  }

  /** Searching prefix choice `l` at `size` turns its vector after the earlier sizes
      into its vector after `size`. */
  lemma NextRound(search: Search, single: Single, c: Built, tIn: int, prefixes: seq<seq<nat>>, w: nat, size: nat, l: nat)
    requires KeepsWidth(single) && TuplesSized(search) && l < |prefixes|
    ensures var tuples := search(c, tIn, prefixes[l], size + |prefixes[l]|, size + |prefixes[l]|, false);
            PerPrefix(search, single, c, tIn, prefixes, w, size)[l] ==
              Feed(single, c, PerPrefix(search, single, c, tIn, prefixes, w, size - 1)[l], tuples, |prefixes[l]|)
  {
  }

  /** The tail loop for entry `i`: the largest entry `i` among the prefix choices. */
  method TailEntry(vecs: seq<seq<nat>>, i: nat, coeffs: seq<nat>) returns (coeffs': seq<nat>)
    requires i < |coeffs| && forall l :: 0 <= l < |vecs| ==> i < |vecs[l]|
    ensures |coeffs'| == |coeffs| && coeffs'[i] == Max(coeffs[i], MaxAt(vecs, i))
    ensures forall s :: 0 <= s < |coeffs| && s != i ==> coeffs'[s] == coeffs[s]
  {
    coeffs' := coeffs;
    var j := 0;
    while j < |vecs|
      invariant 0 <= j <= |vecs| && |coeffs'| == |coeffs|
      invariant coeffs'[i] == Max(coeffs[i], MaxAt(vecs[..j], i))
      invariant forall s :: 0 <= s < |coeffs| && s != i ==> coeffs'[s] == coeffs[s]
    {
      assert vecs[..j + 1][..j] == vecs[..j];
      coeffs' := coeffs'[i := Max(coeffs'[i], vecs[j][i])];
      j := j + 1;
    }
    assert vecs[..j] == vecs;
  }

  /** Before any search, every prefix choice has a zeroed vector. */
  lemma Unsearched(search: Search, single: Single, c: Built, tIn: int, prefixes: seq<seq<nat>>, w: nat)
    requires KeepsWidth(single) && TuplesSized(search)
    ensures seq(|prefixes|, _ => Zeros(w)) == PerPrefix(search, single, c, tIn, prefixes, w, -1)
  {
  }

  /** The size loop: sizes `0 ..= coeffMax`, each with every prefix choice. */
  method SizeLoop(search: Search, single: Single, c: Built, tIn: int, prefixes: seq<seq<nat>>,
                  coeffMax: nat, w: nat)
    returns (vecs: seq<seq<nat>>, coeffs: seq<nat>)
    requires KeepsWidth(single) && TuplesSized(search)
    requires coeffMax < w
    ensures vecs == PerPrefix(search, single, c, tIn, prefixes, w, coeffMax)
    ensures Maxed(search, single, c, tIn, prefixes, w, coeffs, coeffMax + 1)
  {
    coeffs := Zeros(w);
    vecs := seq(|prefixes|, _ => Zeros(w));
    Unsearched(search, single, c, tIn, prefixes, w);
    var size := 0;
    while size <= coeffMax
      invariant 0 <= size <= coeffMax + 1
      invariant vecs == PerPrefix(search, single, c, tIn, prefixes, w, size - 1)
      invariant Maxed(search, single, c, tIn, prefixes, w, coeffs, size)
    {
      vecs, coeffs := SizeRound(search, single, c, tIn, prefixes, w, size, vecs, coeffs);
      size := size + 1;
    }
  }

  /** The state of the size loop before `size`: the entries below `size` hold their
      maxima, the others are still zero. */
  ghost predicate Maxed(search: Search, single: Single, c: Built, tIn: int, prefixes: seq<seq<nat>>, w: nat,
                        coeffs: seq<nat>, size: nat)
    requires KeepsWidth(single) && TuplesSized(search)
  {
    && size <= w == |coeffs|
    && (forall s :: 0 <= s < size ==> coeffs[s] == SizeMax(search, single, c, tIn, prefixes, w, s))
    && (forall s :: size <= s < w ==> coeffs[s] == 0)
  }

  /** One round of the size loop keeps `Maxed` one size further. */
  lemma MaxedStep(search: Search, single: Single, c: Built, tIn: int, prefixes: seq<seq<nat>>, w: nat,
                  coeffs: seq<nat>, coeffs': seq<nat>, size: nat)
    requires KeepsWidth(single) && TuplesSized(search) && size < w
    requires Maxed(search, single, c, tIn, prefixes, w, coeffs, size)
    requires |coeffs'| == w && coeffs'[size] == SizeMax(search, single, c, tIn, prefixes, w, size)
    requires forall s :: 0 <= s < w && s != size ==> coeffs'[s] == coeffs[s]
    ensures Maxed(search, single, c, tIn, prefixes, w, coeffs', size + 1)
  {
  }

  /** The tail loop: entries `coeffMax + 1 ..= last`, from the vectors `vecs`. */
  method TailLoop(vecs: seq<seq<nat>>, coeffMax: nat, last: nat, coeffs: seq<nat>) returns (coeffs': seq<nat>)
    requires last < |coeffs| && forall l :: 0 <= l < |vecs| ==> |vecs[l]| == |coeffs|
    requires forall s :: coeffMax < s < |coeffs| ==> coeffs[s] == 0
    ensures |coeffs'| == |coeffs|
    ensures forall s :: 0 <= s <= coeffMax && s < |coeffs| ==> coeffs'[s] == coeffs[s]
    ensures forall s :: coeffMax < s <= last ==> coeffs'[s] == MaxAt(vecs, s)
    ensures forall s :: coeffMax < s < |coeffs| && last < s ==> coeffs'[s] == 0
  {
    coeffs' := coeffs;
    var i := coeffMax + 1;
    while i <= last
      invariant coeffMax + 1 <= i && (i <= last + 1 || i == coeffMax + 1)
      invariant |coeffs'| == |coeffs|
      invariant forall s :: 0 <= s <= coeffMax && s < |coeffs| ==> coeffs'[s] == coeffs[s]
      invariant forall s :: coeffMax < s < i ==> coeffs'[s] == MaxAt(vecs, s)
      invariant forall s :: i <= s < |coeffs| ==> coeffs'[s] == 0
    {
      coeffs' := TailEntry(vecs, i, coeffs');
      i := i + 1;
    }
  }

  /** The coefficients of one scenario circuit `c`, with vectors of `w` entries: entry
      `size <= coeffMax` is the largest entry `size` among the prefix choices right after
      the search at `size`; every later entry up to `c->total_wires` is the largest among
      the vectors left by the last search; the rest stay zero. */
  method ScenarioCoeffs(search: Search, single: Single, c: Built, tIn: int, prefixes: seq<seq<nat>>,
                        coeffMax: nat, w: nat)
    returns (coeffs: seq<nat>)
    requires KeepsWidth(single) && TuplesSized(search)
    requires coeffMax < w && c.totalWires < w
    ensures |coeffs| == w
    ensures forall s :: 0 <= s <= coeffMax ==>
              coeffs[s] == SizeMax(search, single, c, tIn, prefixes, w, s)
    ensures forall s :: coeffMax < s <= c.totalWires ==>
              coeffs[s] == MaxAt(PerPrefix(search, single, c, tIn, prefixes, w, coeffMax), s)
    ensures forall s :: coeffMax < s < w && c.totalWires < s ==> coeffs[s] == 0
  {
    var vecs, sized := SizeLoop(search, single, c, tIn, prefixes, coeffMax, w);
    coeffs := TailLoop(vecs, coeffMax, c.totalWires, sized);
  }

  /** What `ScenarioCoeffs` computes, entry by entry. */
  predicate MaxFold(coeffs: seq<nat>, search: Search, single: Single, c: Built, tIn: int,
                    prefixes: seq<seq<nat>>, coeffMax: nat, w: nat)
    requires KeepsWidth(single) && TuplesSized(search)
  {
    && |coeffs| == w
    && (forall s :: 0 <= s <= coeffMax && s < w ==>
          coeffs[s] == SizeMax(search, single, c, tIn, prefixes, w, s))
    && (forall s :: coeffMax < s <= c.totalWires && s < w ==>
          coeffs[s] == MaxAt(PerPrefix(search, single, c, tIn, prefixes, w, coeffMax), s))
    && (forall s :: coeffMax < s < w && c.totalWires < s ==> coeffs[s] == 0)
  }

  /** The combinations the enumeration visits for `i` faults: `first_comb(i, 0)`, then
      every combination `incr_comb_in_place(comb, i, length)` moves to, until it
      reports the end. */
  type Visits = nat -> seq<seq<nat>>

  /** What the driver needs of the enumeration: every combination it visits for `i`
      faults picks `i` indices into the names. */
  ghost predicate VisitsWithin(visits: Visits, k: int, n: nat)
  {
    forall i, m :: 1 <= i <= k && 0 <= m < |visits(i)| ==>
      |visits(i)[m]| == i && forall j :: 0 <= j < i ==> visits(i)[m][j] < n
  }

  /** An enumeration within the first `n` names stays within any longer list. */
  lemma VisitsWiden(visits: Visits, k: int, n: nat, m: nat)
    requires VisitsWithin(visits, k, n) && n <= m
    ensures VisitsWithin(visits, k, m)
  {
  }

  /** The faults of one combination: every named wire forced to 1. */
  function FaultsOf(names: seq<string>, comb: seq<nat>): (fs: seq<Fault>)
    requires forall j :: 0 <= j < |comb| ==> comb[j] < |names|
    ensures |fs| == |comb|
    ensures forall j :: 0 <= j < |fs| ==> fs[j] == Fault(names[comb[j]], true)
  {
    seq(|comb|, j requires 0 <= j < |comb| => Fault(names[comb[j]], true))
  }

  /** The fault lists of the scenarios, in the order of the driver: the combinations of
      `i` faults for `i = from, .., k`, then the fault-free baseline. Every list but the
      last has between `from` and `k` faults, all forced to 1 on a generated name. */
  function Scenarios(names: seq<string>, visits: Visits, from: nat, k: int): (r: seq<seq<Fault>>)
    requires from >= 1 && VisitsWithin(visits, k, |names|)
    ensures |r| >= 1 && r[|r| - 1] == []
    ensures forall m :: 0 <= m < |r| - 1 ==> from <= |r[m]| <= k
    ensures forall m, j :: 0 <= m < |r| && 0 <= j < |r[m]| ==> r[m][j].isSet && r[m][j].name in names
    decreases if k < from then 0 else k - from + 1
  {
    if k < from then [[]]
    else
      var these := seq(|visits(from)|, m requires 0 <= m < |visits(from)| => FaultsOf(names, visits(from)[m]));
      these + Scenarios(names, visits, from + 1, k)
  }

  /** One scenario: its faults and its coefficient vector. */
  datatype Scenario = Scenario(faults: seq<Fault>, coeffs: seq<nat>)

  /** A scenario the driver ran on the circuit `build(fs)`: every output prefix was
      found and the coefficients are the maximum fold over them. */
  ghost predicate Computed(sc: Scenario, fs: seq<Fault>, build: Build, search: Search, single: Single,
                           key: string, outCombs: seq<seq<nat>>, t: nat, d: nat, coeffMax: nat, w: nat)
    requires KeepsWidth(single) && TuplesSized(search)
    requires forall l :: 0 <= l < |outCombs| ==> t <= |outCombs[l]|
  {
    var c := build(fs);
    && sc.faults == fs
    && Prefixes(c, key, outCombs, t, d).Ok?
    && MaxFold(sc.coeffs, search, single, c, TIn(t, c.shareCount), Prefixes(c, key, outCombs, t, d).value, coeffMax, w)
  }

  /** The scenarios the driver ran, one per fault list, in order. */
  ghost predicate AllComputed(scs: seq<Scenario>, all: seq<seq<Fault>>, build: Build, search: Search, single: Single,
                              key: string, outCombs: seq<seq<nat>>, t: nat, d: nat, coeffMax: nat, w: nat)
    requires KeepsWidth(single) && TuplesSized(search)
    requires forall l :: 0 <= l < |outCombs| ==> t <= |outCombs[l]|
  {
    && |scs| == |all|
    && forall m :: 0 <= m < |all| ==> Computed(scs[m], all[m], build, search, single, key, outCombs, t, d, coeffMax, w)
  }

  /** Some scenario circuit lacks the output copies of some choice of output shares. */
  ghost predicate SomePrefixMissing(all: seq<seq<Fault>>, build: Build, key: string, outCombs: seq<seq<nat>>, t: nat, d: nat)
    requires forall l :: 0 <= l < |outCombs| ==> t <= |outCombs[l]|
  {
    exists m :: 0 <= m < |all| && Prefixes(build(all[m]), key, outCombs, t, d).Err?
  }

  /** One scenario of the driver, or the failed prefix assertion. */
  method RunScenario(fs: seq<Fault>, build: Build, search: Search, single: Single,
                     key: string, outCombs: seq<seq<nat>>, t: nat, d: nat, coeffMax: nat, w: nat)
    returns (r: Result<Scenario, Failure>)
    requires KeepsWidth(single) && TuplesSized(search)
    requires forall l :: 0 <= l < |outCombs| ==> t <= |outCombs[l]|
    requires coeffMax < w && build(fs).totalWires < w
    ensures r.Ok? <==> Prefixes(build(fs), key, outCombs, t, d).Ok?
    ensures r.Err? ==> r.error == AssertionFailed
    ensures r.Ok? ==> Computed(r.value, fs, build, search, single, key, outCombs, t, d, coeffMax, w)
  {
    var c := build(fs);
    var prefixes :- Prefixes(c, key, outCombs, t, d);
    var coeffs := ScenarioCoeffs(search, single, c, TIn(t, c.shareCount), prefixes, coeffMax, w);
    return Ok(Scenario(fs, coeffs));
  }

  /** Every scenario in order, stopping at the first one whose prefix assertion fails. */
  method RunAll(all: seq<seq<Fault>>, build: Build, search: Search, single: Single,
                key: string, outCombs: seq<seq<nat>>, t: nat, d: nat, coeffMax: nat, w: nat)
    returns (r: Result<seq<Scenario>, Failure>)
    requires KeepsWidth(single) && TuplesSized(search)
    requires forall l :: 0 <= l < |outCombs| ==> t <= |outCombs[l]|
    requires coeffMax < w && WiresBelow(build, w)
    ensures r.Err? <==> SomePrefixMissing(all, build, key, outCombs, t, d)
    ensures r.Err? ==> r.error == AssertionFailed
    ensures r.Ok? ==> AllComputed(r.value, all, build, search, single, key, outCombs, t, d, coeffMax, w)
  {
    var done: seq<Scenario> := [];
    var m := 0;
    while m < |all|
      invariant 0 <= m <= |all| && |done| == m
      invariant forall n :: 0 <= n < m ==> Computed(done[n], all[n], build, search, single, key, outCombs, t, d, coeffMax, w)
    {
      var sc := RunScenario(all[m], build, search, single, key, outCombs, t, d, coeffMax, w);
      if sc.Err? {
        assert Prefixes(build(all[m]), key, outCombs, t, d).Err?;
        return Err(AssertionFailed);
      }
      done := done + [sc.value];
      m := m + 1;
    }
    forall n | 0 <= n < |all|
      ensures Prefixes(build(all[n]), key, outCombs, t, d).Ok?
    {
      assert Computed(done[n], all[n], build, search, single, key, outCombs, t, d, coeffMax, w);
    }
    return Ok(done);
  }

  /** The entries the size loop of `compute_CRPC` writes: `coeffs[size]` for
      `size = 0 ..= bound`. */
  function SizesWritten(bound: int): (r: seq<nat>)
    ensures |r| == if bound < 0 then 0 else bound + 1
    ensures forall s :: 0 <= s < |r| ==> r[s] == s
  {
    if bound < 0 then [] else seq(bound + 1, s => s)
  }

  /** As written, `compute_CRPC` resolves `coeff_max` without clamping it: a bound above
      `total_wires` makes the size loop write an entry past the `total_wires + 1`
      entries allocated for the vectors. */
  lemma UnclampedSizeOverrun(coeffMax: int, length: nat, totalWires: nat)
    requires coeffMax > totalWires
    ensures exists s :: s in SizesWritten(Crp.MaxLen(coeffMax, length)) && s >= totalWires + 1
  {
    var ws := SizesWritten(Crp.MaxLen(coeffMax, length));
    assert ws[coeffMax] == coeffMax && ws[coeffMax] in ws;
  }

  /** The last size the driver runs: `coeff_max` with its default resolved, cut to
      `total_wires` so that every entry the size loop writes lies within the vectors
      (`ClampedWritesWithin`). Whenever the unclamped bound already fits, it is kept. */
  function SizeBound(coeffMax: int, length: nat, totalWires: nat): (r: nat)
    requires -1 <= coeffMax
    ensures r <= totalWires
    ensures Crp.MaxLen(coeffMax, length) <= totalWires ==> r == Crp.MaxLen(coeffMax, length)
    ensures Crp.MaxLen(coeffMax, length) > totalWires ==> r == totalWires
  {
    var m := Crp.MaxLen(coeffMax, length);
    if m > totalWires then totalWires else m
  }

  /** With the clamp, every entry the size loop writes lies within the `total_wires + 1`
      entries of the vectors. */
  lemma ClampedWritesWithin(coeffMax: int, length: nat, totalWires: nat)
    requires -1 <= coeffMax
    ensures forall s :: s in SizesWritten(SizeBound(coeffMax, length, totalWires)) ==> s < totalWires + 1
  {
  }

  /** `compute_CRPC` on the output names, the names and `length` of `generate_names`,
      the choices of `t` output shares (`gen_combinations(t, shares - 1)`) and the
      enumeration of fault combinations, which picks among the first `length` names. Gadgets with more than one output are refused; otherwise every
      scenario is run in order, with its sizes bounded by `SizeBound`, and the prefix
      assertion may end the run. */
  method ComputeCrpc(outs: seq<string>, names: seq<string>, length: int, build: Build, search: Search, single: Single,
                     visits: Visits, outCombs: seq<seq<nat>>, coeffMax: int, k: int, t: nat, d: nat)
    returns (r: Result<seq<Scenario>, Failure>)
    requires outs != []
    requires KeepsWidth(single) && TuplesSized(search)
    requires 0 <= length <= |names| && VisitsWithin(visits, k, length)
    requires forall l :: 0 <= l < |outCombs| ==> t <= |outCombs[l]|
    requires -1 <= coeffMax
    requires NoWider(build)
    ensures |outs| > 1 ==> r == Err(TooManyOutputs)
    ensures |outs| == 1 ==>
              (r.Err? <==> SomePrefixMissing(Scenarios(names, visits, 1, k), build, outs[0], outCombs, t, d))
    ensures |outs| == 1 && r.Err? ==> r.error == AssertionFailed
    ensures r.Ok? ==> AllComputed(r.value, Scenarios(names, visits, 1, k), build, search, single, outs[0], outCombs,
                                  t, d, SizeBound(coeffMax, build([]).length, build([]).totalWires),
                                  build([]).totalWires + 1)
  {
    if |outs| > 1 {
      r := Err(TooManyOutputs);
    } else {
      VisitsWiden(visits, k, length, |names|);
      r := RunAll(Scenarios(names, visits, 1, k), build, search, single, outs[0], outCombs, t, d,
                  SizeBound(coeffMax, build([]).length, build([]).totalWires), build([]).totalWires + 1);
    }
  }
}

=== FILE: deps.dfy ===
/** Dependency vectors of src/parser.c: one integer per basis slot (inputs, randoms,
    multiplications, correction outputs, and the constant slot last). Addition of wires
    is slot-wise XOR. Entries are unbounded naturals here; the C `int` is wide enough as
    long as `1 << i` fits, which `XorBound` makes precise. */
module Deps {

  type Dep = seq<nat>

  /** Bitwise exclusive or of two naturals. */
  function Xor(a: nat, b: nat): nat
    decreases a + b
  {
    if a == 0 then b
    else if b == 0 then a
    else 2 * Xor(a / 2, b / 2) + (if a % 2 == b % 2 then 0 else 1)
  }

  function Pow2(n: nat): (r: nat)
    ensures r >= 1
  {
    if n == 0 then 1 else 2 * Pow2(n - 1)
  }

  /** The lowest bit of `Xor(a, b)` is the sum of the lowest bits, and the rest is the
      exclusive or of the rest. */
  lemma XorBits(a: nat, b: nat)
    ensures Xor(a, b) % 2 == (a + b) % 2
    ensures Xor(a, b) / 2 == Xor(a / 2, b / 2)
  {
  }

  lemma {:induction false} XorSelf(a: nat)
    ensures Xor(a, a) == 0
    decreases a
  {
    if a != 0 {
      XorSelf(a / 2);
    }
  }

  lemma {:induction false} XorComm(a: nat, b: nat)
    ensures Xor(a, b) == Xor(b, a)
    decreases a + b
  {
    if a != 0 && b != 0 {
      XorComm(a / 2, b / 2);
    }
  }

  lemma {:induction false} XorAssoc(a: nat, b: nat, c: nat)
    ensures Xor(Xor(a, b), c) == Xor(a, Xor(b, c))
    decreases a + b + c
  {
    if a != 0 && b != 0 && c != 0 {
      var ab, bc := Xor(a, b), Xor(b, c);
      var l, r := Xor(ab, c), Xor(a, bc);
      XorBits(a, b);
      XorBits(b, c);
      XorBits(ab, c);
      XorBits(a, bc);
      XorAssoc(a / 2, b / 2, c / 2);
      assert l / 2 == r / 2;
      SameParity(a, b, c, ab, bc);
      SameHalves(l, r);
    }
  }

  lemma SameParity(a: nat, b: nat, c: nat, ab: nat, bc: nat)
    requires ab % 2 == (a + b) % 2 && bc % 2 == (b + c) % 2
    ensures (ab + c) % 2 == (a + bc) % 2
  {
  }

  lemma SameHalves(x: nat, y: nat)
    requires x / 2 == y / 2 && x % 2 == y % 2
    ensures x == y
  {
  }

  /** Exclusive or stays below a power of two: share masks `1 << i` with `i < n` never
      produce an entry of `n` bits or more. */
  lemma {:induction false} XorBound(a: nat, b: nat, n: nat)
    requires a < Pow2(n) && b < Pow2(n)
    ensures Xor(a, b) < Pow2(n)
    decreases n
  {
    if n > 0 && a != 0 && b != 0 {
      XorBound(a / 2, b / 2, n - 1);
      XorBits(a, b);
    }
  }

  /** Adding the same value twice cancels. */
  lemma XorCancel(a: nat, b: nat)
    ensures Xor(Xor(a, b), b) == a
  {
    XorAssoc(a, b, b);
    XorSelf(b);
  }

  /** Slot-wise XOR (the Add case of `gen_circuit`). */
  function XorVec(a: Dep, b: Dep): (r: Dep)
    requires |a| == |b|
    ensures |r| == |a|
    ensures forall i :: 0 <= i < |a| ==> r[i] == Xor(a[i], b[i])
  {
    seq(|a|, i requires 0 <= i < |a| => Xor(a[i], b[i]))
  }

  /** Slot-wise XOR with the same vector twice gives the first vector back. */
  lemma XorVecCancel(a: Dep, b: Dep)
    requires |a| == |b|
    ensures XorVec(XorVec(a, b), b) == a
  {
    forall i | 0 <= i < |a| ensures XorVec(XorVec(a, b), b)[i] == a[i] {
      XorCancel(a[i], b[i]);
    }
  }

  lemma XorVecComm(a: Dep, b: Dep)
    requires |a| == |b|
    ensures XorVec(a, b) == XorVec(b, a)
  {
    forall i | 0 <= i < |a| ensures XorVec(a, b)[i] == XorVec(b, a)[i] {
      XorComm(a[i], b[i]);
    }
  }

  /** The all-zero vector of `n` slots (`calloc`). */
  function Zero(n: nat): (r: Dep)
    ensures |r| == n && forall i :: 0 <= i < n ==> r[i] == 0
  {
    seq(n, i => 0)
  }

  /** The vector with `v` in slot `k` and zero elsewhere. */
  function Single(n: nat, k: nat, v: nat): (r: Dep)
    requires k < n
    ensures |r| == n && r[k] == v
    ensures forall i :: 0 <= i < n && i != k ==> r[i] == 0
  {
    seq(n, i => if i == k then v else 0)
  }

  /** `is_dep_constant(dep, length)`: every slot but the last of the first `length` is
      zero. */
  function IsDepConstant(d: Dep, length: int): (r: bool)
    requires length - 1 <= |d|
    ensures r <==> forall i :: 0 <= i < length - 1 ==> d[i] == 0
  {
    ZeroFrom(d, 0, length - 1)
  }

  function ZeroFrom(d: Dep, i: nat, end: int): (r: bool)
    requires end <= |d|
    ensures r <==> forall k :: i <= k < end ==> d[k] == 0
    decreases end - i
  {
    if i >= end then true else d[i] == 0 && ZeroFrom(d, i + 1, end)
  }

  /** The first `n` slots of two vectors agree. */
  predicate SameUpTo(a: Dep, b: Dep, n: int)
    requires n <= |a| && n <= |b|
  {
    forall j :: 0 <= j < n ==> a[j] == b[j]
  }

  /** `are_dep_equal(dep1, dep2, deps_size)`. */
  function AreDepEqual(a: Dep, b: Dep, size: int): (r: bool)
    requires size <= |a| && size <= |b|
    ensures r <==> SameUpTo(a, b, size)
  {
    SameFrom(a, b, 0, size)
  }

  function SameFrom(a: Dep, b: Dep, i: nat, end: int): (r: bool)
    requires end <= |a| && end <= |b|
    ensures r <==> forall k :: i <= k < end ==> a[k] == b[k]
    decreases end - i
  {
    if i >= end then true else a[i] == b[i] && SameFrom(a, b, i + 1, end)
  }

  /** Over the full width, `are_dep_equal` is vector equality. */
  lemma AreDepEqualFull(a: Dep, b: Dep)
    requires |a| == |b|
    ensures AreDepEqual(a, b, |a|) <==> a == b
  {
    if AreDepEqual(a, b, |a|) {
      assert forall j :: 0 <= j < |a| ==> a[j] == b[j];
    }
  }

  /** Every vector of `vs` has `size` slots. */
  predicate Sized(vs: seq<Dep>, size: nat)
  {
    forall i :: 0 <= i < |vs| ==> |vs[i]| == size
  }

  /** `vec_contains_dep(vec, dep, size)`: some element agrees with `dep` on every slot
      but the last (the constant slot is ignored). */
  function VecContainsDep(vec: seq<Dep>, d: Dep, size: nat): (r: bool)
    requires size >= 1 && Sized(vec, size) && |d| == size
    ensures r <==> exists i :: 0 <= i < |vec| && SameUpTo(vec[i], d, size - 1)
  {
    ContainsFrom(vec, d, size, 0)
  }

  function ContainsFrom(vec: seq<Dep>, d: Dep, size: nat, i: nat): (r: bool)
    requires size >= 1 && Sized(vec, size) && |d| == size && i <= |vec|
    ensures r <==> exists k :: i <= k < |vec| && SameUpTo(vec[k], d, size - 1)
    decreases |vec| - i
  {
    if i == |vec| then false
    else AreDepEqual(d, vec[i], size - 1) || ContainsFrom(vec, d, size, i + 1)
  }

  /** No two elements agree below the constant slot. */
  predicate NoDup(vs: seq<Dep>, size: nat)
    requires size >= 1 && Sized(vs, size)
  {
    forall i, j :: 0 <= i < j < |vs| ==> !SameUpTo(vs[i], vs[j], size - 1)
  }

  /** The loop of `gen_circuit` that appends each element of `xs` to `acc` unless
      `vec_contains_dep` finds it there already; what it appends comes from `xs`. */
  function PushNew(acc: seq<Dep>, xs: seq<Dep>, size: nat): (r: seq<Dep>)
    requires size >= 1 && Sized(acc, size) && Sized(xs, size)
    ensures Sized(r, size) && |acc| <= |r| <= |acc| + |xs|
    ensures r[..|acc|] == acc
    ensures forall i :: |acc| <= i < |r| ==> r[i] in xs
    decreases |xs|
  {
    if xs == [] then acc
    else
      var acc' := if VecContainsDep(acc, xs[0], size) then acc else acc + [xs[0]];
      var r := PushNew(acc', xs[1..], size);
      assert r[..|acc|] == r[..|acc'|][..|acc|];
      assert forall i :: |acc| <= i < |acc'| ==> r[i] == acc'[i] == xs[0];
      assert forall i :: |acc'| <= i < |r| ==> r[i] in xs[1..];
      r
  }

  /** Each element of `xs` agrees with some element of `r` below the constant slot. */
  predicate Covers(r: seq<Dep>, xs: seq<Dep>, size: nat)
    requires size >= 1 && Sized(r, size) && Sized(xs, size)
  {
    forall x :: x in xs ==> exists i :: 0 <= i < |r| && SameUpTo(r[i], x, size - 1)
  }

  /** Every element of `xs` is matched, up to the constant slot, by an element of the
      result. */
  lemma {:induction false} PushNewCovers(acc: seq<Dep>, xs: seq<Dep>, size: nat)
    requires size >= 1 && Sized(acc, size) && Sized(xs, size)
    ensures Covers(PushNew(acc, xs, size), xs, size)
    decreases |xs|
  {
    if xs != [] {
      var contained := VecContainsDep(acc, xs[0], size);
      var acc' := if contained then acc else acc + [xs[0]];
      PushNewCovers(acc', xs[1..], size);
      var r := PushNew(acc, xs, size);
      assert r == PushNew(acc', xs[1..], size);
      assert r[..|acc'|] == acc';
      forall y | y in xs ensures exists i :: 0 <= i < |r| && SameUpTo(r[i], y, size - 1) {
        if y == xs[0] {
          if contained {
            var k :| 0 <= k < |acc| && SameUpTo(acc[k], y, size - 1);
            assert r[k] == acc[k];
          } else {
            assert r[|acc|] == y;
            assert SameUpTo(r[|acc|], y, size - 1);
          }
        } else {
          assert y in xs[1..];
        }
      }
    }
  }

  /** `PushNew` never introduces a duplicate. */
  lemma {:induction false} PushNewNoDup(acc: seq<Dep>, xs: seq<Dep>, size: nat)
    requires size >= 1 && Sized(acc, size) && Sized(xs, size) && NoDup(acc, size)
    ensures NoDup(PushNew(acc, xs, size), size)
    decreases |xs|
  {
    if xs != [] {
      var contained := VecContainsDep(acc, xs[0], size);
      var acc' := if contained then acc else acc + [xs[0]];
      if !contained {
        forall i, j | 0 <= i < j < |acc'| ensures !SameUpTo(acc'[i], acc'[j], size - 1) {
          if j == |acc| {
            assert !SameUpTo(acc[i], xs[0], size - 1);
          }
        }
      }
      PushNewNoDup(acc', xs[1..], size);
    }
  }

  /** The glitch set of a wire computed from its operands: the left set, then the right
      one, without duplicates. */
  function GlitchUnion(left: seq<Dep>, right: seq<Dep>, size: nat): (r: seq<Dep>)
    requires size >= 1 && Sized(left, size) && Sized(right, size)
    ensures Sized(r, size)
  {
    PushNew(PushNew([], left, size), right, size)
  }

  /** The union holds an element of either operand's set for each element of the two, and
      nothing else, and is duplicate-free. */
  lemma GlitchUnionMeaning(left: seq<Dep>, right: seq<Dep>, size: nat)
    requires size >= 1 && Sized(left, size) && Sized(right, size)
    ensures NoDup(GlitchUnion(left, right, size), size)
    ensures var r := GlitchUnion(left, right, size);
            forall i :: 0 <= i < |r| ==> r[i] in left || r[i] in right
    ensures Covers(GlitchUnion(left, right, size), left, size)
    ensures Covers(GlitchUnion(left, right, size), right, size)
  {
    var l := PushNew([], left, size);
    PushNewNoDup([], left, size);
    PushNewNoDup(l, right, size);
    PushNewCovers(l, right, size);
    UnionFrom(left, right, size);
    UnionCoversLeft(left, right, size);
  }

  lemma UnionFrom(left: seq<Dep>, right: seq<Dep>, size: nat)
    requires size >= 1 && Sized(left, size) && Sized(right, size)
    ensures var r := GlitchUnion(left, right, size);
            forall i :: 0 <= i < |r| ==> r[i] in left || r[i] in right
  {
    var l := PushNew([], left, size);
    var r := GlitchUnion(left, right, size);
    assert r[..|l|] == l;
    forall i | 0 <= i < |r| ensures r[i] in left || r[i] in right {
      if i < |l| {
        assert r[i] == l[i];
      }
    }
  }

  lemma UnionCoversLeft(left: seq<Dep>, right: seq<Dep>, size: nat)
    requires size >= 1 && Sized(left, size) && Sized(right, size)
    ensures Covers(GlitchUnion(left, right, size), left, size)
  {
    var l := PushNew([], left, size);
    PushNewCovers([], left, size);
    var r := GlitchUnion(left, right, size);
    CoversPrefix(r, l, left, size);
  }

  /** A sequence covers what a prefix of it covers. */
  lemma CoversPrefix(r: seq<Dep>, l: seq<Dep>, xs: seq<Dep>, size: nat)
    requires size >= 1 && Sized(r, size) && Sized(l, size) && Sized(xs, size)
    requires |l| <= |r| && r[..|l|] == l && Covers(l, xs, size)
    ensures Covers(r, xs, size)
  {
    forall x | x in xs ensures exists i :: 0 <= i < |r| && SameUpTo(r[i], x, size - 1) {
      var k :| 0 <= k < |l| && SameUpTo(l[k], x, size - 1);
      assert r[k] == r[..|l|][k] == l[k];
      assert SameUpTo(r[k], x, size - 1);
    }
  }
}

=== FILE: drivers.dfy ===
/** What the fault-scenario drivers of src/CRP.c and src/CRPC.c share: the fault record
    they hand to the circuit builder, the part of a built circuit they read, and the
    external code they call, which enters the model as function parameters. */
module Drivers {

  /** A `FaultedVar`: the named wire is forced to 1 (`isSet`, the `set` field) or to 0. */
  datatype Fault = Fault(name: string, isSet: bool)

  /** What the drivers read of a circuit the builder returns: `length` (the wires that
      are not outputs), the names of its dependencies (`deps->names`), `share_count`
      and `total_wires`. */
  datatype Built = Built(length: nat, names: seq<string>, shareCount: int, totalWires: nat)

  /** The builder with a fault list (the four-argument `gen_circuit`, whose source is
      not part of this model). */
  type Build = seq<Fault> -> Built

  /** `find_all_failures(circuit, cores, t_in, prefix, comb_len, max_len, dim_red_data,
      ..)`: the tuples it hands to the callback, in order. The flag says whether a
      dimension reduction (`remove_elementary_wires`) is passed. */
  type Search = (Built, int, seq<nat>, nat, int, bool) -> seq<seq<nat>>

  /** `update_coeff_c_single(c, coeffs, comb, comb_len)`: the coefficient vector after
      counting one tuple. */
  type Single = (Built, seq<nat>, seq<nat>) -> seq<nat>

  /** The one property of `update_coeff_c_single` the drivers rely on: it updates the
      vector in place, so its length does not change. */
  ghost predicate KeepsWidth(single: Single)
  {
    forall c, v, comb :: |single(c, v, comb)| == |v|
  }

  /** The one property of `find_all_failures` the drivers rely on: every tuple it
      reports has `comb_len` entries. */
  ghost predicate TuplesSized(search: Search)
  {
    forall c, tIn, prefix, n, m, red, k :: 0 <= k < |search(c, tIn, prefix, n, m, red)| ==>
      |search(c, tIn, prefix, n, m, red)[k]| == n
  }

  /** No circuit of a fault list has more wires than the fault-free one, whose
      `total_wires + 1` sizes the coefficient vectors. */
  ghost predicate NoWider(build: Build)
  {
    WiresBelow(build, build([]).totalWires + 1)
  }

  /** Every circuit of a fault list fits vectors of `w` entries. */
  ghost predicate WiresBelow(build: Build, w: nat)
  {
    forall fs :: build(fs).totalWires < w
  }

  /** The callback both drivers pass: it counts the tuple without its first `strip`
      entries. */
  function Callback(single: Single, c: Built, v: seq<nat>, comb: seq<nat>, strip: nat): (r: seq<nat>)
    requires strip <= |comb|
  {
    single(c, v, comb[strip..])
  }

  /** One run of the search: the callback applied to every tuple, in order. */
  function Feed(single: Single, c: Built, v: seq<nat>, tuples: seq<seq<nat>>, strip: nat): (r: seq<nat>)
    requires forall k :: 0 <= k < |tuples| ==> strip <= |tuples[k]|
    requires KeepsWidth(single)
    ensures |r| == |v|
    decreases |tuples|
  {
    if tuples == [] then v
    else Feed(single, c, Callback(single, c, v, tuples[0], strip), tuples[1..], strip)
  }

  /** A zeroed (`calloc`) coefficient vector. */
  function Zeros(n: nat): (r: seq<nat>)
    ensures |r| == n && forall i :: 0 <= i < n ==> r[i] == 0
  {
    seq(n, _ => 0)
  }

  function Max(a: nat, b: nat): nat
  {
    if a > b then a else b
  }

  /** The largest entry `i` of the vectors `vs`, or 0 when there is none. */
  function MaxAt(vs: seq<seq<nat>>, i: nat): (r: nat)
    requires forall l :: 0 <= l < |vs| ==> i < |vs[l]|
    ensures forall l :: 0 <= l < |vs| ==> vs[l][i] <= r
    ensures vs == [] ==> r == 0
    ensures vs != [] ==> exists l :: 0 <= l < |vs| && r == vs[l][i]
  {
    if vs == [] then 0
    else
      var m := MaxAt(vs[..|vs| - 1], i);
      assert forall l :: 0 <= l < |vs| - 1 ==> vs[..|vs| - 1][l] == vs[l];
      Max(m, vs[|vs| - 1][i])
  }

  /** Taking one more vector into account. */
  lemma MaxAtSnoc(vs: seq<seq<nat>>, l: nat, i: nat)
    requires l < |vs| && forall m :: 0 <= m < |vs| ==> i < |vs[m]|
    ensures MaxAt(vs[..l + 1], i) == Max(MaxAt(vs[..l], i), vs[l][i])
  {
    assert vs[..l + 1][..l] == vs[..l];
  }
}

=== FILE: equations.dfy ===
/** Parsed equations and the `EqList` of src/parser.c. Element 0 of `items` is the head
    of the C list. */
module Equations {
  import opened Results
  import Seqs

  datatype Operator = Asgn | Add | Mult

  /** `Expr`: for `Asgn` the right operand is unused (the C field is left unset). */
  datatype Expr = Expr(op: Operator, left: string, right: string)

  datatype Equation = Equation(
    expr: Expr,
    dst: string,
    antiGlitch: bool,        // `![ ... ]`: glitches disabled on this wire
    correction: bool,        // internal to a correction block
    correctionOutput: bool)  // output of a correction block

  datatype EqList = EqList(size: int, items: seq<Equation>)

  /** The flag combination every parsed equation has: a correction output is also inside
      the correction block. */
  predicate WellFlagged(e: Equation)
  {
    e.correctionOutput ==> e.correction
  }

  predicate AllWellFlagged(eqs: seq<Equation>)
  {
    forall i :: 0 <= i < |eqs| ==> WellFlagged(eqs[i])
  }

  /** `make_eq_list`. */
  function MakeEqList(): EqList
  {
    EqList(0, [])
  }

  /** `add_eq_list`: the new equation becomes the head and the size grows by one. */
  function AddEq(l: EqList, e: Equation): (r: EqList)
    ensures r.items == [e] + l.items && r.size == l.size + 1
  {
    EqList(l.size + 1, [e] + l.items)
  }

  /** `reverse_eq_list`; the recursive C helper dereferences the head, so the list must
      not be empty. */
  function ReverseEqs(l: EqList): (r: EqList)
    requires |l.items| > 0
    ensures r.size == l.size && r.items == Seqs.Reverse(l.items)
  {
    Seqs.ReverseOntoIsReverse(l.items, []);
    l.(items := Seqs.ReverseOnto(l.items, []))
  }

  /** A multiplication that receives its own basis slot. */
  predicate IsPlainMult(e: Equation)
  {
    e.expr.op == Mult && !e.correction && !e.correctionOutput
  }

  /** `count_mults`: multiplications outside correction blocks. */
  function CountMults(eqs: seq<Equation>): (n: nat)
    ensures n <= |eqs|
  {
    if eqs == [] then 0 else (if IsPlainMult(eqs[0]) then 1 else 0) + CountMults(eqs[1..])
  }

  /** `count_correction_outputs`. */
  function CountCorrectionOutputs(eqs: seq<Equation>): (n: nat)
    ensures n <= |eqs|
  {
    if eqs == [] then 0
    else (if eqs[0].correctionOutput then 1 else 0) + CountCorrectionOutputs(eqs[1..])
  }

  /** Both counters add up over a split of the list, so a walk over the list in either
      direction counts the same. */
  lemma {:induction false} CountsAppend(a: seq<Equation>, b: seq<Equation>)
    ensures CountMults(a + b) == CountMults(a) + CountMults(b)
    ensures CountCorrectionOutputs(a + b) == CountCorrectionOutputs(a) + CountCorrectionOutputs(b)
    decreases |a|
  {
    if a == [] {
      assert a + b == b;
    } else {
      CountsAppend(a[1..], b);
      assert (a + b)[1..] == a[1..] + b;
    }
  }

  /** The counts do not depend on the list order, in particular not on the reversal
      performed after parsing. */
  lemma {:induction false} CountsReverse(eqs: seq<Equation>)
    ensures CountMults(Seqs.Reverse(eqs)) == CountMults(eqs)
    ensures CountCorrectionOutputs(Seqs.Reverse(eqs)) == CountCorrectionOutputs(eqs)
    decreases |eqs|
  {
    if eqs != [] {
      CountsReverse(eqs[1..]);
      assert Seqs.Reverse(eqs) == Seqs.Reverse(eqs[1..]) + [eqs[0]];
      CountsAppend(Seqs.Reverse(eqs[1..]), [eqs[0]]);
      assert [eqs[0]][1..] == [];
    }
  }
}

=== FILE: fault_names.dfy ===
/** `generate_names` of src/CRP.c and src/CRPC.c (the two copies are identical): the
    names a fault may be injected on. Every copy of every input share, then the randoms,
    then the destinations of the equations that are not expanded outputs. */
module FaultNames {
  import opened CText
  import Seqs

  /** The copies `j < d` of shares `i, i + 1, .., shares - 1` of one variable, named
      `"%s%d_%d"`. */
  function ShareCopies(key: string, i: nat, shares: nat, d: nat): (r: seq<string>)
    requires i <= shares
    decreases shares - i
  {
    if i == shares then []
    else seq(d, j requires 0 <= j < d => DupName(key, i, j)) + ShareCopies(key, i + 1, shares, d)
  }

  /** Every copy of every share of the variables `keys`: variable, then share, then
      copy. */
  function DupNames(keys: seq<string>, shares: nat, d: nat): (r: seq<string>)
  {
    if keys == [] then [] else ShareCopies(keys[0], 0, shares, d) + DupNames(keys[1..], shares, d)
  }

  lemma {:induction false} ShareCopiesLength(key: string, i: nat, shares: nat, d: nat)
    requires i <= shares
    ensures |ShareCopies(key, i, shares, d)| == (shares - i) * d
    decreases shares - i
  {
    if i < shares {
      ShareCopiesLength(key, i + 1, shares, d);
      Succ(shares - (i + 1), d);
    }
  }

  /** One name per copy of each share of each variable. */
  lemma {:induction false} DupNamesLength(keys: seq<string>, shares: nat, d: nat)
    ensures |DupNames(keys, shares, d)| == |keys| * (shares * d)
  {
    if keys != [] {
      ShareCopiesLength(keys[0], 0, shares, d);
      DupNamesLength(keys[1..], shares, d);
      Succ(|keys| - 1, shares * d);
    }
  }

  /** The name of copy `j` of share `i` of a variable sits at offset `(i - i0) * d + j`
      of its block. */
  lemma {:induction false} ShareCopiesAt(key: string, i0: nat, shares: nat, d: nat, i: nat, j: nat)
    requires i0 <= i < shares && j < d
    ensures (i - i0) * d + j < |ShareCopies(key, i0, shares, d)|
    ensures ShareCopies(key, i0, shares, d)[(i - i0) * d + j] == DupName(key, i, j)
    decreases shares - i0
  {
    var r := ShareCopies(key, i0, shares, d);
    var head := seq(d, j requires 0 <= j < d => DupName(key, i0, j));
    ShareCopiesLength(key, i0, shares, d);
    assert r == head + ShareCopies(key, i0 + 1, shares, d);
    if i == i0 {
      assert (i - i0) * d == 0;
      assert r[j] == head[j];
    } else {
      var rest := ShareCopies(key, i0 + 1, shares, d);
      var q := (i - (i0 + 1)) * d + j;
      ShareCopiesAt(key, i0 + 1, shares, d, i, j);
      Succ(i - (i0 + 1), d);
      assert (i - i0) * d + j == d + q;
      Behind(head, rest, q);
    }
  }

  lemma Ahead<T>(a: seq<T>, b: seq<T>, p: nat)
    requires p < |a|
    ensures (a + b)[p] == a[p] && (a + b)[|a|..] == b
  {
  }

  lemma Behind<T>(a: seq<T>, b: seq<T>, q: nat)
    requires q < |b|
    ensures |a| + q < |a + b| && (a + b)[|a| + q] == b[q]
  {
  }

  lemma Succ(a: nat, d: nat)
    ensures (a + 1) * d == d + a * d
  {
  }

  lemma BlockShift(b: nat, shares: nat, i: nat, d: nat, j: nat)
    requires b > 0
    ensures (b * shares + i) * d + j == shares * d + (((b - 1) * shares + i) * d + j)
  {
    calc {
      (b * shares + i) * d;
      (shares + ((b - 1) * shares + i)) * d;
      shares * d + ((b - 1) * shares + i) * d;
    }
  }

  /** Where copy `j` of share `i` of variable `b` sits among the names. */
  function Pos(b: nat, i: nat, j: nat, shares: nat, d: nat): nat
  {
    (b * shares + i) * d + j
  }

  /** Copy `j` of share `i` of variable `b` is at position `(b * shares + i) * d + j`. */
  lemma {:induction false} DupNamesAt(keys: seq<string>, shares: nat, d: nat, b: nat, i: nat, j: nat)
    requires b < |keys| && i < shares && j < d
    ensures Pos(b, i, j, shares, d) < |DupNames(keys, shares, d)| &&
            DupNames(keys, shares, d)[Pos(b, i, j, shares, d)] == DupName(keys[b], i, j)
    decreases |keys|
  {
    if b == 0 {
      FirstBlock(keys, shares, d, i, j);
    } else {
      DupNamesAt(keys[1..], shares, d, b - 1, i, j);
      LaterBlock(keys, shares, d, b, i, j);
    }
  }

  lemma FirstBlock(keys: seq<string>, shares: nat, d: nat, i: nat, j: nat)
    requires 0 < |keys| && i < shares && j < d
    ensures Pos(0, i, j, shares, d) < |DupNames(keys, shares, d)| &&
            DupNames(keys, shares, d)[Pos(0, i, j, shares, d)] == DupName(keys[0], i, j)
  {
    var block := ShareCopies(keys[0], 0, shares, d);
    assert DupNames(keys, shares, d) == block + DupNames(keys[1..], shares, d);
    ShareCopiesAt(keys[0], 0, shares, d, i, j);
    assert Pos(0, i, j, shares, d) == (i - 0) * d + j;
  }

  /** The step of `DupNamesAt`: a later variable's block follows the first one. */
  lemma LaterBlock(keys: seq<string>, shares: nat, d: nat, b: nat, i: nat, j: nat)
    requires 0 < b < |keys| && i < shares && j < d
    requires Pos(b - 1, i, j, shares, d) < |DupNames(keys[1..], shares, d)| &&
             DupNames(keys[1..], shares, d)[Pos(b - 1, i, j, shares, d)] == DupName(keys[1..][b - 1], i, j)
    ensures Pos(b, i, j, shares, d) < |DupNames(keys, shares, d)| &&
            DupNames(keys, shares, d)[Pos(b, i, j, shares, d)] == DupName(keys[b], i, j)
  {
    var block := ShareCopies(keys[0], 0, shares, d);
    var rest := DupNames(keys[1..], shares, d);
    assert DupNames(keys, shares, d) == block + rest;
    ShareCopiesLength(keys[0], 0, shares, d);
    BlockShift(b, shares, i, d, j);
    assert Pos(b, i, j, shares, d) == |block| + Pos(b - 1, i, j, shares, d);
    Behind(block, rest, Pos(b - 1, i, j, shares, d));
  }

  /** `nb_duplications` as a loop bound: no copy when it is not positive. */
  function Loops(d: int): nat
  {
    if d < 0 then 0 else d
  }

  /** The equation destinations that do not equal any expanded output name, in
      equation order. */
  function NonOutputs(dsts: seq<string>, outNames: seq<string>): (r: seq<string>)
    ensures forall x :: x in r <==> x in dsts && x !in outNames
  {
    Seqs.FilterMembers(dsts, x => x !in outNames);
    Seqs.Filter(dsts, x => x !in outNames)
  }

  /** The destinations that are expanded output names. */
  function OutputDsts(dsts: seq<string>, outNames: seq<string>): (r: seq<string>)
  {
    Seqs.Filter(dsts, x => x in outNames)
  }

  /** The length `generate_names` computes from the counts of the circuit. */
  function NamesLength(nIn: nat, nRand: nat, nEq: nat, nOut: nat, shares: nat, d: int): int
  {
    d * shares * nIn + nRand + nEq - d * shares * nOut
  }

  /** `generate_names`: the names, and the `length` it returns (also the size it
      allocates for the names). */
  function GenerateNames(ins: seq<string>, rands: seq<string>, dsts: seq<string>, outs: seq<string>,
                         shares: nat, d: int): (r: (seq<string>, int))
  {
    var outNames := DupNames(outs, shares, Loops(d));
    (DupNames(ins, shares, Loops(d)) + rands + NonOutputs(dsts, outNames),
     NamesLength(|ins|, |rands|, |dsts|, |outs|, shares, d))
  }

  lemma {:induction false} FilterSplit(xs: seq<string>, outNames: seq<string>)
    ensures |NonOutputs(xs, outNames)| + |OutputDsts(xs, outNames)| == |xs|
    decreases |xs|
  {
    if xs != [] {
      FilterSplit(xs[1..], outNames);
    }
  }

  /** With a positive duplication count, the returned length counts exactly the
      generated names when as many equations define an expanded output as there are
      expanded outputs; otherwise the name array is overrun (more names) or partly
      unset (fewer). */
  lemma GeneratedLength(ins: seq<string>, rands: seq<string>, dsts: seq<string>, outs: seq<string>,
                        shares: nat, d: nat)
    ensures var r := GenerateNames(ins, rands, dsts, outs, shares, d);
            var defined := |OutputDsts(dsts, DupNames(outs, shares, d))|;
            && (|r.0| == r.1 <==> defined == d * shares * |outs|)
            && |r.0| - r.1 == d * shares * |outs| - defined
  {
    var outNames := DupNames(outs, shares, d);
    FilterSplit(dsts, outNames);
    var r := GenerateNames(ins, rands, dsts, outs, shares, d);
    var a := |DupNames(ins, shares, d)|;
    DupNamesLength(ins, shares, d);
    DupNamesLength(outs, shares, d);
    Reassociate(|ins|, shares, d);
    assert a == d * shares * |ins|;
    assert |r.0| == a + |rands| + |NonOutputs(dsts, outNames)|;
  }

  lemma Reassociate(n: nat, shares: nat, d: nat)
    ensures n * (shares * d) == d * shares * n
  {
  }

  /** The order of the names: copy `j` of share `i` of input `b` first, at its
      position in the input block; then the randoms; the non-output destinations last,
      in equation order. */
  lemma GeneratedOrder(ins: seq<string>, rands: seq<string>, dsts: seq<string>, outs: seq<string>,
                       shares: nat, d: nat, b: nat, i: nat, j: nat)
    requires b < |ins| && i < shares && j < d
    ensures var names := GenerateNames(ins, rands, dsts, outs, shares, d).0;
            var n := |DupNames(ins, shares, d)|;
            && Pos(b, i, j, shares, d) < n <= |names|
            && names[Pos(b, i, j, shares, d)] == DupName(ins[b], i, j)
            && names[n..] == rands + NonOutputs(dsts, DupNames(outs, shares, d))
  {
    var block := DupNames(ins, shares, d);
    var tail := rands + NonOutputs(dsts, DupNames(outs, shares, d));
    var p := Pos(b, i, j, shares, d);
    assert GenerateNames(ins, rands, dsts, outs, shares, d).0 == block + tail;
    assert p < |block| && block[p] == DupName(ins[b], i, j) by {
      DupNamesAt(ins, shares, d, b, i, j);
    }
    Ahead(block, tail, p);
  }
}

=== FILE: line_parser.dfy ===
/** The line parsers of src/parser.c: identifier lists (`parse_idents`), expressions
    (`parse_expr`) and equation lines (`parse_eq_str`), together with the printer
    `print_eq_list` they invert. */
module LineParser {
  import opened Results
  import opened CText
  import opened Equations
  import StrMaps
  import Seqs

  /** Characters that end an identifier in `parse_idents` and a `~` operand. */
  predicate IsTokenStop(c: char)
  {
    IsEol(c) || IsSpace(c)
  }

  /** Characters that end an operand of a binary expression. */
  predicate IsOperandStop(c: char)
  {
    IsEol(c) || IsSpace(c) || IsOperator(c)
  }

  /** Characters that end the destination of an equation (`#` does not). */
  predicate IsDstStop(c: char)
  {
    c == '\0' || IsSpace(c) || c == '='
  }

  /** A wire name as the circuit files write them: non-empty and free of separators,
      operators and the equation punctuation. */
  predicate IsNameChar(c: char)
  {
    !IsSpace(c) && !IsEol(c) && !IsOperator(c) && c != '=' && c != '!' && c != '[' && c != ']'
  }

  predicate Ident(w: string)
  {
    |w| > 0 && forall k :: 0 <= k < |w| ==> IsNameChar(w[k])
  }

  // ---------------------------------------------------------------------------------
  // parse_idents

  /** The identifiers `parse_idents` reads from a header line: whitespace-separated
      tokens, where a `#` also ends a token (and may produce an empty one). Reading past
      the terminator is read as the end of the line. */
  function Idents(s: string): (r: seq<string>)
    ensures forall k, c :: 0 <= k < |r| && c in r[k] ==> !IsTokenStop(c)
    decreases |s|
  {
    var j := SkipSpaces(s, 0);
    if At(s, j) == '\0' then []
    else
      var e := ScanUntil(s, j, IsTokenStop);
      assert forall c :: c in s[j..e] ==> !IsTokenStop(c) by {
        forall c | c in s[j..e] ensures !IsTokenStop(c) {
          var k :| 0 <= k < e - j && s[j..e][k] == c;
          assert At(s, j + k) == c;
        }
      }
      [s[j..e]] + (if e + 1 <= |s| then Idents(s[e + 1..]) else [])
  }

  /** `parse_idents(map, s)`: every identifier is added to the map in turn. */
  function ParseIdents(m: StrMaps.StrMap, s: string): (r: StrMaps.StrMap)
    ensures r.entries == Seqs.Reverse(StrMaps.Numbered(Idents(s), m.nextVal)) + m.entries
    ensures r.nextVal == m.nextVal + |Idents(s)|
  {
    StrMaps.AddAllEntries(m, Idents(s));
    StrMaps.AddAll(m, Idents(s))
  }

  /** A header line listing `ws`, each followed by one space. */
  function WordsLine(ws: seq<string>): string
  {
    if ws == [] then "" else ws[0] + " " + WordsLine(ws[1..])
  }

  /** Reading back a list of identifiers gives exactly that list. */
  lemma {:induction false} IdentsOfWordsLine(ws: seq<string>)
    requires forall k :: 0 <= k < |ws| ==> Ident(ws[k])
    ensures Idents(WordsLine(ws)) == ws
    decreases |ws|
  {
    var s := WordsLine(ws);
    if ws != [] {
      var w := ws[0];
      var rest := WordsLine(ws[1..]);
      assert s == w + " " + rest;
      assert At(s, 0) == w[0];
      SkipSpacesAt(s, 0, 0);
      forall k | 0 <= k < |w| ensures !IsTokenStop(At(s, k)) {
        assert At(s, k) == w[k];
        assert IsNameChar(w[k]);
      }
      assert At(s, |w|) == ' ';
      ScanUntilAt(s, 0, IsTokenStop, |w|);
      assert s[0..|w|] == w;
      assert s[|w| + 1..] == rest;
      IdentsOfWordsLine(ws[1..]);
    }
  }

  // ---------------------------------------------------------------------------------
  // parse_expr

  /** `parse_expr`. `~x` is read as `x + 1` (whatever precedes the `~` is ignored); a
      lone operand is an assignment; a binary expression takes the operator after the
      left operand and the following spaces. */
  function ParseExpr(s: string): (r: Result<Expr, Failure>)
    ensures r.Ok? && r.value.op == Asgn ==> r.value.right == ""
    ensures r.Ok? ==> forall c :: c in r.value.left ==> !IsTokenStop(c)
  {
    var p := SkipSpaces(s, 0);
    var e := ScanUntil(s, p, IsOperandStop);
    if At(s, e) == '~' then
      var q := e + 1;
      if IsEol(At(s, q)) || IsSpace(At(s, q)) then Err(VariableExpectedAfterNot)
      else
        var f := ScanUntil(s, q, IsTokenStop);
        NoStopIn(s, q, f, IsTokenStop);
        Ok(Expr(Add, s[q..f], "1"))
    else
      NoStopIn(s, p, e, IsOperandStop);
      var left := s[p..e];
      var o := SkipSpaces(s, e);
      if IsEol(At(s, o)) then Ok(Expr(Asgn, left, ""))
      else if IsAddOp(At(s, o)) || IsMultOp(At(s, o)) then
        var b := SkipSpaces(s, o + 1);
        var f := ScanUntil(s, b, IsOperandStop);
        Ok(Expr(if IsAddOp(At(s, o)) then Add else Mult, left, s[b..f]))
      else Err(OperatorExpected(At(s, o)))
  }

  /** The characters a scan passed over do not stop it. */
  lemma NoStopIn(s: string, i: nat, j: nat, stop: char -> bool)
    requires i <= j <= |s|
    requires forall k :: i <= k < j ==> !stop(At(s, k))
    ensures forall c :: c in s[i..j] ==> !stop(c)
  {
    forall c | c in s[i..j] ensures !stop(c) {
      var k :| 0 <= k < j - i && s[i..j][k] == c;
      assert At(s, i + k) == c;
    }
  }

  /** An expression `parse_expr` can produce from a printed line. */
  predicate Printable(e: Expr)
  {
    Ident(e.left) && (if e.op == Asgn then e.right == "" else Ident(e.right))
  }

  /** The expression part of a `print_eq_list` line. */
  function Show(e: Expr): string
  {
    match e.op
    case Asgn => e.left
    case Add => e.left + " + " + e.right
    case Mult => e.left + " * " + e.right
  }

  /** What may follow an expression on a line: `n` spaces, then the end of the line or a
      comment. */
  predicate Trailer(t: string, n: nat)
  {
    n <= |t| && (forall k :: 0 <= k < n ==> IsSpace(t[k])) && IsEol(At(t, n))
  }

  lemma AtConcat(a: string, b: string, i: int)
    ensures 0 <= i < |a| ==> At(a + b, i) == a[i]
    ensures |a| <= i ==> At(a + b, i) == At(b, i - |a|)
  {
  }

  /** Parsing a printed expression gives it back. */
  lemma ParseShow(e: Expr, t: string, n: nat)
    requires Printable(e) && Trailer(t, n)
    ensures ParseExpr(Show(e) + t) == Ok(e)
  {
    if e.op == Asgn {
      ParseAsgn(e.left, t, n);
    } else {
      var sym := if e.op == Add then '+' else '*';
      assert Show(e) + t == e.left + [' ', sym, ' '] + e.right + t;
      ParseBinary(e.left, sym, e.right, t, n);
    }
  }

  /** A lone operand is an assignment. */
  lemma ParseAsgn(l: string, t: string, n: nat)
    requires Ident(l) && Trailer(t, n)
    ensures ParseExpr(l + t) == Ok(Expr(Asgn, l, ""))
  {
    var s := l + t;
    assert At(s, 0) == l[0];
    SkipSpacesAt(s, 0, 0);
    forall k | 0 <= k < |l| ensures !IsOperandStop(At(s, k)) {
      assert At(s, k) == l[k];
      assert IsNameChar(l[k]);
    }
    AtConcat(l, t, |l|);
    assert IsOperandStop(At(s, |l|)) && At(s, |l|) != '~' by {
      if n > 0 { assert IsSpace(t[0]); }
    }
    ScanUntilAt(s, 0, IsOperandStop, |l|);
    forall k | |l| <= k < |l| + n ensures IsSpace(At(s, k)) {
      AtConcat(l, t, k);
    }
    AtConcat(l, t, |l| + n);
    SkipSpacesAt(s, |l|, |l| + n);
    assert s[0..|l|] == l;
  }

  /** `l + r` and `l ^ r` read as Add, `l * r` and `l & r` as Mult (with the spacing of
      `print_eq_list`). */
  lemma ParseBinary(l: string, sym: char, r: string, t: string, n: nat)
    requires Ident(l) && Ident(r) && Trailer(t, n)
    requires IsAddOp(sym) || IsMultOp(sym)
    ensures ParseExpr(l + [' ', sym, ' '] + r + t) == Ok(Expr(if IsAddOp(sym) then Add else Mult, l, r))
  {
    var pre := l + [' ', sym, ' '];
    var s := pre + r + t;
    assert s == pre + (r + t);
    assert (r + t)[0] == r[0] && IsNameChar(r[0]);
    BinaryLeft(l, sym, r + t);
    BinaryRight(pre, r, t, n);
    BinaryBranch(s, 0, |l|, |l| + 1, |l| + 3, |l| + 3 + |r|);
  }

  /** The binary branch of `parse_expr`, given the positions its scans stop at. */
  lemma BinaryBranch(s: string, p: nat, e: nat, o: nat, b: nat, f: nat)
    requires SkipSpaces(s, 0) == p && ScanUntil(s, p, IsOperandStop) == e && At(s, e) != '~'
    requires SkipSpaces(s, e) == o && (IsAddOp(At(s, o)) || IsMultOp(At(s, o)))
    requires SkipSpaces(s, o + 1) == b && ScanUntil(s, b, IsOperandStop) == f
    ensures p <= e <= |s| && b <= f <= |s|
    ensures ParseExpr(s) == Ok(Expr(if IsAddOp(At(s, o)) then Add else Mult, s[p..e], s[b..f]))
  {
  }

  /** The left operand and the operator of a printed binary expression. */
  lemma BinaryLeft(l: string, sym: char, u: string)
    requires Ident(l) && (IsAddOp(sym) || IsMultOp(sym))
    requires |u| > 0 && !IsSpace(u[0])
    ensures var s := l + [' ', sym, ' '] + u;
            && SkipSpaces(s, 0) == 0 && ScanUntil(s, 0, IsOperandStop) == |l| && At(s, |l|) != '~'
            && SkipSpaces(s, |l|) == |l| + 1 && At(s, |l| + 1) == sym
            && SkipSpaces(s, |l| + 2) == |l| + 3 && s[0..|l|] == l
  {
    var s := l + [' ', sym, ' '] + u;
    assert At(s, 0) == l[0];
    SkipSpacesAt(s, 0, 0);
    forall k | 0 <= k < |l| ensures !IsOperandStop(At(s, k)) {
      assert At(s, k) == l[k];
      assert IsNameChar(l[k]);
    }
    assert At(s, |l|) == ' ' && At(s, |l| + 1) == sym && At(s, |l| + 2) == ' ';
    ScanUntilAt(s, 0, IsOperandStop, |l|);
    SkipSpacesAt(s, |l|, |l| + 1);
    assert At(s, |l| + 3) == u[0];
    SkipSpacesAt(s, |l| + 2, |l| + 3);
  }

  /** The right operand of a printed binary expression, up to its trailer. */
  lemma BinaryRight(pre: string, r: string, t: string, n: nat)
    requires Ident(r) && Trailer(t, n)
    ensures var s := pre + r + t;
            var b := |pre|;
            ScanUntil(s, b, IsOperandStop) == b + |r| && s[b..b + |r|] == r
  {
    var s := pre + r + t;
    var b := |pre|;
    forall k | b <= k < b + |r| ensures !IsOperandStop(At(s, k)) {
      assert At(s, k) == r[k - b];
      assert IsNameChar(r[k - b]);
    }
    AtConcat(pre + r, t, b + |r|);
    assert IsOperandStop(At(s, b + |r|)) by {
      if n > 0 { assert IsSpace(t[0]); }
    }
    ScanUntilAt(s, b, IsOperandStop, b + |r|);
  }

  /** `~x` reads as `x + 1`. */
  lemma ParseNot(x: string, t: string, n: nat)
    requires |x| > 0 && forall k :: 0 <= k < |x| ==> !IsTokenStop(x[k])
    requires Trailer(t, n)
    ensures ParseExpr("~" + x + t) == Ok(Expr(Add, x, "1"))
  {
    var s := "~" + x + t;
    assert At(s, 0) == '~';
    SkipSpacesAt(s, 0, 0);
    ScanUntilAt(s, 0, IsOperandStop, 0);
    forall k | 1 <= k < 1 + |x| ensures !IsTokenStop(At(s, k)) {
      assert At(s, k) == x[k - 1];
    }
    AtConcat("~" + x, t, 1 + |x|);
    assert IsTokenStop(At(s, 1 + |x|)) by {
      if n > 0 { assert IsSpace(t[0]); }
    }
    ScanUntilAt(s, 1, IsTokenStop, 1 + |x|);
    assert s[1..1 + |x|] == x;
  }

  /** Any character other than an operator or the end of the line after the left
      operand is fatal and is reported. */
  lemma ParseBadOperator(l: string, c: char, rest: string)
    requires Ident(l)
    requires !IsSpace(c) && !IsEol(c) && !IsAddOp(c) && !IsMultOp(c)
    ensures ParseExpr(l + " " + [c] + rest) == Err(OperatorExpected(c))
  {
    var s := l + " " + [c] + rest;
    assert At(s, 0) == l[0];
    SkipSpacesAt(s, 0, 0);
    forall k | 0 <= k < |l| ensures !IsOperandStop(At(s, k)) {
      assert At(s, k) == l[k];
      assert IsNameChar(l[k]);
    }
    assert At(s, |l|) == ' ' && At(s, |l| + 1) == c;
    ScanUntilAt(s, 0, IsOperandStop, |l|);
    SkipSpacesAt(s, |l|, |l| + 1);
  }

  /** A `~` followed by nothing, a space or a comment is fatal. */
  lemma ParseNotAlone(t: string)
    requires t == [] || IsTokenStop(t[0])
    ensures ParseExpr("~" + t) == Err(VariableExpectedAfterNot)
  {
    var s := "~" + t;
    assert At(s, 0) == '~';
    SkipSpacesAt(s, 0, 0);
    ScanUntilAt(s, 0, IsOperandStop, 0);
    assert At(s, 1) == At(t, 0);
  }

  // ---------------------------------------------------------------------------------
  // parse_eq_str

  /** The `while (idx > 0 && is_space(str[idx])) idx--` walk back from the end of the
      line. */
  function BackOverSpaces(s: string, idx: nat): (r: nat)
    ensures r <= idx
    ensures forall k :: r < k <= idx ==> IsSpace(At(s, k))
    ensures r == 0 || !IsSpace(At(s, r))
  {
    if idx > 0 && IsSpace(At(s, idx)) then BackOverSpaces(s, idx - 1) else idx
  }

  /** The correction flags of a line, read from the first comment at or after `t0`:
      `(correction, correction_output)`. */
  function CorrectionFlags(s: string, t0: nat): (r: (bool, bool))
    ensures r.1 ==> r.0
  {
    var h := ScanUntil(s, t0, IsEol);
    if At(s, h) == '#' then TagFlags(s[h + 1..]) else (false, false)
  }

  /** The flags named by the text after a comment sign. */
  function TagFlags(tag: string): (r: (bool, bool))
    ensures r.1 ==> r.0
  {
    if StrEqualsNoCase(tag, "correction_o", 12) then (true, true)
    else if StrEqualsNoCase(tag, "correction", 10) then (true, false)
    else (false, false)
  }

  /** The flags name the comment case-insensitively: the block flag is set exactly when
      the comment starts with `correction`, and the output flag exactly when it starts
      with `correction_o`. */
  lemma TagFlagsMeaning(tag: string)
    ensures TagFlags(tag).0 <==> StrEqualsNoCase(tag, "correction", 10)
    ensures TagFlags(tag).1 <==> StrEqualsNoCase(tag, "correction_o", 12)
  {
    if StrEqualsNoCase(tag, "correction_o", 12) {
      NoCasePrefix(tag, "correction_o", "correction", 12, 10);
    }
  }

  /** `parse_eq_str`: a blank line yields nothing; otherwise `dst = rhs`. */
  function ParseEqStr(s: string): (r: Result<Option<Equation>, Failure>)
    ensures r.Ok? && r.value.Some? ==> WellFlagged(r.value.value)
    ensures r.Ok? && r.value.Some? && r.value.value.antiGlitch ==> !r.value.value.correction
  {
    var p := SkipSpaces(s, 0);
    if At(s, p) == '\0' then Ok(None)
    else
      var d := ScanUntil(s, p, IsDstStop);
      var eqPos := SkipSpaces(s, d);
      if At(s, eqPos) != '=' then Err(InvalidLine)
      else
        var eq :- ParseRhs(s[SkipSpaces(s, eqPos + 1)..], s[p..d]);
        Ok(Some(eq))
  }

  /** The right-hand side of an equation, from its first non-space character: either
      `![ ... ]` or a plain expression, followed by a comment that may carry the
      correction flags. */
  function ParseRhs(t: string, dst: string): (r: Result<Equation, Failure>)
    ensures r.Ok? ==> r.value.dst == dst && WellFlagged(r.value)
    ensures r.Ok? && r.value.antiGlitch ==> !r.value.correction
  {
    if At(t, 0) == '!' && At(t, 1) == '[' then ParseAntiGlitch(t[2..], dst)
    else
      var flags := CorrectionFlags(t, 0);
      var ex :- ParseExpr(t);
      Ok(Equation(ex, dst, false, flags.0, flags.1))
  }

  /** The part after `![`: the line must end with `]` (up to trailing spaces), which is
      cut off before the expression is read. As `]` ends the line, no comment follows it
      and the correction flags stay unset. An empty remainder is rejected too: the C code
      then inspects the character before it, which is `[` or a space. */
  function ParseAntiGlitch(u: string, dst: string): (r: Result<Equation, Failure>)
    ensures r.Ok? ==> r.value.dst == dst && r.value.antiGlitch && !r.value.correction
    ensures r.Ok? ==> WellFlagged(r.value)
  {
    var b := SkipSpaces(u, 0);
    var v := u[b..];
    var len := ScanUntil(v, 0, IsNul);
    if len == 0 then Err(UnmatchedBracket)
    else
      var idx := BackOverSpaces(v, len - 1);
      if At(v, idx) != ']' then Err(UnmatchedBracket)
      else
        var flags := CorrectionFlags(v, idx + 1);
        NoCommentAfter(v, idx, len);
        var ex :- ParseExpr(v[..idx]);
        Ok(Equation(ex, dst, true, flags.0, flags.1))
  }

  /** Only spaces lie between the closing `]` and the terminator, so no comment is
      found there. */
  lemma NoCommentAfter(v: string, idx: nat, len: nat)
    requires 0 < len && idx < len && IsNul(At(v, len))
    requires forall k :: idx < k <= len - 1 ==> IsSpace(At(v, k))
    ensures CorrectionFlags(v, idx + 1) == (false, false)
  {
    ScanUntilAt(v, idx + 1, IsEol, len);
  }

  /** A line consisting of spaces only is skipped. */
  lemma BlankLine(s: string)
    requires forall k :: 0 <= k < |s| ==> IsSpace(s[k])
    ensures ParseEqStr(s) == Ok(None)
  {
    SkipSpacesAt(s, 0, |s|);
  }

  /** A line without `=` after its first word is rejected. */
  lemma MissingEquals(dst: string, rest: string)
    requires Ident(dst) && rest != [] && rest[0] != '=' && !IsSpace(rest[0])
    ensures ParseEqStr(dst + " " + rest) == Err(InvalidLine)
  {
    var s := dst + " " + rest;
    assert At(s, 0) == dst[0];
    SkipSpacesAt(s, 0, 0);
    forall k | 0 <= k < |dst| ensures !IsDstStop(At(s, k)) {
      assert At(s, k) == dst[k];
      assert IsNameChar(dst[k]);
    }
    assert At(s, |dst|) == ' ' && At(s, |dst| + 1) == rest[0];
    ScanUntilAt(s, 0, IsDstStop, |dst|);
    SkipSpacesAt(s, |dst|, |dst| + 1);
  }

  /** The comment that carries an equation's flags. */
  function FlagComment(eq: Equation): string
  {
    if eq.correctionOutput then " #correction_output"
    else if eq.correction then " #correction"
    else ""
  }

  /** The right-hand side as written on a line. */
  function ShowRhs(eq: Equation): string
  {
    if eq.antiGlitch then "![ " + Show(eq.expr) + " ]\n"
    else Show(eq.expr) + FlagComment(eq) + "\n"
  }

  /** A line as `print_eq_list` writes it, with the anti-glitch brackets and the
      correction comment added when the equation has them. */
  function ShowEquation(eq: Equation): string
  {
    eq.dst + " = " + ShowRhs(eq)
  }

  /** The equations a line can describe. */
  predicate PrintableEquation(eq: Equation)
  {
    Ident(eq.dst) && Printable(eq.expr) && WellFlagged(eq) && (eq.antiGlitch ==> !eq.correction)
  }

  /** The `dst = ` head of a line is read off and the rest goes to the right-hand side
      parser. */
  lemma ParseHead(dst: string, rest: string)
    requires Ident(dst) && rest != [] && !IsSpace(rest[0])
    ensures ParseEqStr(dst + " = " + rest) ==
            (match ParseRhs(rest, dst) case Ok(eq) => Ok(Some(eq)) case Err(f) => Err(f))
  {
    var s := dst + " = " + rest;
    assert At(s, 0) == dst[0];
    SkipSpacesAt(s, 0, 0);
    forall k | 0 <= k < |dst| ensures !IsDstStop(At(s, k)) {
      assert At(s, k) == dst[k];
      assert IsNameChar(dst[k]);
    }
    assert At(s, |dst|) == ' ' && At(s, |dst| + 1) == '=' && At(s, |dst| + 2) == ' ';
    assert At(s, |dst| + 3) == rest[0];
    ScanUntilAt(s, 0, IsDstStop, |dst|);
    SkipSpacesAt(s, |dst|, |dst| + 1);
    SkipSpacesAt(s, |dst| + 2, |dst| + 3);
    assert s[0..|dst|] == dst;
    assert s[|dst| + 3..] == rest;
  }

  /** Printed expressions contain no comment or terminator. */
  lemma ShowNoEol(e: Expr)
    requires Printable(e)
    ensures forall k :: 0 <= k < |Show(e)| ==> !IsEol(Show(e)[k])
  {
    forall k | 0 <= k < |Show(e)| ensures !IsEol(Show(e)[k]) {
      if k < |e.left| {
        assert Show(e)[k] == e.left[k];
        assert IsNameChar(e.left[k]);
      } else if e.op != Asgn && k >= |e.left| + 3 {
        assert Show(e)[k] == e.right[k - |e.left| - 3];
        assert IsNameChar(e.right[k - |e.left| - 3]);
      }
    }
  }

  /** A plain right-hand side with its flag comment reads back. */
  lemma ParsePlainRhs(eq: Equation)
    requires PrintableEquation(eq) && !eq.antiGlitch
    ensures ParseRhs(ShowRhs(eq), eq.dst) == Ok(eq)
  {
    assert ShowRhs(eq)[0] == eq.expr.left[0];
    assert IsNameChar(eq.expr.left[0]);
    PlainFlags(eq);
    PlainExpr(eq);
  }

  lemma PlainExpr(eq: Equation)
    requires PrintableEquation(eq) && !eq.antiGlitch
    ensures ParseExpr(ShowRhs(eq)) == Ok(eq.expr)
  {
    var c := FlagComment(eq) + "\n";
    assert ShowRhs(eq) == Show(eq.expr) + c;
    if eq.correctionOutput {
      assert c == " #correction_output\n";
    } else if eq.correction {
      assert c == " #correction\n";
    } else {
      assert c == "\n";
    }
    assert Trailer(c, 1);
    ParseShow(eq.expr, c, 1);
  }

  /** The flag comment written after a plain expression sets exactly the flags it
      names. */
  lemma PlainFlags(eq: Equation)
    requires PrintableEquation(eq) && !eq.antiGlitch
    ensures CorrectionFlags(ShowRhs(eq), 0) == (eq.correction, eq.correctionOutput)
  {
    var c := FlagComment(eq) + "\n";
    assert ShowRhs(eq) == Show(eq.expr) + c;
    ShowNoEol(eq.expr);
    FlagsSkipBody(Show(eq.expr), c);
    if eq.correctionOutput {
      OutputCommentFlags();
    } else if eq.correction {
      CorrectionCommentFlags();
    } else {
      assert c == "" + "\n";
      NoCommentFlags();
    }
  }

  lemma OutputCommentFlags()
    ensures CorrectionFlags(" #correction_output" + "\n", 0) == (true, true)
  {
    assert " #correction_output" + "\n" == " #" + "correction_output\n";
    CommentFlags("correction_output\n");
    assert StrEqualsNoCase("correction_output\n", "correction_o", 12);
  }

  lemma CorrectionCommentFlags()
    ensures CorrectionFlags(" #correction" + "\n", 0) == (true, false)
  {
    assert " #correction" + "\n" == " #" + "correction\n";
    CommentFlags("correction\n");
    assert Upper(At("correction\n", 10)) != Upper(At("correction_o", 10));
    assert StrEqualsNoCase("correction\n", "correction", 10);
  }

  lemma NoCommentFlags()
    ensures CorrectionFlags("" + "\n", 0) == (false, false)
  {
    var c := "" + "\n";
    assert At(c, 0) == '\n' && At(c, 1) == '\0';
    ScanUntilAt(c, 0, IsEol, 1);
  }

  /** The flags of a text with no comment sign before `c` are those of `c`. */
  lemma FlagsSkipBody(body: string, c: string)
    requires forall k :: 0 <= k < |body| ==> !IsEol(body[k])
    ensures CorrectionFlags(body + c, 0) == CorrectionFlags(c, 0)
  {
    var t := body + c;
    var h := ScanUntil(c, 0, IsEol);
    forall k | 0 <= k < |body| + h ensures !IsEol(At(t, k)) {
      if k < |body| {
        assert At(t, k) == body[k];
      } else {
        assert At(t, k) == At(c, k - |body|);
      }
    }
    assert At(t, |body| + h) == At(c, h);
    ScanUntilAt(t, 0, IsEol, |body| + h);
    if At(c, h) == '#' {
      assert t[|body| + h + 1..] == c[h + 1..];
    }
  }

  /** The flags of a line's ` #tag` comment are read from the tag. */
  lemma CommentFlags(tag: string)
    ensures CorrectionFlags(" #" + tag, 0) == TagFlags(tag)
  {
    var t := " #" + tag;
    assert At(t, 0) == ' ' && At(t, 1) == '#';
    ScanUntilAt(t, 0, IsEol, 1);
    assert t[2..] == tag;
  }

  /** An anti-glitch right-hand side reads back. */
  lemma ParseAntiRhs(eq: Equation)
    requires PrintableEquation(eq) && eq.antiGlitch
    ensures ParseRhs(ShowRhs(eq), eq.dst) == Ok(eq)
  {
    var t := ShowRhs(eq);
    assert t == "![ " + Show(eq.expr) + " ]\n";
    assert At(t, 0) == '!' && At(t, 1) == '[';
    assert t[2..] == " " + Show(eq.expr) + " ]\n";
    AntiBody(eq.expr, eq.dst);
    assert eq == Equation(eq.expr, eq.dst, true, false, false);
  }

  /** The text after `![` of a written anti-glitch line reads back. */
  lemma AntiBody(e: Expr, dst: string)
    requires Printable(e)
    ensures ParseAntiGlitch(" " + Show(e) + " ]\n", dst) == Ok(Equation(e, dst, true, false, false))
  {
    var body := Show(e);
    var u := " " + body + " ]\n";
    var v := u[1..];
    var idx := |v| - 2;
    assert && SkipSpaces(u, 0) == 1
           && ScanUntil(v, 0, IsNul) == |v|
           && BackOverSpaces(v, |v| - 1) == idx && At(v, idx) == ']'
           && CorrectionFlags(v, idx + 1) == (false, false)
           && ParseExpr(v[..idx]) == Ok(e) by {
      assert SkipSpaces(u, 0) == 1 by {
        assert At(u, 1) == e.left[0];
        assert IsNameChar(e.left[0]);
        SkipSpacesAt(u, 0, 1);
      }
      assert v == body + " ]\n";
      ShowNoEol(e);
      AntiScan(body);
      NoCommentAfter(v, idx, |v|);
      assert ParseExpr(v[..idx]) == Ok(e) by {
        ParseShow(e, " ", 1);
      }
    }
  }

  /** The closing bracket of `body ]` is found back over the line end. */
  lemma AntiScan(body: string)
    requires forall k :: 0 <= k < |body| ==> !IsEol(body[k])
    ensures var v := body + " ]\n";
            && ScanUntil(v, 0, IsNul) == |v|
            && BackOverSpaces(v, |v| - 1) == |v| - 2
            && v[..|v| - 2] == body + " "
  {
    var v := body + " ]\n";
    forall k | 0 <= k < |v| ensures !IsNul(At(v, k)) {
      if k < |body| {
        assert At(v, k) == body[k];
      }
    }
    ScanUntilAt(v, 0, IsNul, |v|);
    assert At(v, |v| - 1) == '\n' && At(v, |v| - 2) == ']';
  }

  /** Reading a written line gives the equation back, flags included. */
  lemma ParseShowEquation(eq: Equation)
    requires PrintableEquation(eq)
    ensures ParseEqStr(ShowEquation(eq)) == Ok(Some(eq))
  {
    var rhs := ShowRhs(eq);
    assert rhs[0] == (if eq.antiGlitch then '!' else eq.expr.left[0]);
    assert IsNameChar(eq.expr.left[0]);
    ParseHead(eq.dst, rhs);
    if eq.antiGlitch {
      ParseAntiRhs(eq);
    } else {
      ParsePlainRhs(eq);
    }
  }

  // ---------------------------------------------------------------------------------
  // The equation lines of a file

  /** A reader of one equation line (`parse_eq_str`, or any other with its type: the
      loop below does not depend on how a line is read). */
  type LineReader = string -> Result<Option<Equation>, Failure>

  /** The equations of a sequence of equation lines, in file order, or the first
      failing line's failure. */
  function ParsedEqs(read: LineReader, lines: seq<string>): (r: Result<seq<Equation>, Failure>)
    ensures r.Ok? ==> |r.value| <= |lines|
    decreases |lines|
  {
    if lines == [] then Ok([])
    else
      var p :- read(lines[0]);
      var rest :- ParsedEqs(read, lines[1..]);
      Ok((if p.Some? then [p.value] else []) + rest)
  }

  /** The loop of `parse_file` over the equation lines: each line goes through
      `parse_eq_str`, which prepends its equation to the list. */
  function AddEqLines(read: LineReader, l: EqList, lines: seq<string>): Result<EqList, Failure>
    decreases |lines|
  {
    if lines == [] then Ok(l)
    else
      var p :- read(lines[0]);
      AddEqLines(read, if p.Some? then AddEq(l, p.value) else l, lines[1..])
  }

  /** The list holds the parsed equations last line first. */
  lemma {:induction false} AddEqLinesStacks(read: LineReader, l: EqList, lines: seq<string>)
    requires ParsedEqs(read, lines).Ok?
    ensures AddEqLines(read, l, lines) ==
            Ok(EqList(l.size + |ParsedEqs(read, lines).value|,
                      Seqs.Reverse(ParsedEqs(read, lines).value) + l.items))
    decreases |lines|
  {
    if lines == [] {
      assert Seqs.Reverse<Equation>([]) + l.items == l.items;
    } else {
      var p := read(lines[0]).value;
      var first := if p.Some? then [p.value] else [];
      var l1 := if p.Some? then AddEq(l, p.value) else l;
      assert l1 == EqList(l.size + |first|, first + l.items);
      AddEqLinesStacks(read, l1, lines[1..]);
      var rest := ParsedEqs(read, lines[1..]).value;
      assert ParsedEqs(read, lines) == Ok(first + rest);
      StackStep(first, rest, l.items);
    }
  }

  /** The loop stops at the first line that fails, with that line's failure. */
  lemma {:induction false} AddEqLinesFails(read: LineReader, l: EqList, lines: seq<string>)
    requires ParsedEqs(read, lines).Err?
    ensures AddEqLines(read, l, lines) == Err(ParsedEqs(read, lines).error)
    decreases |lines|
  {
    if read(lines[0]).Ok? {
      var p := read(lines[0]).value;
      AddEqLinesFails(read, if p.Some? then AddEq(l, p.value) else l, lines[1..]);
    }
  }

  lemma StackStep(first: seq<Equation>, rest: seq<Equation>, items: seq<Equation>)
    requires |first| <= 1
    ensures Seqs.Reverse(rest) + (first + items) == Seqs.Reverse(first + rest) + items
  {
    StrMaps.ReverseAppendSingle(first, rest);
    assert Seqs.Reverse(first) == first;
  }

  /** Every equation read by `parse_eq_str` is well flagged. */
  lemma {:induction false} ParsedWellFlagged(lines: seq<string>)
    requires ParsedEqs(ParseEqStr, lines).Ok?
    ensures AllWellFlagged(ParsedEqs(ParseEqStr, lines).value)
    decreases |lines|
  {
    if lines != [] {
      ParsedWellFlagged(lines[1..]);
    }
  }

  /** The equations of a file: parsed, then `reverse_eq_list`, which fails on an empty
      list. The result is in file order. */
  function ParseEquations(lines: seq<string>): (r: Result<EqList, Failure>)
    ensures ParsedEqs(ParseEqStr, lines).Err? ==> r == Err(ParsedEqs(ParseEqStr, lines).error)
    ensures ParsedEqs(ParseEqStr, lines) == Ok([]) ==> r == Err(EmptyEquationList)
    ensures r.Ok? ==> ParsedEqs(ParseEqStr, lines) == Ok(r.value.items) && r.value.items != []
    ensures r.Ok? ==> r.value.size == |r.value.items| && AllWellFlagged(r.value.items)
  {
    var parsed := ParsedEqs(ParseEqStr, lines);
    if parsed.Err? then
      AddEqLinesFails(ParseEqStr, MakeEqList(), lines);
      AddEqLines(ParseEqStr, MakeEqList(), lines)
    else
      AddEqLinesStacks(ParseEqStr, MakeEqList(), lines);
      ParsedWellFlagged(lines);
      var l := AddEqLines(ParseEqStr, MakeEqList(), lines).value;
      if |l.items| == 0 then Err(EmptyEquationList)
      else
        assert l.items == Seqs.Reverse(parsed.value) + [];
        assert l.items == Seqs.Reverse(parsed.value);
        Seqs.ReverseReverse(parsed.value);
        assert ReverseEqs(l).items == parsed.value;
        Ok(ReverseEqs(l))
  }
}

=== FILE: product_laws.dfy ===
/** Laws of the wire computation of `gen_circuit`: sums and assignments, the decision
    table of products inside correction blocks read as the laws of multiplication by
    one, by zero and of a wire by itself, and the glitch set of a new wire. */
module ProductLaws {
  import opened Results
  import opened Equations
  import opened Deps
  import opened Builder
  import opened BuilderFacts

  /** The dependency of the constant wire "1". */
  function One(lay: Layout): (d: Dep)
    ensures |d| == Size(lay) && d[ConstSlot(lay)] == 1
  {
    Single(Size(lay), ConstSlot(lay), 1)
  }

  /** A vector that `is_dep_constant` accepts is the constant zero or the constant one,
      as its constant slot says. */
  lemma ConstantIs(lay: Layout, d: Dep)
    requires |d| == Size(lay) && Bounded(lay, d) && IsDepConstant(d, Size(lay))
    ensures d[Size(lay) - 1] == 0 ==> d == Zero(Size(lay))
    ensures d[Size(lay) - 1] != 0 ==> d == One(lay)
  {
    var n := Size(lay);
    assert d[n - 1] < SlotBound(lay, n - 1) == 2;
    if d[n - 1] == 0 {
      forall i | 0 <= i < n ensures d[i] == Zero(n)[i] {
      }
    } else {
      forall i | 0 <= i < n ensures d[i] == One(lay)[i] {
      }
    }
  }

  /** The decision table of a product inside a correction block obeys the laws of a
      product over GF(2) as far as untainted operands go: one is neutral (the other
      operand and its taint pass through), zero absorbs (untainted), and a wire times
      itself is that wire. Taint is never created for a correction output, and an
      untainted pair only yields taint through the fallback, which is the zero vector. */
  lemma CorrectionLaws(lay: Layout, e: Equation, l: Wire, r: Wire, multIdx: nat, corrIdx: nat)
    requires WireOk(lay, l) && WireOk(lay, r)
    requires Fits(lay, l.dep, multIdx, corrIdx + CorrStep(e)) && Fits(lay, r.dep, multIdx, corrIdx + CorrStep(e))
    requires e.correctionOutput ==> corrIdx < lay.nCorr
    ensures var p := CorrectionProduct(lay, e, l, r, multIdx, corrIdx);
            && (!l.faulted && l.dep == One(lay) ==> p == (r.dep, r.faulted))
            && (!r.faulted && r.dep == One(lay) ==> p == (l.dep, l.faulted))
            && ((!l.faulted && l.dep == Zero(Size(lay))) || (!r.faulted && r.dep == Zero(Size(lay))) ==>
                  p == (Zero(Size(lay)), false))
            && (!l.faulted && !r.faulted && l.dep == r.dep ==> p == (l.dep, false))
            && (p.1 && e.correctionOutput ==> l.faulted || r.faulted)
            && (p.1 && !l.faulted && !r.faulted ==> p.0 == Zero(Size(lay)))
  {
    var n := Size(lay);
    if IsDepConstant(l.dep, n) {
      ConstantIs(lay, l.dep);
    }
    if IsDepConstant(r.dep, n) {
      ConstantIs(lay, r.dep);
    }
    if l.dep == One(lay) {
      assert IsDepConstant(l.dep, n);
    }
    if r.dep == One(lay) {
      assert IsDepConstant(r.dep, n);
    }
    if l.dep == Zero(n) {
      assert IsDepConstant(l.dep, n);
    }
    if r.dep == Zero(n) {
      assert IsDepConstant(r.dep, n);
    }
  }

  /** Untainted operands that are neither constant nor equal give a correction output
      its own correction slot. */
  lemma CorrectionOutputSlot(lay: Layout, e: Equation, l: Wire, r: Wire, multIdx: nat, corrIdx: nat)
    requires WireOk(lay, l) && WireOk(lay, r)
    requires Fits(lay, l.dep, multIdx, corrIdx + CorrStep(e)) && Fits(lay, r.dep, multIdx, corrIdx + CorrStep(e))
    requires e.correctionOutput && corrIdx < lay.nCorr
    requires !l.faulted && !r.faulted && l.dep != r.dep
    requires !IsDepConstant(l.dep, Size(lay)) && !IsDepConstant(r.dep, Size(lay))
    ensures CorrectionProduct(lay, e, l, r, multIdx, corrIdx) == (Single(Size(lay), CorrSlot(lay, corrIdx), 1), false)
  {
    AreDepEqualFull(l.dep, r.dep);
  }

  /** An assignment shares its operand's vector and taint; a sum takes the slot-wise
      XOR of the operands' vectors and the OR of their taints. */
  lemma StepLinear(lay: Layout, st: State, e: Equation)
    requires Inv(lay, st) && e.expr.op != Mult
    requires e.correctionOutput ==> st.corrIdx < lay.nCorr
    requires Step(lay, st, e).Ok?
    ensures Lookup(st, e.expr.left).Ok? && (e.expr.op == Add ==> Lookup(st, e.expr.right).Ok?)
    ensures var w := Step(lay, st, e).value.wires[|st.wires|];
            var l := LeftWire(st, e);
            && |l.dep| == Size(lay)
            && (e.expr.op == Asgn ==> w.dep == l.dep && w.faulted == l.faulted)
            && (e.expr.op == Add ==>
                  && |RightWire(st, e).dep| == Size(lay)
                  && w.dep == XorVec(l.dep, RightWire(st, e).dep)
                  && w.faulted == (l.faulted || RightWire(st, e).faulted))
  {
    var li := Lookup(st, e.expr.left).value;
    var ri := if e.expr.op == Asgn then li else Lookup(st, e.expr.right).value;
    assert Step(lay, st, e) == StepAt(lay, st, e, li, ri);
    WireFits(lay, st, li);
    WireFits(lay, st, ri);
  }

  /** A name defined before a step, other than the step's destination, still denotes
      the same wire after it. */
  lemma LookupAfter(st: State, st1: State, name: string)
    requires Mirrors(st.positions, st.wires) && Mirrors(st1.positions, st1.wires)
    requires |st1.wires| == |st.wires| + 1 && st1.wires[..|st.wires|] == st.wires
    requires st1.wires[|st.wires|].name != name && Lookup(st, name).Ok?
    ensures Lookup(st1, name) == Lookup(st, name)
  {
    var k := Lookup(st, name).value;
    assert st1.wires[k] == st.wires[k];
    var k1 := Lookup(st1, name).value;
    if k1 < |st.wires| {
      assert st1.wires[k1] == st.wires[k1];
    }
  }

  /** A destination is found at the wire just added. */
  lemma LookupNew(st: State, st1: State)
    requires Mirrors(st1.positions, st1.wires)
    requires |st1.wires| == |st.wires| + 1
    ensures Lookup(st1, st1.wires[|st.wires|].name) == Ok(|st.wires|)
  {
  }

  /** Masking cancels: for `t = x + m` followed by `y = t + m` (with `t` not the mask
      itself), `y` gets exactly the vector of `x`. */
  lemma MaskCancels(lay: Layout, st: State, e1: Equation, e2: Equation)
    requires Ready(lay, st, [e1, e2])
    requires e1.expr.op == Add && e2.expr.op == Add
    requires e2.expr.left == e1.dst && e2.expr.right == e1.expr.right && e1.dst != e1.expr.right
    requires Run(lay, st, [e1, e2]).Ok?
    ensures Lookup(st, e1.expr.left).Ok?
    ensures Run(lay, st, [e1, e2]).value.wires[|st.wires| + 1].dep == LeftWire(st, e1).dep
  {
    var eqs := [e1, e2];
    RunStep(lay, st, eqs);
    var st1 := Step(lay, st, e1).value;
    assert eqs[1..] == [e2];
    RunStep(lay, st1, [e2]);
    var st2 := Step(lay, st1, e2).value;
    assert Run(lay, st1, [e2]) == Run(lay, st2, []) == Ok(st2);
    StepsCancel(lay, st, st1, e1, e2);
  }

  /** `MaskCancels` for the two steps themselves. */
  lemma StepsCancel(lay: Layout, st: State, st1: State, e1: Equation, e2: Equation)
    requires Inv(lay, st) && e1.expr.op == Add && e2.expr.op == Add
    requires e2.expr.left == e1.dst && e2.expr.right == e1.expr.right && e1.dst != e1.expr.right
    requires e1.correctionOutput ==> st.corrIdx < lay.nCorr
    requires Step(lay, st, e1) == Ok(st1)
    requires e2.correctionOutput ==> st1.corrIdx < lay.nCorr
    requires Step(lay, st1, e2).Ok?
    ensures Lookup(st, e1.expr.left).Ok?
    ensures Step(lay, st1, e2).value.wires[|st.wires| + 1].dep == LeftWire(st, e1).dep
  {
    StepLinear(lay, st, e1);
    StepLinear(lay, st1, e2);
    LookupNew(st, st1);
    LookupAfter(st, st1, e1.expr.right);
    XorVecCancel(LeftWire(st, e1).dep, RightWire(st, e1).dep);
  }

  /** The glitch set of a new wire: its own vector alone when glitches are off or stopped
      by `![ ]` and the wire is untainted; otherwise a duplicate-free collection of the
      operands' glitch elements that matches each of them below the constant slot. */
  lemma GlitchLaws(lay: Layout, e: Equation, l: Wire, r: Wire, dep: Dep, faulted: bool)
    requires WireOk(lay, l) && WireOk(lay, r) && |dep| == Size(lay)
    ensures var g := GlitchOf(lay, e, l, r, dep, faulted);
            && ((!lay.glitch || e.antiGlitch) && !faulted ==> g == [dep])
            && (!((!lay.glitch || e.antiGlitch) && !faulted) ==>
                  && NoDup(g, Size(lay))
                  && Covers(g, l.glitch, Size(lay))
                  && (e.expr.op != Asgn ==> Covers(g, r.glitch, Size(lay)))
                  && (forall i :: 0 <= i < |g| ==> g[i] in l.glitch || (e.expr.op != Asgn && g[i] in r.glitch)))
  {
    var n := Size(lay);
    if e.expr.op == Asgn {
      PushNewNoDup([], l.glitch, n);
      PushNewCovers([], l.glitch, n);
    } else {
      GlitchUnionMeaning(l.glitch, r.glitch, n);
    }
  }
}

=== FILE: py_circuit.dfy ===
/** The circuit of the Python correction tester, src/testing_correction.py: `Equation` and its
    `evaluate`, `evaluate_circuit` under a list of stuck-at faults, and
    `can_faulty_circuit_be_corrected`. Values live in an abstract ring standing for
    Sage's `BooleanPolynomialRing`; `testing_correction.py` only adds, multiplies and compares them. */
module PyCircuit {
  import opened Results
  import opened PyText

  /** An `Equation`: `dst = arg1 op arg2`; an assignment has the empty `op` and `arg2`. */
  datatype Equation = Equation(dst: string, op: string, arg1: string, arg2: string)

  /** `Equation(args)` on the tokens of one line: `dst = ~x` becomes `dst = x + 1`,
      `dst = x` an assignment, `dst = a op b` keeps its operator; any other number of
      tokens fails the assertion. The second token is not looked at. */
  function ParseEquation(args: seq<string>): (r: Result<Equation, Failure>)
    ensures r.Err? <==> |args| !in {3, 5} || (|args| == 3 && args[2] == [])
    ensures r.Err? && |args| > 0 && |args| != 3 ==> r.error == AssertionFailed
    ensures r.Ok? ==> r.value.dst == args[0]
    ensures r.Ok? && |args| == 5 ==> r.value == Equation(args[0], args[3], args[2], args[4])
    ensures r.Ok? && |args| == 3 ==>
              if StartsWith(args[2], '~') then r.value == Equation(args[0], "+", args[2][1..], "1")
              else r.value == Equation(args[0], "", args[2], "")
  {
    if |args| == 0 then Err(IndexError)
    else if |args| == 3 then
      if args[2] == [] then Err(IndexError)
      else if args[2][0] == '~' then Ok(Equation(args[0], "+", args[2][1..], "1"))
      else Ok(Equation(args[0], "", args[2], ""))
    else if |args| != 5 then Err(AssertionFailed)
    else Ok(Equation(args[0], args[3], args[2], args[4]))
  }

  /** The equations of the lines of the equation section, in order; skipped lines give
      none, and the first failing line stops the reading. */
  function ParseLines(lines: seq<string>): (r: Result<seq<Equation>, Failure>)
    ensures r.Ok? ==> |r.value| <= |lines|
    decreases |lines|
  {
    if lines == [] then Ok([])
    else
      var head :- ParseLine(lines[0]);
      var rest :- ParseLines(lines[1..]);
      Ok(head + rest)
  }

  /** The equation of one line, or none when the line is skipped. */
  function ParseLine(line: string): (r: Result<seq<Equation>, Failure>)
    ensures r.Ok? ==> |r.value| <= 1
  {
    var t :- LineTokens(line);
    if t.None? then Ok([])
    else
      var e :- ParseEquation(t.value);
      Ok([e])
  }

  /** Lines are read one by one: a file is read as its two halves are. */
  lemma {:induction false} ParseLinesAppend(a: seq<string>, b: seq<string>)
    ensures ParseLines(a + b) ==
            if ParseLines(a).Err? then ParseLines(a)
            else if ParseLines(b).Err? then ParseLines(b)
            else Ok(ParseLines(a).value + ParseLines(b).value)
    decreases |a|
  {
    if a == [] {
      assert a + b == b;
      if ParseLines(b).Ok? {
        assert [] + ParseLines(b).value == ParseLines(b).value;
      }
    } else {
      var ab := a + b;
      assert ab[0] == a[0] && ab[1..] == a[1..] + b;
      ParseLinesAppend(a[1..], b);
      match ParseLine(a[0])
      case Err(_) =>
      case Ok(h) =>
        assert ParseLines(ab) == Unfold(h, ParseLines(a[1..] + b));
        assert ParseLines(a) == Unfold(h, ParseLines(a[1..]));
        if ParseLines(a[1..]).Ok? && ParseLines(b).Ok? {
          assert h + (ParseLines(a[1..]).value + ParseLines(b).value)
              == (h + ParseLines(a[1..]).value) + ParseLines(b).value;
        }
    }
  }

  /** One line read, then the rest. */
  function Unfold(h: seq<Equation>, rest: Result<seq<Equation>, Failure>): Result<seq<Equation>, Failure>
  {
    match rest
    case Err(e) => Err(e)
    case Ok(t) => Ok(h + t)
  }

  /** The line an equation is written as: `dst = arg1` for an assignment,
      `dst = arg1 op arg2` otherwise. */
  function Line(e: Equation): string
  {
    Join(Tokens(e)) + "\n"
  }

  /** The tokens of a written equation are clean, and an assignment has no second
      operand and does not start its source with `~`. */
  predicate Writable(e: Equation)
  {
    Clean(Tokens(e)) && (e.op == "" ==> e.arg2 == "" && !StartsWith(e.arg1, '~'))
  }

  /** Writing an equation on a line and reading the line back gives the equation. */
  lemma LineRoundTrip(e: Equation)
    requires Writable(e)
    ensures ParseLines([Line(e)]) == Ok([e])
  {
    LineParses(e);
    assert [Line(e)][1..] == [];
    assert ParseLines([Line(e)]) == Unfold([e], ParseLines([]));
    assert [e] + [] == [e];
  }

  lemma LineParses(e: Equation)
    requires Writable(e)
    ensures ParseLine(Line(e)) == Ok([e])
  {
    var ts := Tokens(e);
    LineOfTokens(ts, []);
    assert ts + [] == ts;
    TokensParse(e);
  }

  /** The tokens an equation is written with. */
  function Tokens(e: Equation): seq<string>
  {
    if e.op == "" then [e.dst, "=", e.arg1] else [e.dst, "=", e.arg1, e.op, e.arg2]
  }

  lemma TokensParse(e: Equation)
    requires Writable(e)
    ensures ParseEquation(Tokens(e)) == Ok(e)
  {
    if e.op == "" {
      assert Tokens(e)[2] == e.arg1;
      assert e.arg1 in Tokens(e);
    }
  }

  /** The values of Sage's `BooleanPolynomialRing` as `testing_correction.py` uses them: `R(v)` for
      a name, the constants, sums and products. Only equality of values is observed. */
  datatype Ring<!V> = Ring(add: (V, V) -> V, mul: (V, V) -> V, zero: V, one: V, ofName: string -> V)

  /** `evaluate_over_R[k]`, a `KeyError` for a name not yet evaluated. */
  function Lookup<V>(env: map<string, V>, k: string): (r: Result<V, Failure>)
    ensures r.Ok? <==> k in env
    ensures r.Ok? ==> r.value == env[k]
    ensures r.Err? ==> r.error == NotFound(k, "evaluate_over_R")
  {
    if k in env then Ok(env[k]) else Err(NotFound(k, "evaluate_over_R"))
  }

  /** `Equation.evaluate`: `+` is the sum and `*` the product of the operand values;
      any other operator gives the value of `arg1`. */
  function Evaluate<V>(e: Equation, ring: Ring<V>, env: map<string, V>): (r: Result<V, Failure>)
    ensures e.op == "+" ==>
              (r.Ok? <==> e.arg1 in env && e.arg2 in env) &&
              (r.Ok? ==> r.value == ring.add(env[e.arg1], env[e.arg2]))
    ensures e.op == "*" ==>
              (r.Ok? <==> e.arg1 in env && e.arg2 in env) &&
              (r.Ok? ==> r.value == ring.mul(env[e.arg1], env[e.arg2]))
    ensures e.op != "+" && e.op != "*" ==> (r.Ok? <==> e.arg1 in env) && (r.Ok? ==> r.value == env[e.arg1])
    ensures r.Err? ==> r.error.NotFound? && r.error.mapName == "evaluate_over_R"
  {
    if e.op == "+" then
      var a :- Lookup(env, e.arg1);
      var b :- Lookup(env, e.arg2);
      Ok(ring.add(a, b))
    else if e.op == "*" then
      var a :- Lookup(env, e.arg1);
      var b :- Lookup(env, e.arg2);
      Ok(ring.mul(a, b))
    else Lookup(env, e.arg1)
  }

  /** A negated copy `dst = ~x` evaluates to `x + 1`. */
  lemma NotIsPlusOne<V>(dst: string, x: string, ring: Ring<V>, env: map<string, V>)
    requires x in env && "1" in env
    ensures var r := ParseEquation([dst, "=", "~" + x]);
            r.Ok? && Evaluate(r.value, ring, env) == Ok(ring.add(env[x], env["1"]))
  {
    assert ("~" + x)[1..] == x;
  }

  /** The alternative operators `^` and `&` (sum and product for the C parser) are read
      by `evaluate` as a copy of their first operand. */
  lemma OtherOperatorsCopy<V>(dst: string, a: string, op: string, b: string, ring: Ring<V>, env: map<string, V>)
    requires op == "^" || op == "&"
    requires a in env
    ensures var r := ParseEquation([dst, "=", a, op, b]);
            r.Ok? && Evaluate(r.value, ring, env) == Ok(env[a])
  {
  }

  /** A Python `dict` as `testing_correction.py` iterates it: its keys in first-insertion order. */
  datatype Dict<V> = Dict(keys: seq<string>, vals: map<string, V>)
  {
    ghost predicate Valid()
    {
      (forall k :: k in keys <==> k in vals) &&
      (forall i, j :: 0 <= i < j < |keys| ==> keys[i] != keys[j])
    }

    /** `d[k] = v`: a new key goes last, an existing one keeps its place. */
    function Put(k: string, v: V): (d: Dict<V>)
      requires Valid()
      ensures d.Valid() && d.vals == vals[k := v]
      ensures k in keys ==> d.keys == keys
      ensures k !in keys ==> d.keys == keys + [k]
    {
      if k in keys then Dict(keys, vals[k := v]) else Dict(keys + [k], vals[k := v])
    }
  }

  /** What `testing_correction.py` keeps of a circuit it has read. */
  datatype Circuit = Circuit(
    inputs: seq<string>,              // `inputs`: every share name of every input
    randoms: seq<string>,
    dupInput: map<string, string>,    // `input_name_from_duplicate`
    eqs: seq<Equation>,               // the equations that do not define an output
    eqsOutputs: seq<Equation>,        // the output equations, last one first
    nbShares: int,
    nbDup: int,
    outShare: map<string, int>)       // `output_idx_from_duplicate`

  /** The value a stuck-at fault forces: 1 when faults set, 0 when they reset. */
  function Stuck<V>(ring: Ring<V>, isSet: bool): V
  {
    if isSet then ring.one else ring.zero
  }

  /** The value of name `v`: stuck when it is faulted, `free` otherwise. */
  function Forced<V>(ring: Ring<V>, faults: seq<string>, isSet: bool, v: string, free: V): V
  {
    if v in faults then Stuck(ring, isSet) else free
  }

  /** The names and constants before any equation: the randoms and `0`, `1` as ring
      variables and constants, then every input duplicate as its share variable. */
  function InitialEnv<V>(c: Circuit, ring: Ring<V>, faults: seq<string>, isSet: bool): (env: map<string, V>)
    ensures forall v :: v in env <==> v in c.randoms || v == "0" || v == "1" || v in c.dupInput
    ensures forall v :: v in c.dupInput ==> env[v] == Forced(ring, faults, isSet, v, ring.ofName(c.dupInput[v]))
    ensures forall v :: v in c.randoms + ["0", "1"] && v !in c.dupInput ==>
              env[v] == Forced(ring, faults, isSet, v, ring.ofName(v))
  {
    var first := map v | v in c.randoms + ["0", "1"] :: Forced(ring, faults, isSet, v, ring.ofName(v));
    first + map v | v in c.dupInput :: Forced(ring, faults, isSet, v, ring.ofName(c.dupInput[v]))
  }

  /** The destinations of `eqs`, in order. */
  function Dsts(eqs: seq<Equation>): (r: seq<string>)
    ensures |r| == |eqs| && forall i :: 0 <= i < |eqs| ==> r[i] == eqs[i].dst
  {
    if eqs == [] then [] else [eqs[0].dst] + Dsts(eqs[1..])
  }

  /** The value equation `e` gives its destination. */
  function Step<V>(e: Equation, ring: Ring<V>, faults: seq<string>, isSet: bool, env: map<string, V>): Result<V, Failure>
  {
    if e.dst in faults then Ok(Stuck(ring, isSet)) else Evaluate(e, ring, env)
  }

  /** The loop over `self.eqs`: each equation, in order, (re)defines its destination in
      the environment the previous ones left. */
  function RunEqs<V>(eqs: seq<Equation>, ring: Ring<V>, faults: seq<string>, isSet: bool, env: map<string, V>)
    : (r: Result<map<string, V>, Failure>)
    ensures r.Ok? ==> forall k :: k in r.value <==> k in env || k in Dsts(eqs)
    ensures r.Ok? ==> forall k :: k in env && k !in Dsts(eqs) ==> r.value[k] == env[k]
    ensures r.Ok? ==> forall k :: k in Dsts(eqs) && k in faults ==> r.value[k] == Stuck(ring, isSet)
    ensures r.Err? ==> r.error.NotFound? && r.error.mapName == "evaluate_over_R"
    decreases |eqs|
  {
    if eqs == [] then Ok(env)
    else
      var v :- Step(eqs[0], ring, faults, isSet, env);
      RunEqs(eqs[1..], ring, faults, isSet, env[eqs[0].dst := v])
  }

  /** Running two lists of equations one after the other is running their
      concatenation. */
  lemma {:induction false} RunEqsAppend<V>(a: seq<Equation>, b: seq<Equation>, ring: Ring<V>,
                                           faults: seq<string>, isSet: bool, env: map<string, V>)
    ensures RunEqs(a + b, ring, faults, isSet, env) ==
            match RunEqs(a, ring, faults, isSet, env)
            case Err(e) => Err(e)
            case Ok(mid) => RunEqs(b, ring, faults, isSet, mid)
    decreases |a|
  {
    if a == [] {
      assert a + b == b;
    } else {
      assert (a + b)[0] == a[0] && (a + b)[1..] == a[1..] + b;
      match Step(a[0], ring, faults, isSet, env)
      case Err(_) =>
      case Ok(v) =>
        RunEqsAppend(a[1..], b, ring, faults, isSet, env[a[0].dst := v]);
    }
  }

  /** The loop over `self.eqs_outputs`: every output equation is evaluated over the
      final environment of the other equations, into a dict of its own. */
  function RunOuts<V>(eqs: seq<Equation>, ring: Ring<V>, faults: seq<string>, isSet: bool,
                      env: map<string, V>, outs: Dict<V>): (r: Result<Dict<V>, Failure>)
    requires outs.Valid()
    ensures r.Ok? <==> AllEvaluate(eqs, ring, faults, isSet, env)
    ensures r.Ok? ==> OutsAfter(eqs, ring, faults, isSet, env, outs, r.value)
    ensures r.Err? ==> r.error.NotFound? && r.error.mapName == "evaluate_over_R"
    decreases |eqs|
  {
    if eqs == [] then Ok(outs)
    else
      match Step(eqs[0], ring, faults, isSet, env)
      case Err(e) => Err(e)
      case Ok(v) =>
        var next := outs.Put(eqs[0].dst, v);
        var r := RunOuts(eqs[1..], ring, faults, isSet, env, next);
        AllEvaluateStep(eqs, ring, faults, isSet, env);
        if r.Ok? then
          OutsStep(eqs, ring, faults, isSet, env, outs, v, r.value);
          r
        else r
  }

  /** Every equation of `eqs` evaluates over `env`. */
  predicate AllEvaluate<V>(eqs: seq<Equation>, ring: Ring<V>, faults: seq<string>, isSet: bool, env: map<string, V>)
  {
    forall i :: 0 <= i < |eqs| ==> Step(eqs[i], ring, faults, isSet, env).Ok?
  }

  lemma AllEvaluateStep<V>(eqs: seq<Equation>, ring: Ring<V>, faults: seq<string>, isSet: bool, env: map<string, V>)
    requires eqs != []
    ensures AllEvaluate(eqs, ring, faults, isSet, env) <==>
            Step(eqs[0], ring, faults, isSet, env).Ok? && AllEvaluate(eqs[1..], ring, faults, isSet, env)
  {
    assert forall i :: 0 <= i < |eqs[1..]| ==> eqs[1..][i] == eqs[i + 1];
  }

  /** What the output dict holds after the output equations `eqs` ran on `outs`: the
      keys it had, in place, then the new destinations; the values of the keys no
      equation redefines; and, for every destination, the value its last equation
      gives. */
  ghost predicate OutsAfter<V>(eqs: seq<Equation>, ring: Ring<V>, faults: seq<string>, isSet: bool,
                               env: map<string, V>, outs: Dict<V>, d: Dict<V>)
  {
    OutsKept(eqs, outs, d) && OutsLast(eqs, ring, faults, isSet, env, d)
  }

  /** The keys and values the output equations leave from `outs` in `d`. */
  ghost predicate OutsKept<V>(eqs: seq<Equation>, outs: Dict<V>, d: Dict<V>)
  {
    && d.Valid()
    && |outs.keys| <= |d.keys| && d.keys[..|outs.keys|] == outs.keys
    && (forall k :: k in d.keys <==> k in outs.keys || k in Dsts(eqs))
    && (forall k :: k in outs.vals && k !in Dsts(eqs) ==> k in d.vals && d.vals[k] == outs.vals[k])
  }

  /** Every destination holds the value its last equation gives. */
  ghost predicate OutsLast<V>(eqs: seq<Equation>, ring: Ring<V>, faults: seq<string>, isSet: bool,
                              env: map<string, V>, d: Dict<V>)
  {
    forall i :: 0 <= i < |eqs| && eqs[i].dst !in Dsts(eqs[i + 1..]) ==>
      eqs[i].dst in d.vals && Ok(d.vals[eqs[i].dst]) == Step(eqs[i], ring, faults, isSet, env)
  }

  /** The induction step of `RunOuts`. */
  lemma OutsStep<V>(eqs: seq<Equation>, ring: Ring<V>, faults: seq<string>, isSet: bool,
                    env: map<string, V>, outs: Dict<V>, v: V, d: Dict<V>)
    requires outs.Valid() && eqs != []
    requires Step(eqs[0], ring, faults, isSet, env) == Ok(v)
    requires OutsAfter(eqs[1..], ring, faults, isSet, env, outs.Put(eqs[0].dst, v), d)
    ensures OutsAfter(eqs, ring, faults, isSet, env, outs, d)
  {
    assert Dsts(eqs) == [eqs[0].dst] + Dsts(eqs[1..]);
    OutsKeptStep(eqs, outs, v, d);
    OutsLastStep(eqs, ring, faults, isSet, env, outs, v, d);
  }

  lemma OutsKeptStep<V>(eqs: seq<Equation>, outs: Dict<V>, v: V, d: Dict<V>)
    requires outs.Valid() && eqs != []
    requires Dsts(eqs) == [eqs[0].dst] + Dsts(eqs[1..])
    requires OutsKept(eqs[1..], outs.Put(eqs[0].dst, v), d)
    ensures OutsKept(eqs, outs, d)
  {
    var next := outs.Put(eqs[0].dst, v);
    KeptPrefix(outs.keys, next.keys, d.keys);
    KeptKeys(eqs, outs, next, d);
    KeptVals(eqs, outs, v, d);
  }

  /** A prefix of a prefix. */
  lemma KeptPrefix(a: seq<string>, b: seq<string>, c: seq<string>)
    requires |a| <= |b| <= |c| && b[..|a|] == a && c[..|b|] == b
    ensures c[..|a|] == a
  {
    assert c[..|a|] == c[..|b|][..|a|];
  }

  /** The keys after the first equation are the keys before it and its destination. */
  lemma KeptKeys<V>(eqs: seq<Equation>, outs: Dict<V>, next: Dict<V>, d: Dict<V>)
    requires eqs != [] && Dsts(eqs) == [eqs[0].dst] + Dsts(eqs[1..])
    requires forall k :: k in next.keys <==> k in outs.keys || k == eqs[0].dst
    requires forall k :: k in d.keys <==> k in next.keys || k in Dsts(eqs[1..])
    ensures forall k :: k in d.keys <==> k in outs.keys || k in Dsts(eqs)
  {
  }

  /** An output no equation redefines keeps its value. */
  lemma KeptVals<V>(eqs: seq<Equation>, outs: Dict<V>, v: V, d: Dict<V>)
    requires outs.Valid() && eqs != [] && Dsts(eqs) == [eqs[0].dst] + Dsts(eqs[1..])
    requires forall k :: k in outs.Put(eqs[0].dst, v).vals && k !in Dsts(eqs[1..]) ==>
               k in d.vals && d.vals[k] == outs.Put(eqs[0].dst, v).vals[k]
    ensures forall k :: k in outs.vals && k !in Dsts(eqs) ==> k in d.vals && d.vals[k] == outs.vals[k]
  {
  }

  lemma OutsLastStep<V>(eqs: seq<Equation>, ring: Ring<V>, faults: seq<string>, isSet: bool,
                        env: map<string, V>, outs: Dict<V>, v: V, d: Dict<V>)
    requires outs.Valid() && eqs != []
    requires Step(eqs[0], ring, faults, isSet, env) == Ok(v)
    requires Dsts(eqs) == [eqs[0].dst] + Dsts(eqs[1..])
    requires OutsKept(eqs[1..], outs.Put(eqs[0].dst, v), d)
    requires OutsLast(eqs[1..], ring, faults, isSet, env, d)
    ensures OutsLast(eqs, ring, faults, isSet, env, d)
  {
    forall i | 0 <= i < |eqs| && eqs[i].dst !in Dsts(eqs[i + 1..])
      ensures eqs[i].dst in d.vals && Ok(d.vals[eqs[i].dst]) == Step(eqs[i], ring, faults, isSet, env)
    {
      if i > 0 {
        assert eqs[1..][i - 1] == eqs[i] && eqs[1..][i - 1 + 1..] == eqs[i + 1..];
      }
    }
  }

  /** `evaluate_circuit(faults, set)`: the values of every name, and the dict of output
      values. */
  function EvaluateCircuit<V>(c: Circuit, ring: Ring<V>, faults: seq<string>, isSet: bool)
    : (r: Result<(map<string, V>, Dict<V>), Failure>)
    ensures r.Ok? ==> r.value.1.Valid()
    ensures r.Ok? ==> forall k :: k in r.value.1.keys <==> k in Dsts(c.eqsOutputs)
    ensures r.Err? ==> r.error.NotFound? && r.error.mapName == "evaluate_over_R"
  {
    var env :- RunEqs(c.eqs, ring, faults, isSet, InitialEnv(c, ring, faults, isSet));
    var outs :- RunOuts(c.eqsOutputs, ring, faults, isSet, env, Dict([], map[]));
    Ok((env, outs))
  }

  /** A faulted name takes the stuck value, whatever defines it, among the names and
      among the outputs. */
  lemma FaultsAreStuck<V>(c: Circuit, ring: Ring<V>, faults: seq<string>, isSet: bool)
    ensures var r := EvaluateCircuit(c, ring, faults, isSet);
            r.Ok? ==>
              && (forall v :: v in r.value.0 && v in faults ==> r.value.0[v] == Stuck(ring, isSet))
              && (forall o :: o in r.value.1.vals && o in faults ==> r.value.1.vals[o] == Stuck(ring, isSet))
  {
    var r := EvaluateCircuit(c, ring, faults, isSet);
    if r.Ok? {
      var init := InitialEnv(c, ring, faults, isSet);
      InitialStuck(c, ring, faults, isSet);
      var env := RunEqs(c.eqs, ring, faults, isSet, init);
      var outs := RunOuts(c.eqsOutputs, ring, faults, isSet, env.value, Dict([], map[]));
      assert r.value == (env.value, outs.value);
      EnvStuck(c.eqs, ring, faults, isSet, init, env.value);
      OutsStuck(c.eqsOutputs, ring, faults, isSet, env.value, outs.value);
    }
  }

  /** Faulted names start stuck. */
  lemma InitialStuck<V>(c: Circuit, ring: Ring<V>, faults: seq<string>, isSet: bool)
    ensures var init := InitialEnv(c, ring, faults, isSet);
            forall v :: v in init && v in faults ==> init[v] == Stuck(ring, isSet)
  {
    var init := InitialEnv(c, ring, faults, isSet);
    forall v | v in init && v in faults ensures init[v] == Stuck(ring, isSet) {
      if v !in c.dupInput {
        assert v in c.randoms + ["0", "1"];
      }
    }
  }

  /** Faulted names stay stuck through the equation loop, from an environment where
      they already are. */
  lemma EnvStuck<V>(eqs: seq<Equation>, ring: Ring<V>, faults: seq<string>, isSet: bool,
                    init: map<string, V>, env: map<string, V>)
    requires RunEqs(eqs, ring, faults, isSet, init) == Ok(env)
    requires forall v :: v in init && v in faults ==> init[v] == Stuck(ring, isSet)
    ensures forall v :: v in env && v in faults ==> env[v] == Stuck(ring, isSet)
  {
  }

  /** The output dict, started empty, holds the stuck value for every faulted output. */
  lemma OutsStuck<V>(eqs: seq<Equation>, ring: Ring<V>, faults: seq<string>, isSet: bool,
                     env: map<string, V>, d: Dict<V>)
    requires OutsAfter(eqs, ring, faults, isSet, env, Dict([], map[]), d)
    ensures forall o :: o in d.vals && o in faults ==> d.vals[o] == Stuck(ring, isSet)
  {
    forall o | o in d.vals && o in faults ensures d.vals[o] == Stuck(ring, isSet) {
      assert o in d.keys;
      var i := LastDefinition(eqs, o);
      assert Step(eqs[i], ring, faults, isSet, env) == Ok(Stuck(ring, isSet));
    }
  }

  /** The last equation of a list that defines `k`. */
  function LastDefinition(eqs: seq<Equation>, k: string): (i: nat)
    requires k in Dsts(eqs)
    ensures i < |eqs| && eqs[i].dst == k && k !in Dsts(eqs[i + 1..])
    decreases |eqs|
  {
    if eqs[0].dst == k && k !in Dsts(eqs[1..]) then 0
    else
      var i := LastDefinition(eqs[1..], k);
      assert eqs[1..][i + 1..] == eqs[i + 2..];
      i + 1
  }

  /** An input duplicate that is neither faulted nor redefined by an equation evaluates
      to its share variable. */
  lemma DuplicatesAreShares<V>(c: Circuit, ring: Ring<V>, faults: seq<string>, isSet: bool, v: string)
    requires v in c.dupInput && v !in faults && v !in Dsts(c.eqs)
    ensures var r := EvaluateCircuit(c, ring, faults, isSet);
            r.Ok? ==> v in r.value.0 && r.value.0[v] == ring.ofName(c.dupInput[v])
  {
  }

  /** Without faults, the polarity of the faults does not matter. */
  lemma FaultFreeIgnoresSet<V>(c: Circuit, ring: Ring<V>)
    ensures EvaluateCircuit(c, ring, [], true) == EvaluateCircuit(c, ring, [], false)
  {
    assert InitialEnv(c, ring, [], true) == InitialEnv(c, ring, [], false);
    var env := InitialEnv(c, ring, [], true);
    RunEqsNoFaults(c.eqs, ring, env);
    var r := RunEqs(c.eqs, ring, [], true, env);
    if r.Ok? {
      RunOutsNoFaults(c.eqsOutputs, ring, r.value, Dict([], map[]));
    }
  }

  lemma {:induction false} RunEqsNoFaults<V>(eqs: seq<Equation>, ring: Ring<V>, env: map<string, V>)
    ensures RunEqs(eqs, ring, [], true, env) == RunEqs(eqs, ring, [], false, env)
    decreases |eqs|
  {
    if eqs != [] {
      assert Step(eqs[0], ring, [], true, env) == Step(eqs[0], ring, [], false, env);
      match Step(eqs[0], ring, [], true, env)
      case Err(_) =>
      case Ok(v) => RunEqsNoFaults(eqs[1..], ring, env[eqs[0].dst := v]);
    }
  }

  lemma {:induction false} RunOutsNoFaults<V>(eqs: seq<Equation>, ring: Ring<V>, env: map<string, V>, outs: Dict<V>)
    requires outs.Valid()
    ensures RunOuts(eqs, ring, [], true, env, outs) == RunOuts(eqs, ring, [], false, env, outs)
    decreases |eqs|
  {
    if eqs != [] {
      assert Step(eqs[0], ring, [], true, env) == Step(eqs[0], ring, [], false, env);
      match Step(eqs[0], ring, [], true, env)
      case Err(_) =>
      case Ok(v) => RunOutsNoFaults(eqs[1..], ring, env, outs.Put(eqs[0].dst, v));
    }
  }

  /** `(nb_duplications - 1) // 2`: Python's floor division, which Dafny's `/` agrees
      with for a positive divisor. */
  function Bound(nbDup: int): (b: int)
    ensures 2 * b <= nbDup - 1 < 2 * b + 2
  {
    (nbDup - 1) / 2
  }

  /** Whether output `k` differs from the reference and belongs to share `i`. */
  predicate DiffersAt<V(==)>(k: string, vals: map<string, V>, orig: Dict<V>, share: map<string, int>, i: int)
  {
    k in vals && k in orig.vals && orig.vals[k] != vals[k] && k in share && share[k] == i
  }

  /** The number of outputs among `keys` that differ from the reference and belong to
      share `i`. */
  function DiffCount<V(==)>(keys: seq<string>, vals: map<string, V>, orig: Dict<V>, share: map<string, int>, i: int): nat
  {
    if keys == [] then 0
    else (if DiffersAt(keys[0], vals, orig, share, i) then 1 else 0) + DiffCount(keys[1..], vals, orig, share, i)
  }

  /** The lookups of the counting loop succeed: every output has a reference value, and
      every differing one a share index. */
  predicate Countable<V(==)>(keys: seq<string>, vals: map<string, V>, orig: Dict<V>, share: map<string, int>)
    requires forall k :: k in keys ==> k in vals
  {
    forall k :: k in keys ==> k in orig.vals && (orig.vals[k] != vals[k] ==> k in share)
  }

  /** The counting loop of `can_faulty_circuit_be_corrected`: `ks[i]` is incremented for
      every output of share `i` whose value differs from the reference. */
  function Tally<V(==)>(keys: seq<string>, vals: map<string, V>, orig: Dict<V>, share: map<string, int>, ks: seq<int>)
    : (r: Result<seq<int>, Failure>)
    requires forall k :: k in keys ==> k in vals
    requires forall k :: k in share ==> 0 <= share[k] < |ks|
    ensures r.Ok? <==> Countable(keys, vals, orig, share)
    ensures r.Ok? ==> |r.value| == |ks|
    ensures r.Ok? ==> forall i :: 0 <= i < |ks| ==> r.value[i] == ks[i] + DiffCount(keys, vals, orig, share, i)
    ensures r.Err? ==> r.error.NotFound?
    decreases |keys|
  {
    if keys == [] then Ok(ks)
    else
      var k := keys[0];
      if k !in orig.vals then Err(NotFound(k, "original_evaluate_outputs_over_R"))
      else if orig.vals[k] != vals[k] then
        if k !in share then Err(NotFound(k, "output_idx_from_duplicate"))
        else Tally(keys[1..], vals, orig, share, ks[share[k] := ks[share[k]] + 1])
      else Tally(keys[1..], vals, orig, share, ks)
  }

  /** The share indices of the outputs are those of the circuit. */
  predicate WellRead(c: Circuit)
  {
    forall k :: k in c.outShare ==> 0 <= c.outShare[k] < c.nbShares
  }

  function Zeros(n: int): (ks: seq<int>)
    ensures |ks| == if n < 0 then 0 else n
    ensures forall i :: 0 <= i < |ks| ==> ks[i] == 0
  {
    seq(if n < 0 then 0 else n, _ => 0)
  }

  /** No share has more differing outputs than the duplication can outvote. */
  predicate WithinBound<V(==)>(c: Circuit, outs: Dict<V>, orig: Dict<V>)
  {
    forall i :: 0 <= i < c.nbShares ==> DiffCount(outs.keys, outs.vals, orig, c.outShare, i) <= Bound(c.nbDup)
  }

  /** `can_faulty_circuit_be_corrected(faults, set, orig)`: evaluates the circuit under
      the faults and tells whether, in every share, at most `(nb_duplications - 1) // 2`
      output duplicates differ from the reference `orig`. */
  function CanBeCorrected<V(==)>(c: Circuit, ring: Ring<V>, faults: seq<string>, isSet: bool, orig: Dict<V>)
    : (r: Result<bool, Failure>)
    requires WellRead(c)
    ensures var e := EvaluateCircuit(c, ring, faults, isSet);
            r.Ok? <==> e.Ok? && Countable(e.value.1.keys, e.value.1.vals, orig, c.outShare)
    ensures var e := EvaluateCircuit(c, ring, faults, isSet);
            r.Ok? ==> (r.value <==> WithinBound(c, e.value.1, orig))
    ensures r.Err? ==> r.error.NotFound?
  {
    var (_, outs) :- EvaluateCircuit(c, ring, faults, isSet);
    var ks :- Tally(outs.keys, outs.vals, orig, c.outShare, Zeros(c.nbShares));
    Ok(forall i :: 0 <= i < |ks| ==> ks[i] <= Bound(c.nbDup))
  }

  /** Compared with its own outputs, a circuit is correctable exactly when it has at
      least one duplicate. */
  lemma SelfCorrectable<V>(c: Circuit, ring: Ring<V>, faults: seq<string>, isSet: bool)
    requires WellRead(c) && c.nbShares > 0
    requires EvaluateCircuit(c, ring, faults, isSet).Ok?
    ensures var outs := EvaluateCircuit(c, ring, faults, isSet).value.1;
            CanBeCorrected(c, ring, faults, isSet, outs) == Ok(c.nbDup >= 1)
  {
    var outs := EvaluateCircuit(c, ring, faults, isSet).value.1;
    NoneDiffer(outs.keys, outs.vals, outs, c.outShare);
    assert Countable(outs.keys, outs.vals, outs, c.outShare);
    assert DiffCount(outs.keys, outs.vals, outs, c.outShare, 0) == 0;
  }

  lemma {:induction false} NoneDiffer<V>(keys: seq<string>, vals: map<string, V>, orig: Dict<V>, share: map<string, int>)
    requires orig.vals == vals
    ensures forall i :: DiffCount(keys, vals, orig, share, i) == 0
    decreases |keys|
  {
    if keys != [] {
      NoneDiffer(keys[1..], vals, orig, share);
    }
  }
}

=== FILE: py_combs.dfy ===
/** The fault scenarios of src/testing_correction.py: the fault combinations on input
    copies (`get_input_comb_rec`) and the search for the combinations of `k` faults the
    majority vote cannot correct (`get_uncorrected_faulty_combs`). */
module PyCombs {
  import opened Results
  import opened Seqs
  import opened PyCircuit
  import opened PyRead
  import CText
  import FaultNames

  /** `inputs[idx] + "_" + str(j)` for every copy `j`. */
  function CopyNames(share: string, d: nat): (r: seq<string>)
    ensures |r| == d && forall j :: 0 <= j < d ==> r[j] == share + "_" + CText.Digits(j)
  {
    seq(d, j requires 0 <= j < d => share + "_" + CText.Digits(j))
  }

  /** One combination appended to every earlier list, or alone when there is none. */
  function Row(combs: seq<seq<string>>, x: seq<string>): (r: seq<seq<string>>)
  {
    if combs == [] then [x] else seq(|combs|, q requires 0 <= q < |combs| => combs[q] + x)
  }

  /** The loops of `get_input_comb_rec`: the combination in the outer loop, the earlier
      lists in the inner one. */
  function Extend(combs: seq<seq<string>>, cs: seq<seq<string>>): seq<seq<string>>
  {
    if cs == [] then [] else Row(combs, cs[0]) + Extend(combs, cs[1..])
  }

  /** `get_input_comb_rec(idx)`: for every input from `idx` on, `(nb_dup - 1) // 2` of
      its copies, in every way. A negative count is `itertools.combinations`'s
      ValueError. */
  function InputCombs(inputs: seq<string>, nbDup: int, idx: nat): (r: Result<seq<seq<string>>, Failure>)
    ensures idx >= |inputs| ==> r == Ok([])
    ensures r.Err? <==> idx < |inputs| && nbDup < 1
    ensures r.Err? ==> r.error == ValueError
    decreases |inputs| - idx
  {
    if idx >= |inputs| then Ok([])
    else
      var combs :- InputCombs(inputs, nbDup, idx + 1);
      var cap := Bound(nbDup);
      if cap < 0 then Err(ValueError)
      else Ok(Extend(combs, Combinations(CopyNames(inputs[idx], FaultNames.Loops(nbDup)), cap)))
  }

  /** Every entry of every list satisfies `ok`. */
  ghost predicate Over(xss: seq<seq<string>>, ok: string -> bool)
  {
    forall xs, x :: xs in xss && x in xs ==> ok(x)
  }

  /** Every list has `n` entries. */
  predicate Sized(xss: seq<seq<string>>, n: int)
  {
    forall xs :: xs in xss ==> |xs| == n
  }

  lemma RowShape(combs: seq<seq<string>>, x: seq<string>, n: int)
    requires Sized(combs, n) && (combs == [] ==> n == 0)
    ensures |Row(combs, x)| == if combs == [] then 1 else |combs|
    ensures Sized(Row(combs, x), n + |x|)
  {
    var r := Row(combs, x);
    if combs != [] {
      forall xs | xs in r ensures |xs| == n + |x| {
        var q :| 0 <= q < |combs| && xs == r[q];
        assert combs[q] in combs;
      }
    }
  }

  lemma RowOver(combs: seq<seq<string>>, x: seq<string>, ok: string -> bool)
    requires Over(combs, ok) && forall y :: y in x ==> ok(y)
    ensures Over(Row(combs, x), ok)
  {
    var r := Row(combs, x);
    if combs != [] {
      forall xs, y | xs in r && y in xs ensures ok(y) {
        var q :| 0 <= q < |combs| && xs == r[q];
        assert xs == combs[q] + x;
        assert combs[q] in combs;
      }
    }
  }

  lemma SizedAppend(a: seq<seq<string>>, b: seq<seq<string>>, n: int)
    requires Sized(a, n) && Sized(b, n)
    ensures Sized(a + b, n)
  {
    forall xs | xs in a + b ensures |xs| == n {
      if xs in a { } else { assert xs in b; }
    }
  }

  lemma OverAppend(a: seq<seq<string>>, b: seq<seq<string>>, ok: string -> bool)
    requires Over(a, ok) && Over(b, ok)
    ensures Over(a + b, ok)
  {
    forall xs, y | xs in a + b && y in xs ensures ok(y) {
      if xs in a { } else { assert xs in b; }
    }
  }

  /** One level yields one list per pair of an earlier list and a combination. */
  lemma {:induction false} ExtendLength(combs: seq<seq<string>>, cs: seq<seq<string>>)
    ensures |Extend(combs, cs)| == |cs| * (if combs == [] then 1 else |combs|)
    decreases |cs|
  {
    if cs != [] {
      ExtendLength(combs, cs[1..]);
      var w := if combs == [] then 1 else |combs|;
      assert |Row(combs, cs[0])| == w;
      MulSucc(|cs| - 1, w);
    }
  }

  /** The number of lists a combination is appended to: the earlier lists, or the empty
      start when there is none. */
  function Earlier(combs: seq<seq<string>>): nat
  {
    if combs == [] then 1 else |combs|
  }

  /** Entry `p * Earlier(combs) + q` of a level is the `q`-th earlier list followed by
      combination `p` (the combination alone when there is no earlier list). */
  lemma {:induction false} ExtendAt(combs: seq<seq<string>>, cs: seq<seq<string>>, p: nat, q: nat)
    requires p < |cs| && q < Earlier(combs)
    ensures p * Earlier(combs) + q < |Extend(combs, cs)|
    ensures Extend(combs, cs)[p * Earlier(combs) + q] == if combs == [] then cs[p] else combs[q] + cs[p]
    decreases |cs|
  {
    var w := Earlier(combs);
    var row, rest := Row(combs, cs[0]), Extend(combs, cs[1..]);
    assert |row| == w;
    if p > 0 {
      ExtendAt(combs, cs[1..], p - 1, q);
      MulSucc(p - 1, w);
      assert rest[(p - 1) * w + q] == Extend(combs, cs)[p * w + q];
    }
  }

  /** Each list of a level has as many names as an earlier list and a combination. */
  lemma {:induction false} ExtendSized(combs: seq<seq<string>>, cs: seq<seq<string>>, n: int, m: int)
    requires Sized(combs, n) && (combs == [] ==> n == 0) && Sized(cs, m)
    ensures Sized(Extend(combs, cs), n + m)
    decreases |cs|
  {
    if cs != [] {
      assert cs[0] in cs;
      RowShape(combs, cs[0], n);
      assert Sized(cs[1..], m) by {
        forall xs | xs in cs[1..] ensures xs in cs { }
      }
      ExtendSized(combs, cs[1..], n, m);
      SizedAppend(Row(combs, cs[0]), Extend(combs, cs[1..]), n + m);
    }
  }

  /** A level draws its entries from the earlier lists and the combinations. */
  lemma {:induction false} ExtendOver(combs: seq<seq<string>>, cs: seq<seq<string>>, ok: string -> bool)
    requires Over(combs, ok) && Over(cs, ok)
    ensures Over(Extend(combs, cs), ok)
    decreases |cs|
  {
    if cs != [] {
      assert cs[0] in cs;
      RowOver(combs, cs[0], ok);
      assert Over(cs[1..], ok) by {
        forall xs, y | xs in cs[1..] && y in xs ensures ok(y) {
          assert xs in cs;
        }
      }
      ExtendOver(combs, cs[1..], ok);
      OverAppend(Row(combs, cs[0]), Extend(combs, cs[1..]), ok);
    }
  }

  lemma {:induction false} BinomialPositive(n: nat, k: nat)
    requires k <= n
    ensures Binomial(n, k) >= 1
  {
    if k > 0 {
      BinomialPositive(n - 1, k - 1);
    }
  }

  /** The combinations of one input's copies are lists of `cap` copy names. */
  lemma CopyCombsSized(share: string, d: nat, cap: nat)
    ensures Sized(Combinations(CopyNames(share, d), cap), cap)
  {
    var names := CopyNames(share, d);
    var cs := Combinations(names, cap);
    forall xs | xs in cs ensures |xs| == cap {
      var i :| 0 <= i < |cs| && cs[i] == xs;
      CombinationsShape(names, cap, i);
    }
  }

  /** Every name in the combinations of one input's copies passes `ok` when every copy
      name does. */
  lemma CopyCombsOver(share: string, d: nat, cap: nat, ok: string -> bool)
    requires forall j :: 0 <= j < d ==> ok(share + "_" + CText.Digits(j))
    ensures Over(Combinations(CopyNames(share, d), cap), ok)
  {
    var names := CopyNames(share, d);
    var cs := Combinations(names, cap);
    forall xs, y | xs in cs && y in xs ensures ok(y) {
      var i :| 0 <= i < |cs| && cs[i] == xs;
      CombinationsShape(names, cap, i);
    }
  }

  /** A copy name of an input from `idx` on. */
  ghost predicate IsCopy(inputs: seq<string>, d: nat, idx: nat, x: string)
  {
    exists b, j :: idx <= b < |inputs| && 0 <= j < d && x == inputs[b] + "_" + CText.Digits(j)
  }

  /** One level of `get_input_comb_rec`: the lists from `idx + 1` on, extended by the
      combinations of the copies of input `idx`. */
  lemma InputCombsStep(inputs: seq<string>, nbDup: int, idx: nat)
    requires nbDup >= 1 && idx < |inputs|
    ensures 0 <= Bound(nbDup) <= FaultNames.Loops(nbDup)
    ensures InputCombs(inputs, nbDup, idx + 1).Ok?
    ensures InputCombs(inputs, nbDup, idx)
            == Ok(Extend(InputCombs(inputs, nbDup, idx + 1).value,
                         Combinations(CopyNames(inputs[idx], FaultNames.Loops(nbDup)), Bound(nbDup))))
  {
  }

  /** With at least one copy, `get_input_comb_rec(idx)` succeeds and gives
      C(d, cap)^(n - idx) lists. */
  lemma {:induction false} InputCombsCount(inputs: seq<string>, nbDup: int, idx: nat)
    requires nbDup >= 1 && idx < |inputs|
    ensures InputCombs(inputs, nbDup, idx).Ok?
    ensures |InputCombs(inputs, nbDup, idx).value|
            == Power(Binomial(FaultNames.Loops(nbDup), Bound(nbDup)), |inputs| - idx)
    decreases |inputs| - idx
  {
    var d, cap := FaultNames.Loops(nbDup), Bound(nbDup);
    InputCombsStep(inputs, nbDup, idx);
    var combs := InputCombs(inputs, nbDup, idx + 1).value;
    var cs := Combinations(CopyNames(inputs[idx], d), cap);
    var b, e := Binomial(d, cap), |inputs| - idx;
    CombinationsCount(CopyNames(inputs[idx], d), cap);
    var prev := Power(b, e - 1);
    if idx + 1 < |inputs| {
      InputCombsCount(inputs, nbDup, idx + 1);
      InputCombsNonEmpty(inputs, nbDup, idx + 1);
    } else {
      assert combs == [];
    }
    ExtendCount(combs, cs, prev);
    PowerStep(|Extend(combs, cs)|, prev, b, e);
  }

  /** `ExtendLength` with the number of earlier lists given as `p`. */
  lemma ExtendCount(combs: seq<seq<string>>, cs: seq<seq<string>>, p: nat)
    requires p == if combs == [] then 1 else |combs|
    ensures |Extend(combs, cs)| == |cs| * p
  {
    ExtendLength(combs, cs);
  }

  lemma PowerStep(n: nat, prev: nat, b: nat, e: nat)
    requires e >= 1 && prev == Power(b, e - 1) && n == b * prev
    ensures n == Power(b, e)
  {
  }

  /** Each list of `get_input_comb_rec(idx)` faults `cap` copies of every input from
      `idx` on. */
  lemma InputCombsSized(inputs: seq<string>, nbDup: int, idx: nat)
    requires nbDup >= 1 && idx < |inputs|
    ensures InputCombs(inputs, nbDup, idx).Ok?
    ensures Sized(InputCombs(inputs, nbDup, idx).value, (|inputs| - idx) * Bound(nbDup))
  {
    SizedFrom(inputs, nbDup, idx, (|inputs| - idx) * Bound(nbDup));
  }

  /** `InputCombsSized` with the list size given as `size`. */
  lemma {:induction false} SizedFrom(inputs: seq<string>, nbDup: int, idx: nat, size: int)
    requires nbDup >= 1 && idx < |inputs| && size == (|inputs| - idx) * Bound(nbDup)
    ensures InputCombs(inputs, nbDup, idx).Ok?
    ensures Sized(InputCombs(inputs, nbDup, idx).value, size)
    decreases |inputs| - idx
  {
    var d, cap := FaultNames.Loops(nbDup), Bound(nbDup);
    var combs := InputCombs(inputs, nbDup, idx + 1).value;
    var cs := Combinations(CopyNames(inputs[idx], d), cap);
    var rest := size - cap;
    assert rest == (|inputs| - (idx + 1)) * cap by {
      MulSucc(|inputs| - (idx + 1), cap);
    }
    if idx + 1 < |inputs| {
      SizedFrom(inputs, nbDup, idx + 1, rest);
      InputCombsNonEmpty(inputs, nbDup, idx + 1);
    } else {
      assert combs == [] && rest == 0;
    }
    InputCombsStep(inputs, nbDup, idx);
    CopyCombsSized(inputs[idx], d, cap);
    ExtendSized(combs, cs, rest, cap);
  }

  /** With at least one copy, `get_input_comb_rec(idx)` gives at least one list. */
  lemma InputCombsNonEmpty(inputs: seq<string>, nbDup: int, idx: nat)
    requires nbDup >= 1 && idx < |inputs|
    ensures InputCombs(inputs, nbDup, idx).Ok? && InputCombs(inputs, nbDup, idx).value != []
  {
    var d, cap := FaultNames.Loops(nbDup), Bound(nbDup);
    InputCombsStep(inputs, nbDup, idx);
    var combs := InputCombs(inputs, nbDup, idx + 1).value;
    var cs := Combinations(CopyNames(inputs[idx], d), cap);
    CombinationsCount(CopyNames(inputs[idx], d), cap);
    BinomialPositive(d, cap);
    ExtendNonEmpty(combs, cs);
  }

  /** A level with at least one combination has at least one list. */
  lemma ExtendNonEmpty(combs: seq<seq<string>>, cs: seq<seq<string>>)
    requires cs != []
    ensures Extend(combs, cs) != []
  {
    assert |Row(combs, cs[0])| >= 1;
  }

  lemma MulSucc(n: int, cap: int)
    ensures n * cap + cap == (n + 1) * cap
  {
  }

  /** Every entry of `get_input_comb_rec(idx)` is a copy of an input from `idx` on. */
  lemma {:induction false} InputCombsOver(inputs: seq<string>, nbDup: int, idx: nat)
    requires nbDup >= 1 && idx < |inputs|
    ensures InputCombs(inputs, nbDup, idx).Ok?
    ensures Over(InputCombs(inputs, nbDup, idx).value, CopyOf(inputs, FaultNames.Loops(nbDup), idx))
    decreases |inputs| - idx
  {
    var d, cap := FaultNames.Loops(nbDup), Bound(nbDup);
    InputCombsStep(inputs, nbDup, idx);
    var ok := CopyOf(inputs, d, idx);
    var combs := InputCombs(inputs, nbDup, idx + 1).value;
    CopyNamesOver(inputs, d, idx);
    CopyCombsOver(inputs[idx], d, cap, ok);
    var cs := Combinations(CopyNames(inputs[idx], d), cap);
    if idx + 1 < |inputs| {
      InputCombsOver(inputs, nbDup, idx + 1);
      CopiesWiden(combs, inputs, d, idx);
    }
    ExtendOver(combs, cs, ok);
  }

  /** `IsCopy` as a test on names. */
  ghost function CopyOf(inputs: seq<string>, d: nat, idx: nat): string -> bool
  {
    x => IsCopy(inputs, d, idx, x)
  }

  /** The copy names of the input at `idx`. */
  lemma CopyNamesOver(inputs: seq<string>, d: nat, idx: nat)
    requires idx < |inputs|
    ensures forall j :: 0 <= j < d ==> CopyOf(inputs, d, idx)(inputs[idx] + "_" + CText.Digits(j))
  {
    forall j | 0 <= j < d ensures IsCopy(inputs, d, idx, inputs[idx] + "_" + CText.Digits(j)) { }
  }

  /** A copy of an input from `idx + 1` on is a copy of an input from `idx` on. */
  lemma CopiesWiden(xss: seq<seq<string>>, inputs: seq<string>, d: nat, idx: nat)
    requires Over(xss, CopyOf(inputs, d, idx + 1))
    ensures Over(xss, CopyOf(inputs, d, idx))
  {
    forall xs, x | xs in xss && x in xs ensures IsCopy(inputs, d, idx, x) {
      assert CopyOf(inputs, d, idx + 1)(x);
    }
  }

  /** The names `get_uncorrected_faulty_combs` draws faults from: every equation
      destination, the random variables, and the output destinations. */
  function Universe(c: Circuit): (names: seq<string>)
    ensures |names| == |c.eqs| + |c.randoms| + |c.eqsOutputs|
    ensures forall x :: x in names <==> x in Dsts(c.eqs) || x in c.randoms || x in Dsts(c.eqsOutputs)
  {
    Dsts(c.eqs) + c.randoms + Dsts(c.eqsOutputs)
  }

  /** The combinations of 1 to `k` names, by increasing size. */
  function CombsUpTo(names: seq<string>, k: int): (r: seq<seq<string>>)
    decreases if k < 0 then 0 else k
  {
    if k < 1 then [] else CombsUpTo(names, k - 1) + Combinations(names, k)
  }

  /** Every combination the scan visits has 1 to `k` faults, all drawn from the names. */
  lemma {:induction false} CombsUpToShape(names: seq<string>, k: int, xs: seq<string>)
    requires xs in CombsUpTo(names, k)
    ensures 1 <= |xs| <= k && forall x :: x in xs ==> x in names
    decreases if k < 0 then 0 else k
  {
    var a := CombsUpTo(names, k - 1);
    if xs in a {
      CombsUpToShape(names, k - 1, xs);
    } else {
      var cs := Combinations(names, k);
      assert xs in cs;
      var i :| 0 <= i < |cs| && cs[i] == xs;
      CombinationsShape(names, k, i);
    }
  }

  /** The random variables among the faulted names, in order (`comb_rands`). */
  function RandomFaults(comb: seq<string>, randoms: seq<string>): (r: seq<string>)
    ensures forall x :: x in r <==> x in comb && x in randoms
  {
    FilterMembers(comb, x => x in randoms);
    Filter(comb, x => x in randoms)
  }

  /** The reference outputs a combination is judged against: the outputs with only its
      random variables faulted, or the stored fault-free outputs when it faults none. */
  function Reference<V>(l: Loaded<V>, ring: Ring<V>, comb: seq<string>, isSet: bool): (r: Result<Dict<V>, Failure>)
    ensures r.Err? ==> RandomFaults(comb, l.circuit.randoms) != []
  {
    var rands := RandomFaults(comb, l.circuit.randoms);
    if |rands| > 0 then
      var e :- EvaluateCircuit(l.circuit, ring, rands, isSet);
      Ok(e.1)
    else Ok(l.outputs)
  }

  /** Taking the stored outputs when no random variable is faulted is a shortcut: the
      reference is always the evaluation with the combination's random variables
      faulted. */
  lemma ReferenceIsRandomsOnly<V>(l: Loaded<V>, ring: Ring<V>, comb: seq<string>, isSet: bool)
    requires Consistent(l, ring)
    ensures var e := EvaluateCircuit(l.circuit, ring, RandomFaults(comb, l.circuit.randoms), isSet);
            Reference(l, ring, comb, isSet) == if e.Ok? then Ok(e.value.1) else Err(e.error)
  {
    FaultFreeIgnoresSet(l.circuit, ring);
  }

  /** Whether the faults `prefix + comb` leave the outputs correctable, against the
      reference of `comb`. */
  function Verdict<V(==)>(l: Loaded<V>, ring: Ring<V>, prefix: seq<string>, comb: seq<string>, isSet: bool)
    : (r: Result<bool, Failure>)
    requires WellRead(l.circuit)
    ensures r.Ok? ==> (Reference(l, ring, comb, isSet).Ok? &&
              CanBeCorrected(l.circuit, ring, prefix + comb, isSet, Reference(l, ring, comb, isSet).value) == r)
    ensures r.Err? ==> r.error.NotFound?
  {
    var orig :- Reference(l, ring, comb, isSet);
    CanBeCorrected(l.circuit, ring, prefix + comb, isSet, orig)
  }

  /** Faults on random variables alone are always corrected when there is a copy: the
      reference then sees the same faults as the circuit. */
  lemma RandomsOnlyCorrected<V>(l: Loaded<V>, ring: Ring<V>, comb: seq<string>, isSet: bool)
    requires Consistent(l, ring) && l.circuit.nbShares > 0 && l.circuit.nbDup >= 1
    requires forall x :: x in comb ==> x in l.circuit.randoms
    requires EvaluateCircuit(l.circuit, ring, comb, isSet).Ok?
    ensures Verdict(l, ring, [], comb, isSet) == Ok(true)
  {
    var c := l.circuit;
    FilterAll(comb, x => x in c.randoms);
    ReferenceIsRandomsOnly(l, ring, comb, isSet);
    assert [] + comb == comb;
    SelfCorrectable(c, ring, comb, isSet);
  }

  lemma {:induction false} FilterAll(s: seq<string>, keep: string -> bool)
    requires forall x :: x in s ==> keep(x)
    ensures Filter(s, keep) == s
  {
    if s != [] {
      assert s[0] in s;
      forall x | x in s[1..] ensures keep(x) {
        assert x in s;
      }
      FilterAll(s[1..], keep);
    }
  }

  /** The combinations, in order and with their repeats, whose verdict is "cannot be
      corrected". */
  function Uncorrected<V(==)>(l: Loaded<V>, ring: Ring<V>, prefix: seq<string>, combs: seq<seq<string>>, isSet: bool)
    : (r: Result<seq<seq<string>>, Failure>)
    requires WellRead(l.circuit)
    ensures r.Ok? <==> Seqs.All(combs, Judged(l, ring, prefix, isSet))
    ensures r.Ok? ==> forall xs :: xs in r.value <==> xs in combs && Verdict(l, ring, prefix, xs, isSet) == Ok(false)
    ensures r.Ok? ==> |r.value| <= |combs|
  {
    var verdict := xs requires WellRead(l.circuit) => Verdict(l, ring, prefix, xs, isSet);
    var r := KeepRejected(combs, verdict);
    assert Seqs.All(combs, Judged(l, ring, prefix, isSet)) <==> forall i :: 0 <= i < |combs| ==> verdict(combs[i]).Ok?;
    r
  }

  /** The combinations, in order and with their repeats, on which `verdict` gives
      `Ok(false)`, or the first failure. */
  function KeepRejected<T(==,!new)>(combs: seq<T>, verdict: T --> Result<bool, Failure>): (r: Result<seq<T>, Failure>)
    requires forall x :: verdict.requires(x)
    ensures r.Ok? <==> forall i :: 0 <= i < |combs| ==> verdict(combs[i]).Ok?
    ensures r.Ok? ==> forall x :: x in r.value <==> x in combs && verdict(x) == Ok(false)
    ensures r.Ok? ==> |r.value| <= |combs|
  {
    if combs == [] then Ok([])
    else
      var v :- verdict(combs[0]);
      var rest :- KeepRejected(combs[1..], verdict);
      assert forall i :: 1 <= i < |combs| ==> combs[i] == combs[1..][i - 1];
      assert combs == [combs[0]] + combs[1..];
      Ok((if v then [] else [combs[0]]) + rest)
  }

  /** Whether a combination is judged "cannot be corrected". */
  ghost function Rejected<V>(l: Loaded<V>, ring: Ring<V>, prefix: seq<string>, isSet: bool): seq<string> -> bool
    requires WellRead(l.circuit)
  {
    comb => Verdict(l, ring, prefix, comb, isSet) == Ok(false)
  }

  /** The uncorrected combinations are the judged ones filtered by their verdict: the
      order of `combs` is kept and so is every repeat. */
  lemma {:induction false} UncorrectedIsFilter<V>(l: Loaded<V>, ring: Ring<V>, prefix: seq<string>,
                                                 combs: seq<seq<string>>, isSet: bool)
    requires WellRead(l.circuit)
    ensures Uncorrected(l, ring, prefix, combs, isSet).Ok? ==>
              Uncorrected(l, ring, prefix, combs, isSet).value == Seqs.Filter(combs, Rejected(l, ring, prefix, isSet))
    decreases |combs|
  {
    if combs != [] && Uncorrected(l, ring, prefix, combs, isSet).Ok? {
      UncorrectedIsFilter(l, ring, prefix, combs[1..], isSet);
      var v := Verdict(l, ring, prefix, combs[0], isSet);
      assert v.Ok?;
      assert Rejected(l, ring, prefix, isSet)(combs[0]) <==> !v.value;
    }
  }

  /** Whether a combination gets a verdict. */
  ghost function Judged<V>(l: Loaded<V>, ring: Ring<V>, prefix: seq<string>, isSet: bool): seq<string> -> bool
    requires WellRead(l.circuit)
  {
    comb => Verdict(l, ring, prefix, comb, isSet).Ok?
  }

  /** `f` applied to every element in order, stopping at the first failure. */
  function Each<A(!new), B>(f: A --> Result<B, Failure>, xs: seq<A>): (r: Result<seq<B>, Failure>)
    requires forall x :: f.requires(x)
    ensures r.Err? ==> exists t :: 0 <= t < |xs| && f(xs[t]) == Err(r.error)
    ensures r.Ok? ==> |r.value| == |xs| && forall t :: 0 <= t < |xs| ==> f(xs[t]) == Ok(r.value[t])
  {
    if xs == [] then Ok([])
    else
      var y :- f(xs[0]);
      var rest :- Each(f, xs[1..]);
      Ok([y] + rest)
  }

  /** The uncorrected combinations for every input prefix, in order. */
  function PerPrefix<V(==)>(l: Loaded<V>, ring: Ring<V>, prefixes: seq<seq<string>>, combs: seq<seq<string>>, isSet: bool)
    : (r: Result<seq<seq<seq<string>>>, Failure>)
    requires WellRead(l.circuit)
    ensures r.Err? ==> exists t :: 0 <= t < |prefixes| && Uncorrected(l, ring, prefixes[t], combs, isSet) == Err(r.error)
    ensures r.Ok? ==> |r.value| == |prefixes|
    ensures r.Ok? ==> forall t :: 0 <= t < |prefixes| ==> Uncorrected(l, ring, prefixes[t], combs, isSet) == Ok(r.value[t])
  {
    Each(p requires WellRead(l.circuit) => Uncorrected(l, ring, p, combs, isSet), prefixes)
  }

  /** The two shapes of the result: one list of combinations (CRP), or one list per
      input prefix (CRPC). */
  datatype Scenarios = Crp(combs: seq<seq<string>>) | Crpc(perPrefix: seq<seq<seq<string>>>)

  /** `get_uncorrected_faulty_combs(k, property, set)`: the number of fault names, and the
      combinations of 1 to `k` faults that cannot be corrected. `crpc` is `property ==
      "CRPC"`; any other `property` takes the CRP branch. */
  function UncorrectedFaultyCombs<V(==)>(l: Loaded<V>, ring: Ring<V>, k: int, crpc: bool, isSet: bool)
    : (r: Result<(int, Scenarios), Failure>)
    requires WellRead(l.circuit)
    ensures r.Ok? ==> r.value.0 == |l.circuit.eqs| + |l.circuit.randoms| + |l.circuit.eqsOutputs|
    ensures r.Ok? ==> r.value.1.Crpc? == crpc
    ensures r.Ok? && !crpc ==> forall xs :: xs in r.value.1.combs <==>
              && xs in CombsUpTo(Universe(l.circuit), k)
              && Verdict(l, ring, [], xs, isSet) == Ok(false)
    ensures r.Ok? && crpc ==> var prefixes := InputCombs(l.circuit.inputs, l.circuit.nbDup, 0);
              && prefixes.Ok? && |r.value.1.perPrefix| == |prefixes.value|
              && forall t, xs :: 0 <= t < |prefixes.value| ==>
                   (xs in r.value.1.perPrefix[t] <==>
                      xs in CombsUpTo(Universe(l.circuit), k)
                      && Verdict(l, ring, prefixes.value[t], xs, isSet) == Ok(false))
    ensures crpc && l.circuit.inputs != [] && l.circuit.nbDup < 1 ==> r == Err(ValueError)
  {
    var names := Universe(l.circuit);
    var combs := CombsUpTo(names, k);
    if crpc then
      var prefixes :- InputCombs(l.circuit.inputs, l.circuit.nbDup, 0);
      var scs :- PerPrefix(l, ring, prefixes, combs, isSet);
      Ok((|names|, Crpc(scs)))
    else
      var sc :- Uncorrected(l, ring, [], combs, isSet);
      Ok((|names|, Crp(sc)))
  }
}

=== FILE: py_read.dfy ===
/** `read_input_circuit` of src/testing_correction.py from the parsed header on: the
    share names and the two duplicate tables, the equations of the body, the extraction
    of the output equations, and the fault-free evaluation `testing_correction.py` keeps. */
module PyRead {
  import opened Results
  import opened PyCircuit
  import CText
  import FaultNames

  /** The header lines of a circuit file once split: `nb_shares`, `nb_duplications`,
      and the names that follow the keyword on the input, random and output lines. */
  datatype Header = Header(nbShares: int, nbDup: int, inputNames: seq<string>,
                           randoms: seq<string>, outputNames: seq<string>)

  /** `inputs`: share `i` of every input, input by input. */
  function ShareNames(names: seq<string>, shares: nat): seq<string>
  {
    if names == [] then [] else seq(shares, i requires 0 <= i < shares => CText.ShareName(names[0], i)) + ShareNames(names[1..], shares)
  }

  /** One name per share of every input. */
  lemma {:induction false} ShareNamesLength(names: seq<string>, shares: nat)
    ensures |ShareNames(names, shares)| == |names| * shares
  {
    if names != [] {
      ShareNamesLength(names[1..], shares);
      FaultNames.Succ(|names| - 1, shares);
    }
  }

  /** The entries a table of duplicates receives, in loop order: copy `j` of share `i`
      of every name, keyed `"%s%d_%d"`, with the value `val` gives the name and share. */
  function Entries<W>(names: seq<string>, shares: nat, d: nat, val: (string, nat) -> W): seq<(string, W)>
  {
    if names == [] then [] else EntriesFrom(names[0], 0, shares, d, val) + Entries(names[1..], shares, d, val)
  }

  function EntriesFrom<W>(key: string, i: nat, shares: nat, d: nat, val: (string, nat) -> W): seq<(string, W)>
    requires i <= shares
    decreases shares - i
  {
    if i == shares then []
    else seq(d, j requires 0 <= j < d => (CText.DupName(key, i, j), val(key, i))) + EntriesFrom(key, i + 1, shares, d, val)
  }

  /** Every copy of every share of every name gets an entry. */
  lemma {:induction false} EntriesHave<W>(names: seq<string>, shares: nat, d: nat, val: (string, nat) -> W,
                                          b: nat, i: nat, j: nat)
    requires b < |names| && i < shares && j < d
    ensures (CText.DupName(names[b], i, j), val(names[b], i)) in Entries(names, shares, d, val)
    decreases b
  {
    if b == 0 {
      EntriesFromHave(names[0], 0, shares, d, val, i, j);
    } else {
      EntriesHave(names[1..], shares, d, val, b - 1, i, j);
    }
  }

  lemma {:induction false} EntriesFromHave<W>(key: string, i0: nat, shares: nat, d: nat, val: (string, nat) -> W,
                                              i: nat, j: nat)
    requires i0 <= i < shares && j < d
    ensures (CText.DupName(key, i, j), val(key, i)) in EntriesFrom(key, i0, shares, d, val)
    decreases i - i0
  {
    var head := seq(d, j requires 0 <= j < d => (CText.DupName(key, i0, j), val(key, i0)));
    if i == i0 {
      assert head[j] == (CText.DupName(key, i, j), val(key, i));
    } else {
      EntriesFromHave(key, i0 + 1, shares, d, val, i, j);
    }
  }

  /** Every entry is the copy of some share of some name. */
  lemma {:induction false} EntriesAre<W>(names: seq<string>, shares: nat, d: nat, val: (string, nat) -> W,
                                         p: (string, W))
    requires p in Entries(names, shares, d, val)
    ensures exists b, i, j :: 0 <= b < |names| && 0 <= i < shares && 0 <= j < d &&
              p == (CText.DupName(names[b], i, j), val(names[b], i))
    decreases |names|
  {
    if p in EntriesFrom(names[0], 0, shares, d, val) {
      EntriesFromAre(names[0], 0, shares, d, val, p);
      var i, j :| 0 <= i < shares && 0 <= j < d && p == (CText.DupName(names[0], i, j), val(names[0], i));
      assert p == (CText.DupName(names[0], i, j), val(names[0], i));
    } else {
      EntriesAre(names[1..], shares, d, val, p);
      var b, i, j :| 0 <= b < |names[1..]| && 0 <= i < shares && 0 <= j < d &&
                     p == (CText.DupName(names[1..][b], i, j), val(names[1..][b], i));
      assert names[1..][b] == names[b + 1];
    }
  }

  lemma {:induction false} EntriesFromAre<W>(key: string, i0: nat, shares: nat, d: nat, val: (string, nat) -> W,
                                             p: (string, W))
    requires i0 <= shares && p in EntriesFrom(key, i0, shares, d, val)
    ensures exists i, j :: i0 <= i < shares && 0 <= j < d && p == (CText.DupName(key, i, j), val(key, i))
    decreases shares - i0
  {
    var head := seq(d, j requires 0 <= j < d => (CText.DupName(key, i0, j), val(key, i0)));
    if p in head {
      var j :| 0 <= j < d && head[j] == p;
      assert p == (CText.DupName(key, i0, j), val(key, i0));
    } else {
      EntriesFromAre(key, i0 + 1, shares, d, val, p);
    }
  }

  /** The keys of a list of entries, in order. */
  function KeysOf<W>(entries: seq<(string, W)>): (ks: seq<string>)
    ensures |ks| == |entries| && forall t :: 0 <= t < |entries| ==> ks[t] == entries[t].0
  {
    if entries == [] then [] else [entries[0].0] + KeysOf(entries[1..])
  }

  /** A dict filled by `d[k] = v` for the entries in order; a later entry for the same
      key replaces an earlier one. */
  function Assign<W>(m: map<string, W>, entries: seq<(string, W)>): (r: map<string, W>)
    ensures forall k :: k in r <==> k in m || k in KeysOf(entries)
    decreases |entries|
  {
    if entries == [] then m else Assign(m[entries[0].0 := entries[0].1], entries[1..])
  }

  /** A property every entry and every initial binding has holds of every binding of the
      filled dict. */
  lemma {:induction false} AssignKeeps<W>(m: map<string, W>, entries: seq<(string, W)>, ok: (string, W) -> bool)
    requires forall k :: k in m ==> ok(k, m[k])
    requires forall p :: p in entries ==> ok(p.0, p.1)
    ensures forall k :: k in Assign(m, entries) ==> ok(k, Assign(m, entries)[k])
    decreases |entries|
  {
    if entries != [] {
      assert entries[0] in entries;
      AssignKeeps(m[entries[0].0 := entries[0].1], entries[1..], ok);
    }
  }

  /** The name before the last `_` of a key (the whole key when there is none). */
  function Cut(k: string): string
  {
    if k == [] then []
    else if k[|k| - 1] == '_' then k[..|k| - 1]
    else Cut(k[..|k| - 1])
  }

  /** The share name of a duplicate name is what comes before its last `_`. */
  lemma {:induction false} CutDup(v: string, t: string)
    requires '_' !in t
    ensures Cut(v + "_" + t) == v
    decreases |t|
  {
    var k := v + "_" + t;
    if t == [] {
      assert k[..|k| - 1] == v;
    } else {
      assert k[|k| - 1] == t[|t| - 1];
      assert k[..|k| - 1] == v + "_" + t[..|t| - 1];
      CutDup(v, t[..|t| - 1]);
    }
  }

  lemma CutDupName(a: string, i: nat, j: nat)
    ensures Cut(CText.DupName(a, i, j)) == CText.ShareName(a, i)
  {
    assert '_' !in CText.Digits(j);
    assert CText.DupName(a, i, j) == CText.ShareName(a, i) + "_" + CText.Digits(j);
    CutDup(CText.ShareName(a, i), CText.Digits(j));
  }

  function ShareOf(a: string, i: nat): string
  {
    CText.ShareName(a, i)
  }

  function IndexOf(a: string, i: nat): int
  {
    i
  }

  /** `input_name_from_duplicate`. */
  function DupTable(names: seq<string>, shares: nat, d: nat): map<string, string>
  {
    Assign(map[], Entries(names, shares, d, ShareOf))
  }

  /** `output_idx_from_duplicate`. */
  function ShareTable(names: seq<string>, shares: nat, d: nat): map<string, int>
  {
    Assign(map[], Entries(names, shares, d, IndexOf))
  }

  /** `input_name_from_duplicate` maps copy `j` of share `i` of input `a` to the share
      name, and every key it has to the part before its last `_`. */
  lemma DupTableMeaning(names: seq<string>, shares: nat, d: nat)
    ensures forall k :: k in DupTable(names, shares, d) ==> DupTable(names, shares, d)[k] == Cut(k)
    ensures forall b, i, j :: 0 <= b < |names| && 0 <= i < shares && 0 <= j < d ==>
              CText.DupName(names[b], i, j) in DupTable(names, shares, d) &&
              DupTable(names, shares, d)[CText.DupName(names[b], i, j)] == CText.ShareName(names[b], i)
  {
    var es := Entries(names, shares, d, ShareOf);
    forall p | p in es ensures p.1 == Cut(p.0) {
      EntriesAre(names, shares, d, ShareOf, p);
      var b, i, j :| 0 <= b < |names| && 0 <= i < shares && 0 <= j < d &&
                     p == (CText.DupName(names[b], i, j), ShareOf(names[b], i));
      CutDupName(names[b], i, j);
    }
    AssignKeeps(map[], es, (k, v) => v == Cut(k));
    forall b, i, j | 0 <= b < |names| && 0 <= i < shares && 0 <= j < d
      ensures CText.DupName(names[b], i, j) in DupTable(names, shares, d)
    {
      EntriesHave(names, shares, d, ShareOf, b, i, j);
      var t :| 0 <= t < |es| && es[t] == (CText.DupName(names[b], i, j), ShareOf(names[b], i));
      assert KeysOf(es)[t] == CText.DupName(names[b], i, j);
    }
    forall b, i, j | 0 <= b < |names| && 0 <= i < shares && 0 <= j < d
      ensures Cut(CText.DupName(names[b], i, j)) == CText.ShareName(names[b], i)
    {
      CutDupName(names[b], i, j);
    }
  }

  /** Every share index of `output_idx_from_duplicate` is one of the shares. */
  lemma ShareTableRange(names: seq<string>, shares: nat, d: nat)
    ensures forall k :: k in ShareTable(names, shares, d) ==> 0 <= ShareTable(names, shares, d)[k] < shares
  {
    var es := Entries(names, shares, d, IndexOf);
    forall p | p in es ensures 0 <= p.1 < shares {
      EntriesAre(names, shares, d, IndexOf, p);
    }
    AssignKeeps(map[], es, (k, v) => 0 <= v < shares);
  }

  predicate Descending(idx: seq<nat>)
  {
    forall s, t :: 0 <= s < t < |idx| ==> idx[s] > idx[t]
  }

  /** The first loop of the extraction: the equations are walked from the last one, and
      a position is taken when its destination is still among the expanded output names,
      using that name up. `n` equations remain to be walked. */
  function OutputIdx(eqs: seq<Equation>, n: nat, pool: multiset<string>): (idx: seq<nat>)
    requires n <= |eqs|
    decreases n
  {
    if n == 0 then []
    else if eqs[n - 1].dst in pool then [n - 1] + OutputIdx(eqs, n - 1, pool - multiset{eqs[n - 1].dst})
    else OutputIdx(eqs, n - 1, pool)
  }

  /** The positions taken are walked positions whose names were in the pool, in
      descending order. */
  lemma {:induction false} OutputIdxShape(eqs: seq<Equation>, n: nat, pool: multiset<string>)
    requires n <= |eqs|
    ensures var idx := OutputIdx(eqs, n, pool);
            && (forall t :: 0 <= t < |idx| ==> idx[t] < n && eqs[idx[t]].dst in pool)
            && Descending(idx)
    decreases n
  {
    if n > 0 {
      var q := eqs[n - 1].dst;
      if q in pool {
        var tail := OutputIdx(eqs, n - 1, pool - multiset{q});
        OutputIdxShape(eqs, n - 1, pool - multiset{q});
        var idx := [n - 1] + tail;
        assert OutputIdx(eqs, n, pool) == idx;
        forall t | 0 <= t < |idx| ensures idx[t] < n && eqs[idx[t]].dst in pool {
          if t > 0 {
            assert idx[t] == tail[t - 1];
          }
        }
        forall s, t | 0 <= s < t < |idx| ensures idx[s] > idx[t] {
          assert idx[t] == tail[t - 1];
          if s > 0 {
            assert idx[s] == tail[s - 1];
          }
        }
      } else {
        OutputIdxShape(eqs, n - 1, pool);
      }
    }
  }

  /** The number of equations in positions `lo .. hi - 1` that define `o`. */
  function Defs(eqs: seq<Equation>, lo: nat, hi: nat, o: string): nat
    requires hi <= |eqs|
    decreases hi
  {
    if hi <= lo then 0 else Defs(eqs, lo, hi - 1, o) + (if eqs[hi - 1].dst == o then 1 else 0)
  }

  /** A position not yet walked is not taken. */
  lemma NotWalked(eqs: seq<Equation>, n: nat, pool: multiset<string>, x: nat)
    requires n <= |eqs| && n <= x
    ensures x !in OutputIdx(eqs, n, pool)
  {
    OutputIdxShape(eqs, n, pool);
  }

  /** Which equations move: the one at `i` does exactly when fewer equations after it
      define the same name than there are copies of that name among the output names.
      With every output name listed once, that is the last equation defining it. */
  lemma {:induction false} ExtractionChoice(eqs: seq<Equation>, n: nat, pool: multiset<string>, i: nat)
    requires i < n <= |eqs|
    ensures i in OutputIdx(eqs, n, pool) <==> Defs(eqs, i + 1, n, eqs[i].dst) < pool[eqs[i].dst]
    decreases n
  {
    if i == n - 1 {
      ChoiceLast(eqs, n, pool);
    } else {
      var left := Rest(eqs, n, pool);
      ExtractionChoice(eqs, n - 1, left, i);
      ChoiceStep(eqs, n, pool, i, left);
    }
  }

  /** The pool left for the equations before `n - 1` once that one has been looked at. */
  function Rest(eqs: seq<Equation>, n: nat, pool: multiset<string>): (left: multiset<string>)
    requires 0 < n <= |eqs|
    ensures left <= pool
  {
    if eqs[n - 1].dst in pool then pool - multiset{eqs[n - 1].dst} else pool
  }

  /** The last equation left is taken exactly when its name is still in the pool. */
  lemma ChoiceLast(eqs: seq<Equation>, n: nat, pool: multiset<string>)
    requires 0 < n <= |eqs|
    ensures n - 1 in OutputIdx(eqs, n, pool) <==> Defs(eqs, n, n, eqs[n - 1].dst) < pool[eqs[n - 1].dst]
  {
    var q := eqs[n - 1].dst;
    if q in pool {
      assert OutputIdx(eqs, n, pool)[0] == n - 1;
    } else {
      NotWalked(eqs, n - 1, pool, n - 1);
    }
  }

  /** The choice at `i` is the one made among the equations before `n - 1` with the
      pool that equation leaves. */
  lemma ChoiceStep(eqs: seq<Equation>, n: nat, pool: multiset<string>, i: nat, left: multiset<string>)
    requires i < n - 1 && n <= |eqs| && left == Rest(eqs, n, pool)
    requires i in OutputIdx(eqs, n - 1, left) <==> Defs(eqs, i + 1, n - 1, eqs[i].dst) < left[eqs[i].dst]
    ensures i in OutputIdx(eqs, n, pool) <==> Defs(eqs, i + 1, n, eqs[i].dst) < pool[eqs[i].dst]
  {
    if eqs[n - 1].dst in pool {
      ChoiceTaken(eqs, n, pool, i);
    } else {
      ChoiceSkipped(eqs, n, pool, i);
    }
  }

  /** When the last equation is taken, the choice at `i` is the one made among the
      earlier equations with its name used up once. */
  lemma ChoiceTaken(eqs: seq<Equation>, n: nat, pool: multiset<string>, i: nat)
    requires i < n - 1 && n <= |eqs| && eqs[n - 1].dst in pool
    requires var pool' := pool - multiset{eqs[n - 1].dst};
             i in OutputIdx(eqs, n - 1, pool') <==> Defs(eqs, i + 1, n - 1, eqs[i].dst) < pool'[eqs[i].dst]
    ensures i in OutputIdx(eqs, n, pool) <==> Defs(eqs, i + 1, n, eqs[i].dst) < pool[eqs[i].dst]
  {
  }

  /** When the last equation is not taken, the choice at `i` is the one made among the
      earlier equations with the same pool. */
  lemma ChoiceSkipped(eqs: seq<Equation>, n: nat, pool: multiset<string>, i: nat)
    requires i < n - 1 && n <= |eqs| && eqs[n - 1].dst !in pool
    requires i in OutputIdx(eqs, n - 1, pool) <==> Defs(eqs, i + 1, n - 1, eqs[i].dst) < pool[eqs[i].dst]
    ensures i in OutputIdx(eqs, n, pool) <==> Defs(eqs, i + 1, n, eqs[i].dst) < pool[eqs[i].dst]
  {
  }

  /** `eqs.pop(i)` for every position of `idx` in turn: the list left and the popped
      equations in popping order. */
  function PopAll(xs: seq<Equation>, idx: seq<nat>): (r: (seq<Equation>, seq<Equation>))
    requires Descending(idx) && forall t :: 0 <= t < |idx| ==> idx[t] < |xs|
    ensures |r.1| == |idx| && forall t :: 0 <= t < |idx| ==> r.1[t] == xs[idx[t]]
    ensures r.0 == KeptFrom(xs, idx, |xs|)
    decreases |idx|
  {
    if idx == [] then
      KeptAll(xs, |xs|);
      (xs, [])
    else
      var i := idx[0];
      var rest := xs[..i] + xs[i + 1..];
      PopTail(xs, idx);
      var r := PopAll(rest, idx[1..]);
      KeptAfterPop(xs, idx, |xs|);
      (r.0, [xs[i]] + r.1)
  }

  /** After the first pop, the remaining positions still point at the same equations
      of the shorter list. */
  lemma PopTail(xs: seq<Equation>, idx: seq<nat>)
    requires Descending(idx) && idx != [] && forall t :: 0 <= t < |idx| ==> idx[t] < |xs|
    ensures var rest := xs[..idx[0]] + xs[idx[0] + 1..];
            && Descending(idx[1..])
            && forall t :: 0 <= t < |idx[1..]| ==> idx[1..][t] < |rest| && rest[idx[1..][t]] == xs[idx[t + 1]]
  {
    var rest := xs[..idx[0]] + xs[idx[0] + 1..];
    forall t | 0 <= t < |idx[1..]| ensures idx[1..][t] < |rest| && rest[idx[1..][t]] == xs[idx[t + 1]] {
      assert idx[1..][t] == idx[t + 1] < idx[0];
    }
  }

  /** The equations at the positions below `n` that are not in `idx`, in order. */
  function KeptFrom(xs: seq<Equation>, idx: seq<nat>, n: nat): seq<Equation>
    requires n <= |xs|
  {
    if n == 0 then [] else KeptFrom(xs, idx, n - 1) + (if n - 1 in idx then [] else [xs[n - 1]])
  }

  lemma {:induction false} KeptAll(xs: seq<Equation>, n: nat)
    requires n <= |xs|
    ensures KeptFrom(xs, [], n) == xs[..n]
  {
    if n > 0 {
      KeptAll(xs, n - 1);
      assert xs[..n] == xs[..n - 1] + [xs[n - 1]];
    }
  }

  /** Popping the largest position does not change which equations are kept. */
  lemma {:induction false} KeptAfterPop(xs: seq<Equation>, idx: seq<nat>, n: nat)
    requires Descending(idx) && idx != [] && idx[0] < |xs| && idx[0] < n <= |xs|
    ensures KeptFrom(xs[..idx[0]] + xs[idx[0] + 1..], idx[1..], n - 1) == KeptFrom(xs, idx, n)
    decreases n
  {
    var i := idx[0];
    var rest := xs[..i] + xs[i + 1..];
    if n == i + 1 {
      KeptBelow(xs, idx, i);
      assert i in idx;
    } else {
      KeptAfterPop(xs, idx, n - 1);
      assert rest[n - 2] == xs[n - 1];
      assert n - 2 !in idx[1..] by {
        forall t | 0 <= t < |idx[1..]| ensures idx[1..][t] != n - 2 {
          assert idx[1..][t] == idx[t + 1] < i;
        }
      }
      assert n - 1 !in idx by {
        forall t | 0 <= t < |idx| ensures idx[t] != n - 1 {
          if t > 0 {
            assert idx[t] < idx[0];
          }
        }
      }
    }
  }

  /** Below the popped position, the list and the kept positions are unchanged. */
  lemma {:induction false} KeptBelow(xs: seq<Equation>, idx: seq<nat>, m: nat)
    requires Descending(idx) && idx != [] && m <= idx[0] < |xs|
    ensures KeptFrom(xs[..idx[0]] + xs[idx[0] + 1..], idx[1..], m) == KeptFrom(xs, idx, m)
    decreases m
  {
    if m > 0 {
      KeptBelow(xs, idx, m - 1);
      KeptStep(xs, idx, xs[..idx[0]] + xs[idx[0] + 1..], m - 1);
    }
  }

  /** Position `p` below the popped one is kept by both or by neither. */
  lemma KeptStep(xs: seq<Equation>, idx: seq<nat>, rest: seq<Equation>, p: nat)
    requires Descending(idx) && idx != [] && p < idx[0] < |xs| && rest == xs[..idx[0]] + xs[idx[0] + 1..]
    ensures rest[p] == xs[p] && (p in idx[1..] <==> p in idx)
  {
    assert p != idx[0];
    if p in idx {
      var t :| 0 <= t < |idx| && idx[t] == p;
      assert idx[1..][t - 1] == p;
    }
  }

  /** The extraction of the output equations: the positions `OutputIdx` takes, popped
      in that (descending) order, and the other equations left in their order. */
  function ExtractOutputs(eqs: seq<Equation>, outputs: seq<string>): (r: (seq<Equation>, seq<Equation>))
    ensures var idx := OutputIdx(eqs, |eqs|, multiset(outputs));
            && |r.1| == |idx| && (forall t :: 0 <= t < |idx| ==> idx[t] < |eqs| && r.1[t] == eqs[idx[t]])
            && r.0 == KeptFrom(eqs, idx, |eqs|)
  {
    OutputIdxShape(eqs, |eqs|, multiset(outputs));
    PopAll(eqs, OutputIdx(eqs, |eqs|, multiset(outputs)))
  }

  /** A circuit as `read_input_circuit` leaves it, with the output values of its
      fault-free evaluation (`evaluate_outputs_over_R`). */
  datatype Loaded<V> = Loaded(circuit: Circuit, outputs: Dict<V>)

  /** The stored outputs are those of the fault-free evaluation, and the share indices
      are shares of the circuit. */
  ghost predicate Consistent<V>(l: Loaded<V>, ring: Ring<V>)
  {
    && WellRead(l.circuit)
    && EvaluateCircuit(l.circuit, ring, [], true).Ok?
    && EvaluateCircuit(l.circuit, ring, [], true).value.1 == l.outputs
  }

  /** The circuit `read_input_circuit` builds from a header and the parsed body: the
      share names of the inputs, the two lookup tables, and the output equations set
      apart from the others. */
  function Assemble(h: Header, eqs: seq<Equation>): (c: Circuit)
    ensures WellRead(c)
    ensures var shares, d := FaultNames.Loops(h.nbShares), FaultNames.Loops(h.nbDup);
            var x := ExtractOutputs(eqs, FaultNames.DupNames(h.outputNames, shares, d));
            && c.eqs == x.0 && c.eqsOutputs == x.1
            && c.dupInput == DupTable(h.inputNames, shares, d)
    ensures c.inputs == ShareNames(h.inputNames, FaultNames.Loops(h.nbShares))
    ensures c.randoms == h.randoms && c.nbShares == h.nbShares && c.nbDup == h.nbDup
  {
    var shares, d := FaultNames.Loops(h.nbShares), FaultNames.Loops(h.nbDup);
    var x := ExtractOutputs(eqs, FaultNames.DupNames(h.outputNames, shares, d));
    var table := ShareTable(h.outputNames, shares, d);
    ShareTableRange(h.outputNames, shares, d);
    Circuit(ShareNames(h.inputNames, shares), h.randoms, DupTable(h.inputNames, shares, d),
            x.0, x.1, h.nbShares, h.nbDup, table)
  }

  /** `read_input_circuit` once the header is split: only one output variable is
      supported; the body lines become equations, and the circuit is evaluated without
      faults. */
  function ReadCircuit<V>(h: Header, lines: seq<string>, ring: Ring<V>): (r: Result<Loaded<V>, Failure>)
    ensures |h.outputNames| != 1 ==> r == Err(AssertionFailed)
    ensures |h.outputNames| == 1 && ParseLines(lines).Err? ==> r == Err(ParseLines(lines).error)
    ensures r.Ok? ==> Consistent(r.value, ring)
    ensures r.Ok? ==> ParseLines(lines).Ok? && r.value.circuit == Assemble(h, ParseLines(lines).value)
  {
    if |h.outputNames| != 1 then Err(AssertionFailed)
    else
      var eqs :- ParseLines(lines);
      var c := Assemble(h, eqs);
      var e :- EvaluateCircuit(c, ring, [], true);
      Ok(Loaded(c, e.1))
  }

  /** In a circuit that was read, an unfaulted copy `j` of share `i` of an input that no
      equation redefines evaluates to the share variable `a{i}`. */
  lemma DuplicateIsShare<V>(h: Header, lines: seq<string>, ring: Ring<V>, faults: seq<string>, isSet: bool,
                            b: nat, i: nat, j: nat)
    requires ReadCircuit(h, lines, ring).Ok?
    requires b < |h.inputNames| && i < h.nbShares && j < h.nbDup
    requires var c := ReadCircuit(h, lines, ring).value.circuit;
             var v := CText.DupName(h.inputNames[b], i, j);
             v !in faults && v !in Dsts(c.eqs)
    ensures var c := ReadCircuit(h, lines, ring).value.circuit;
            var e := EvaluateCircuit(c, ring, faults, isSet);
            var v := CText.DupName(h.inputNames[b], i, j);
            e.Ok? ==> v in e.value.0 && e.value.0[v] == ring.ofName(CText.ShareName(h.inputNames[b], i))
  {
    var c := ReadCircuit(h, lines, ring).value.circuit;
    assert c == Assemble(h, ParseLines(lines).value);
    DupTableMeaning(h.inputNames, FaultNames.Loops(h.nbShares), FaultNames.Loops(h.nbDup));
    DuplicatesAreShares(c, ring, faults, isSet, CText.DupName(h.inputNames[b], i, j));
  }
}

=== FILE: py_text.dfy ===
/** The text handling of the Python correction tester, src/testing_correction.py: `str.split()`
    with no separator, and the filter `read_input_circuit` puts every line of the
    equation section through before it becomes an `Equation`. */
module PyText {
  import opened Results
  import Seqs

  /** `str.isspace` for one character. */
  predicate IsPySpace(c: char)
  {
    c == ' ' || '\t' <= c <= '\r' || '\U{1c}' <= c <= '\U{1f}' || c == '\U{85}' || c == '\U{a0}'
    || c == '\U{1680}' || '\U{2000}' <= c <= '\U{200a}' || c == '\U{2028}' || c == '\U{2029}'
    || c == '\U{202f}' || c == '\U{205f}' || c == '\U{3000}'
  }

  /** A token of `str.split()`: not empty, without whitespace. */
  predicate IsToken(t: string)
  {
    t != [] && forall k :: 0 <= k < |t| ==> !IsPySpace(t[k])
  }

  predicate AllTokens(ts: seq<string>)
  {
    forall t :: t in ts ==> IsToken(t)
  }

  /** The end of the token that starts at `i`: the first whitespace at or after `i`. */
  function TokenEnd(s: string, i: nat): (j: nat)
    requires i <= |s|
    ensures i <= j <= |s|
    ensures forall k :: i <= k < j ==> !IsPySpace(s[k])
    ensures j < |s| ==> IsPySpace(s[j])
    decreases |s| - i
  {
    if i == |s| || IsPySpace(s[i]) then i else TokenEnd(s, i + 1)
  }

  /** `s.split()`: the maximal runs of non-whitespace characters, in order. */
  function Split(s: string): (r: seq<string>)
    ensures AllTokens(r)
    decreases |s|
  {
    if s == [] then []
    else if IsPySpace(s[0]) then Split(s[1..])
    else
      var j := TokenEnd(s, 0);
      [s[..j]] + Split(s[j..])
  }

  /** `" ".join(ts)`. */
  function Join(ts: seq<string>): string
  {
    if ts == [] then [] else if |ts| == 1 then ts[0] else ts[0] + " " + Join(ts[1..])
  }

  function NotSpace(c: char): bool
  {
    !IsPySpace(c)
  }

  /** Splitting drops the whitespace and nothing else: the tokens, put back together,
      are the non-whitespace characters of the text in order. */
  lemma {:induction false} SplitKeepsText(s: string)
    ensures Seqs.Flatten(Split(s)) == Seqs.Filter(s, NotSpace)
    decreases |s|
  {
    if s != [] {
      if IsPySpace(s[0]) {
        SplitKeepsText(s[1..]);
      } else {
        var j := TokenEnd(s, 0);
        SplitKeepsText(s[j..]);
        assert s == s[..j] + s[j..];
        Seqs.FilterAppend(s[..j], s[j..], NotSpace);
        FilterNoSpace(s[..j]);
        assert Seqs.Flatten(Split(s)) == s[..j] + Seqs.Flatten(Split(s[j..]));
      }
    }
  }

  lemma {:induction false} FilterNoSpace(t: string)
    requires forall k :: 0 <= k < |t| ==> !IsPySpace(t[k])
    ensures Seqs.Filter(t, NotSpace) == t
    decreases |t|
  {
    if t != [] {
      FilterNoSpace(t[1..]);
      assert t == [t[0]] + t[1..];
    }
  }

  /** A token followed by nothing or by whitespace is split off whole. */
  lemma SplitToken(t: string, rest: string)
    requires IsToken(t)
    requires rest == [] || IsPySpace(rest[0])
    ensures Split(t + rest) == [t] + Split(rest)
  {
    var s := t + rest;
    TokenEndAt(s, 0, |t|);
    assert s[..|t|] == t && s[|t|..] == rest;
  }

  lemma {:induction false} TokenEndAt(s: string, i: nat, e: nat)
    requires i <= e <= |s|
    requires forall k :: i <= k < e ==> !IsPySpace(s[k])
    requires e == |s| || IsPySpace(s[e])
    ensures TokenEnd(s, i) == e
    decreases e - i
  {
    if i < e {
      TokenEndAt(s, i + 1, e);
    }
  }

  /** Splitting undoes joining with single spaces. */
  lemma {:induction false} SplitJoin(ts: seq<string>)
    requires AllTokens(ts)
    ensures Split(Join(ts)) == ts
    decreases |ts|
  {
    if |ts| == 1 {
      SplitToken(ts[0], []);
      assert ts[0] + [] == ts[0];
    } else if |ts| > 1 {
      var rest := Join(ts[1..]);
      SplitJoin(ts[1..]);
      assert (" " + rest)[0] == ' ';
      SplitToken(ts[0], " " + rest);
      assert ts[0] + " " + rest == ts[0] + (" " + rest);
      assert (" " + rest)[1..] == rest;
    }
  }

  /** Splitting is not disturbed by a trailing newline. */
  lemma {:induction false} SplitNewline(s: string)
    ensures Split(s + "\n") == Split(s)
    decreases |s|
  {
    if s == [] {
      assert Split("\n") == Split([]);
    } else {
      assert (s + "\n")[1..] == s[1..] + "\n";
      if IsPySpace(s[0]) {
        SplitNewline(s[1..]);
      } else {
        var j := TokenEnd(s, 0);
        TokenEndAt(s + "\n", 0, j);
        assert (s + "\n")[..j] == s[..j];
        assert (s + "\n")[j..] == s[j..] + "\n";
        SplitNewline(s[j..]);
      }
    }
  }

  /** The position of the first `x` in `xs`. */
  function FirstIndex(xs: seq<string>, x: string): (i: nat)
    requires x in xs
    ensures i < |xs| && xs[i] == x && x !in xs[..i]
  {
    if xs[0] == x then 0
    else
      var i := FirstIndex(xs[1..], x);
      assert xs[..i + 1] == [xs[0]] + xs[1..][..i];
      i + 1
  }

  /** `list.remove(x)`: the first `x` is dropped; `ValueError` when there is none. */
  function RemoveFirst(xs: seq<string>, x: string): (r: Result<seq<string>, Failure>)
    ensures r.Ok? <==> x in xs
    ensures r.Err? ==> r.error == ValueError
    ensures r.Ok? ==> multiset(r.value) + multiset{x} == multiset(xs)
  {
    if x in xs then
      var i := FirstIndex(xs, x);
      assert xs == xs[..i] + [x] + xs[i + 1..];
      Ok(xs[..i] + xs[i + 1..])
    else Err(ValueError)
  }

  /** Removing an item that follows a clean prefix cuts the list there. */
  lemma RemoveAfter(pre: seq<string>, x: string, post: seq<string>)
    requires x !in pre
    ensures RemoveFirst(pre + [x] + post, x) == Ok(pre + post)
  {
    var xs := pre + [x] + post;
    assert xs[..|pre|] == pre && xs[|pre|] == x;
    FirstIndexAt(xs, x, |pre|);
    assert xs[|pre| + 1..] == post;
  }

  lemma {:induction false} FirstIndexAt(xs: seq<string>, x: string, p: nat)
    requires p < |xs| && xs[p] == x && x !in xs[..p]
    ensures FirstIndex(xs, x) == p
    decreases p
  {
    if p > 0 {
      assert xs[0] != x by {
        assert xs[..p][0] == xs[0];
      }
      assert xs[1..][..p - 1] == xs[..p][1..];
      FirstIndexAt(xs[1..], x, p - 1);
    }
  }

  /** A line that `read_input_circuit` skips before splitting it. */
  predicate Blank(line: string)
  {
    line == "\n" || |line| == 0 || line[0] == '#'
  }

  /** The bracket condition that makes the line filter raise: `![` without a `]` after
      its removal, or nothing at all left once both are removed. */
  predicate BadBrackets(args: seq<string>)
  {
    "![" in args && ("]" !in args || |args| == 2)
  }

  /** `if "![" in args: args.remove("!["); args.remove("]")`. */
  function Unbracket(args: seq<string>): (r: Result<seq<string>, Failure>)
    requires AllTokens(args)
    ensures r.Err? <==> "![" in args && "]" !in args
    ensures r.Err? ==> r.error == ValueError
    ensures r.Ok? ==> AllTokens(r.value) && multiset(r.value) <= multiset(args)
    ensures r.Ok? && "![" in args ==> |r.value| + 2 == |args|
    ensures "![" !in args ==> r == Ok(args)
  {
    if "![" in args then
      var a := RemoveFirst(args, "![").value;
      Removed(a, args, "![", "]");
      var b :- RemoveFirst(a, "]");
      Removed(b, a, "]", "]");
      assert |b| + 1 == |a| && |a| + 1 == |args|;
      Ok(b)
    else Ok(args)
  }

  /** What is left after removing one `x` from `xs`. */
  lemma Removed(a: seq<string>, xs: seq<string>, x: string, y: string)
    requires multiset(a) + multiset{x} == multiset(xs)
    ensures |a| + 1 == |xs| && multiset(a) <= multiset(xs)
    ensures forall t :: t in a ==> t in xs
    ensures y != x ==> (y in a <==> y in xs)
  {
    assert |multiset(a)| + 1 == |multiset(xs)|;
    forall t | t in a ensures t in xs {
      assert t in multiset(a);
      assert t in multiset(xs);
    }
    if y != x {
      assert multiset(a)[y] == multiset(xs)[y];
    }
  }

  /** The tokens of one line of the equation section: `None` for a skipped line;
      otherwise the tokens without the first `![` and the first `]` (when there is an
      `![`) and without a last token that starts with `#`. */
  function LineTokens(line: string): (r: Result<Option<seq<string>>, Failure>)
    ensures r == Ok(None) <==> Blank(line) || Split(line) == []
    ensures r.Err? <==> !Blank(line) && BadBrackets(Split(line))
    ensures r.Ok? && r.value.Some? ==> AllTokens(r.value.value)
    ensures r.Ok? && r.value.Some? ==> multiset(r.value.value) <= multiset(Split(line))
  {
    if Blank(line) then Ok(None)
    else
      var args := Split(line);
      if args == [] then Ok(None)
      else
        var b :- Unbracket(args);
        DropComment(b)
  }

  /** `t[0] == c` on a non-empty token. */
  predicate StartsWith(t: string, c: char)
  {
    t != [] && t[0] == c
  }

  /** `if args[-1][0] == "#": args = args[:-1]`, with `IndexError` on an empty list. */
  function DropComment(args: seq<string>): (r: Result<Option<seq<string>>, Failure>)
    requires AllTokens(args)
    ensures r.Err? <==> args == []
    ensures r.Err? ==> r.error == IndexError
    ensures r.Ok? ==> r.value.Some? && AllTokens(r.value.value)
    ensures r.Ok? ==> multiset(r.value.value) <= multiset(args)
    ensures r.Ok? ==> |r.value.value| + 1 >= |args| && r.value.value <= args
  {
    if args == [] then Err(IndexError)
    else if StartsWith(args[|args| - 1], '#') then
      assert args == args[..|args| - 1] + [args[|args| - 1]];
      Ok(Some(args[..|args| - 1]))
    else Ok(Some(args))
  }

  /** The tokens a line of the equation section is meant to hold: neither bracket
      token, and neither the first nor the last token opens a comment. */
  predicate Clean(ts: seq<string>)
  {
    AllTokens(ts) && "![" !in ts && "]" !in ts && ts != []
    && !StartsWith(ts[0], '#') && !StartsWith(ts[|ts| - 1], '#')
  }

  /** A line written as its tokens joined by spaces, optionally followed by one
      `#` comment token, yields those tokens. */
  lemma LineOfTokens(ts: seq<string>, comment: seq<string>)
    requires Clean(ts)
    requires comment == [] || (|comment| == 1 && IsToken(comment[0]) && StartsWith(comment[0], '#'))
    ensures LineTokens(Join(ts + comment) + "\n") == Ok(Some(ts))
  {
    CommentDropped(ts, comment);
    JoinedLine(ts + comment);
  }

  /** The trailing comment token, if any, is what `DropComment` removes. */
  lemma CommentDropped(ts: seq<string>, comment: seq<string>)
    requires Clean(ts)
    requires comment == [] || (|comment| == 1 && IsToken(comment[0]) && StartsWith(comment[0], '#'))
    ensures AllTokens(ts + comment) && (ts + comment)[0] == ts[0] && "![" !in ts + comment
    ensures DropComment(ts + comment) == Ok(Some(ts))
  {
    var all := ts + comment;
    assert AllTokens(all);
    assert "![" !in all by {
      if comment != [] {
        assert comment[0][0] == '#';
      }
    }
    if comment != [] {
      assert all[..|all| - 1] == ts && all[|all| - 1] == comment[0];
    } else {
      assert all == ts;
    }
  }

  /** A line made of tokens joined by spaces: not skipped, and split back into them. */
  lemma JoinedLine(all: seq<string>)
    requires AllTokens(all) && all != [] && !StartsWith(all[0], '#')
    ensures !Blank(Join(all) + "\n") && Split(Join(all) + "\n") == all
    ensures "![" !in all ==> LineTokens(Join(all) + "\n") == DropComment(all)
  {
    var line := Join(all) + "\n";
    SplitNewline(Join(all));
    SplitJoin(all);
    JoinHead(all);
    assert line[0] == all[0][0];
    assert all[0] in all;
  }

  /** A line that wraps part of its tokens in `![ .. ]` yields the tokens without the
      two brackets. */
  lemma LineOfBracketed(pre: seq<string>, mid: seq<string>, post: seq<string>)
    requires Clean(pre + mid + post)
    requires pre != []
    ensures LineTokens(Join(pre + ["!["] + mid + ["]"] + post) + "\n") == Ok(Some(pre + mid + post))
  {
    var all := pre + ["!["] + mid + ["]"] + post;
    var ts := pre + mid + post;
    Pieces(pre, mid, post);
    assert all[0] == ts[0];
    JoinedLine(all);
    assert Unbracket(all) == Ok(ts) by {
      Unbracketed(pre, mid, post);
    }
    assert DropComment(ts) == Ok(Some(ts));
  }

  /** The bracketed line is made of tokens, and the brackets occur where written. */
  lemma Pieces(pre: seq<string>, mid: seq<string>, post: seq<string>)
    requires Clean(pre + mid + post)
    ensures AllTokens(pre + ["!["] + mid + ["]"] + post)
    ensures "![" !in pre && "]" !in pre + mid
  {
    var ts := pre + mid + post;
    var all := pre + ["!["] + mid + ["]"] + post;
    forall t | t in all ensures IsToken(t) {
      if t != "![" && t != "]" {
        assert t in ts;
      }
    }
    assert forall t :: t in pre + mid ==> t in ts;
  }

  /** Removing the two brackets of `pre ![ mid ] post`. */
  lemma Unbracketed(pre: seq<string>, mid: seq<string>, post: seq<string>)
    requires AllTokens(pre + ["!["] + mid + ["]"] + post)
    requires "![" !in pre && "]" !in pre + mid
    ensures Unbracket(pre + ["!["] + mid + ["]"] + post) == Ok(pre + mid + post)
  {
    var all := pre + ["!["] + mid + ["]"] + post;
    assert all == pre + ["!["] + (mid + ["]"] + post);
    assert all[|pre|] == "![";
    RemoveAfter(pre, "![", mid + ["]"] + post);
    var a := pre + (mid + ["]"] + post);
    assert a == (pre + mid) + ["]"] + post;
    RemoveAfter(pre + mid, "]", post);
    assert (pre + mid) + post == pre + mid + post;
  }

  /** A joined line starts with its first token. */
  lemma JoinHead(ts: seq<string>)
    requires AllTokens(ts) && ts != []
    ensures Join(ts) != [] && ts[0] != [] && Join(ts)[0] == ts[0][0]
  {
    assert ts[0] in ts;
    if |ts| > 1 {
      assert Join(ts) == ts[0] + (" " + Join(ts[1..]));
    }
  }
}

=== FILE: reorder.dfy ===
/** Moving the circuit outputs to the end of the wire list (the last part of
    `gen_circuit` in src/parser.c). The expanded output names form a multiset; the list is
    walked from its end, and a wire whose name is still in the multiset is moved behind
    the other wires, consuming one copy of the name. */
module Reorder {
  import opened Results
  import StrMaps

  /** The outcome of the walk: the wires left in place, the wires moved to the end (both
      in list order) and the names never matched. */
  datatype Split<T> = Split(kept: seq<T>, moved: seq<T>, left: multiset<string>)

  /** The reference definition of the walk, from the last element backwards. */
  function Partition<T>(xs: seq<T>, key: T -> string, pool: multiset<string>): (p: Split<T>)
    ensures |p.kept| + |p.moved| == |xs|
    decreases |xs|
  {
    if xs == [] then Split([], [], pool)
    else
      var x := xs[|xs| - 1];
      if key(x) in pool then
        var p := Partition(xs[..|xs| - 1], key, pool - multiset{key(x)});
        Split(p.kept, p.moved + [x], p.left)
      else
        var p := Partition(xs[..|xs| - 1], key, pool);
        Split(p.kept + [x], p.moved, p.left)
  }

  function Keys<T>(xs: seq<T>, key: T -> string): (ks: multiset<string>)
    ensures |ks| == |xs|
  {
    if xs == [] then multiset{} else Keys(xs[..|xs| - 1], key) + multiset{key(xs[|xs| - 1])}
  }

  /** The three facts the walk keeps, for one partition. */
  ghost predicate PartitionFacts<T>(xs: seq<T>, key: T -> string, pool: multiset<string>, p: Split<T>)
  {
    && multiset(p.kept) + multiset(p.moved) == multiset(xs)
    && Keys(p.moved, key) + p.left == pool
    && (forall k :: 0 <= k < |p.kept| ==> key(p.kept[k]) !in p.left)
  }

  /** The walk rearranges the wires without losing or adding any; the moved wires use up
      names of the multiset, and no kept wire has a name that is left over. */
  lemma {:induction false} PartitionMeaning<T>(xs: seq<T>, key: T -> string, pool: multiset<string>)
    ensures var p := Partition(xs, key, pool);
            && multiset(p.kept) + multiset(p.moved) == multiset(xs)
            && Keys(p.moved, key) + p.left == pool
            && (forall k :: 0 <= k < |p.kept| ==> key(p.kept[k]) !in p.left)
    decreases |xs|
  {
    if xs != [] {
      var x, init := xs[|xs| - 1], xs[..|xs| - 1];
      assert xs == init + [x];
      if key(x) in pool {
        var pool' := pool - multiset{key(x)};
        PartitionMeaning(init, key, pool');
        MovedFacts(init, x, key, pool, Partition(init, key, pool'));
      } else {
        PartitionMeaning(init, key, pool);
        KeptFacts(init, x, key, pool, Partition(init, key, pool));
      }
      assert PartitionFacts(xs, key, pool, Partition(xs, key, pool));
    }
  }

  /** The step of `PartitionMeaning` for a last element whose name is in the multiset. */
  lemma MovedFacts<T>(init: seq<T>, x: T, key: T -> string, pool: multiset<string>, p: Split<T>)
    requires key(x) in pool
    requires PartitionFacts(init, key, pool - multiset{key(x)}, p)
    ensures PartitionFacts(init + [x], key, pool, Split(p.kept, p.moved + [x], p.left))
  {
    MovedKeys(p.moved, x, key, pool - multiset{key(x)}, p.left);
    assert pool - multiset{key(x)} + multiset{key(x)} == pool;
    assert multiset(p.moved + [x]) == multiset(p.moved) + multiset{x};
    assert multiset(init + [x]) == multiset(init) + multiset{x};
  }

  /** Appending a wire whose name is consumed keeps the name count. */
  lemma MovedKeys<T>(moved: seq<T>, x: T, key: T -> string, pool': multiset<string>, left: multiset<string>)
    requires Keys(moved, key) + left == pool'
    ensures Keys(moved + [x], key) + left == pool' + multiset{key(x)}
  {
    assert (moved + [x])[..|moved|] == moved;
  }

  /** The step of `PartitionMeaning` for a last element whose name is not in the multiset. */
  lemma KeptFacts<T>(init: seq<T>, x: T, key: T -> string, pool: multiset<string>, p: Split<T>)
    requires key(x) !in pool
    requires PartitionFacts(init, key, pool, p)
    ensures PartitionFacts(init + [x], key, pool, Split(p.kept + [x], p.moved, p.left))
  {
    var kept := p.kept + [x];
    assert p.left <= pool by {
      assert Keys(p.moved, key) + p.left == pool;
    }
    forall k | 0 <= k < |kept| ensures key(kept[k]) !in p.left {
      if k == |p.kept| {
        assert kept[k] == x;
      } else {
        assert kept[k] == p.kept[k];
      }
    }
  }

  /** Unfolding of the walk at position `i`: the element there is looked at last. */
  lemma PartitionAt<T>(xs: seq<T>, key: T -> string, pool: multiset<string>, i: nat)
    requires i < |xs|
    ensures var x := xs[i];
            var p := Partition(xs[..i + 1], key, pool);
            if key(x) in pool then
              var q := Partition(xs[..i], key, pool - multiset{key(x)});
              p == Split(q.kept, q.moved + [x], q.left)
            else
              var q := Partition(xs[..i], key, pool);
              p == Split(q.kept + [x], q.moved, q.left)
  {
    assert xs[..i + 1][..i] == xs[..i];
  }

  /** The `SWAP_DEPS(j, j+1)` loop: the element at `i` travels to `end` and the ones in
      between shift left by one. */
  method ShiftToEnd<T>(a: seq<T>, i: nat, end: nat) returns (b: seq<T>)
    requires i <= end < |a|
    ensures b == a[..i] + a[i + 1..end + 1] + [a[i]] + a[end + 1..]
  {
    b := a;
    var j := i;
    while j < end
      invariant i <= j <= end
      invariant b == a[..i] + a[i + 1..j + 1] + [a[i]] + a[j + 1..]
    {
      b := b[j := b[j + 1]][j + 1 := b[j]];
      j := j + 1;
    }
  }

  /** The loop invariant of the walk: the prefix up to `i` is still to be visited with
      the names `pool` left, the wires in `(i, end]` stay in place, and the wires after
      `end` have been moved. */
  ghost predicate Walked<T>(xs: seq<T>, key: T -> string, pool0: multiset<string>, a: seq<T>, i: int, end: int,
                      pool: multiset<string>)
    requires -1 <= i <= end < |a| == |xs|
  {
    var q := Partition(xs[..i + 1], key, pool);
    Partition(xs, key, pool0) == Split(q.kept + a[i + 1..end + 1], q.moved + a[end + 1..], q.left)
  }

  /** Visiting an output at `i` moves it just before the wires already moved. */
  lemma MoveStep<T>(xs: seq<T>, key: T -> string, pool0: multiset<string>, a: seq<T>, i: nat, end: nat,
                    pool: multiset<string>)
    requires i < end < |a| == |xs| && a[..i + 1] == xs[..i + 1]
    requires Walked(xs, key, pool0, a, i, end, pool) && key(xs[i]) in pool
    ensures var b := a[..i] + a[i + 1..end + 1] + [a[i]] + a[end + 1..];
            |b| == |a| && b[..i] == xs[..i] && Walked(xs, key, pool0, b, i - 1, end - 1, pool - multiset{key(xs[i])})
  {
    PartitionAt(xs, key, pool, i);
    ShiftSlices(a, i, end);
    var b := a[..i] + a[i + 1..end + 1] + [a[i]] + a[end + 1..];
    var q := Partition(xs[..i], key, pool - multiset{key(xs[i])});
    assert a[i] == xs[i];
    assert q.moved + [a[i]] + a[end + 1..] == q.moved + b[end..];
    assert b[..i] == xs[..i];
  }

  /** The slices of the list after the element at `i` travelled to `end`. */
  lemma ShiftSlices<T>(a: seq<T>, i: nat, end: nat)
    requires i < end < |a|
    ensures var b := a[..i] + a[i + 1..end + 1] + [a[i]] + a[end + 1..];
            && |b| == |a| && b[..i] == a[..i] && b[i..end] == a[i + 1..end + 1]
            && b[end..] == [a[i]] + a[end + 1..]
  {
  }

  /** Visiting a wire that is not an output leaves it in place. */
  lemma KeepStep<T>(xs: seq<T>, key: T -> string, pool0: multiset<string>, a: seq<T>, i: nat, end: nat,
                    pool: multiset<string>)
    requires i <= end < |a| == |xs| && a[..i + 1] == xs[..i + 1]
    requires Walked(xs, key, pool0, a, i, end, pool) && key(xs[i]) !in pool
    ensures Walked(xs, key, pool0, a, i - 1, end, pool) && a[..i] == xs[..i]
  {
    PartitionAt(xs, key, pool, i);
    assert a[i] == xs[i];
    assert a[i..end + 1] == [a[i]] + a[i + 1..end + 1];
  }

  /** An output at the end of the unvisited part stays where it is. */
  lemma TrailStep<T>(xs: seq<T>, key: T -> string, pool0: multiset<string>, end: nat, pool: multiset<string>)
    requires end < |xs| && key(xs[0]) !in pool
    requires Walked(xs, key, pool0, xs, end, end, pool) && key(xs[end]) in pool
    ensures 0 < end
    ensures Walked(xs, key, pool0, xs, end - 1, end - 1, pool - multiset{key(xs[end])})
  {
    PartitionAt(xs, key, pool, end);
    assert xs[end..] == [xs[end]] + xs[end + 1..];
  }

  /** After the trailing outputs, the walk starts below `end` with nothing settled yet. */
  lemma WalkStart<T>(xs: seq<T>, key: T -> string, pool0: multiset<string>, end: nat, pool: multiset<string>)
    requires end < |xs| && key(xs[end]) !in pool
    requires Walked(xs, key, pool0, xs, end, end, pool)
    ensures Progress(xs, key, pool0, xs, end - 1, end, pool)
  {
    KeepStep(xs, key, pool0, xs, end, end, pool);
  }

  /** A finished walk: the list holds the kept wires followed by the moved ones. */
  lemma WalkDone<T>(xs: seq<T>, key: T -> string, pool0: multiset<string>, a: seq<T>, end: int,
                    pool: multiset<string>)
    requires -1 <= end < |a| == |xs|
    requires Walked(xs, key, pool0, a, -1, end, pool)
    ensures var p := Partition(xs, key, pool0);
            a == p.kept + p.moved && pool == p.left
  {
    assert xs[..0] == [];
    assert a == a[0..end + 1] + a[end + 1..];
  }

  /** The first loop of the walk: the outputs already at the end of the list stay
      there. */
  method TrailingOutputs<T>(xs: seq<T>, key: T -> string, outputs: StrMaps.StrMap)
      returns (end: nat, m: StrMaps.StrMap)
    requires |xs| > 0 && key(xs[0]) !in StrMaps.Keys(outputs)
    ensures end < |xs| && key(xs[end]) !in StrMaps.Keys(m)
    ensures Walked(xs, key, StrMaps.Keys(outputs), xs, end, end, StrMaps.Keys(m))
  {
    var pool0 := StrMaps.Keys(outputs);
    m := outputs;
    end := |xs| - 1;
    assert xs[..end + 1] == xs;
    while StrMaps.Contains(m, key(xs[end]))
      invariant end < |xs| && key(xs[0]) !in StrMaps.Keys(m)
      invariant Walked(xs, key, pool0, xs, end, end, StrMaps.Keys(m))
      decreases end
    {
      var k := key(xs[end]);
      StrMaps.ContainsIffKey(m, k);
      assert end > 0;
      StrMaps.RemoveKeys(m, k);
      TrailStep(xs, key, pool0, end, StrMaps.Keys(m));
      m := StrMaps.Remove(m, k);
      end := end - 1;
    }
    StrMaps.ContainsIffKey(m, key(xs[end]));
  }

  /** The wires in `(i, end]` are not outputs any more. */
  predicate Settled<T>(a: seq<T>, key: T -> string, lo: int, end: int, pool: multiset<string>)
    requires -1 <= lo && end < |a|
  {
    forall p :: lo < p <= end ==> key(a[p]) !in pool
  }

  /** Everything the walk keeps between visits: the unvisited prefix is untouched, the
      wires in `(i, end]` are settled and the split so far agrees with `Partition`. */
  ghost predicate Progress<T>(xs: seq<T>, key: T -> string, pool0: multiset<string>, a: seq<T>, i: int, end: int,
                              pool: multiset<string>)
    requires -1 <= i <= end < |a| == |xs|
  {
    a[..i + 1] == xs[..i + 1] && Settled(a, key, i, end, pool) && Walked(xs, key, pool0, a, i, end, pool)
  }

  /** One move of the walk: the output at `i` goes to `end` and its name is used up. */
  lemma MoveAll<T>(xs: seq<T>, key: T -> string, pool0: multiset<string>, a: seq<T>, i: nat, end: nat,
                   pool: multiset<string>, pool': multiset<string>)
    requires i < end < |a| == |xs| && Progress(xs, key, pool0, a, i, end, pool)
    requires key(a[i]) in pool && pool' == pool - multiset{key(a[i])}
    ensures var b := a[..i] + a[i + 1..end + 1] + [a[i]] + a[end + 1..];
            |b| == |a| && Progress(xs, key, pool0, b, i - 1, end - 1, pool')
  {
    assert a[i] == xs[i];
    MoveStep(xs, key, pool0, a, i, end, pool);
    var b := a[..i] + a[i + 1..end + 1] + [a[i]] + a[end + 1..];
    forall p | i - 1 < p <= end - 1 ensures key(b[p]) !in pool' {
      assert b[p] == a[p + 1];
      assert key(a[p + 1]) !in pool;
    }
    assert b[..i] == xs[..i];
  }

  /** One step of the walk past a wire that stays. */
  lemma KeepAll<T>(xs: seq<T>, key: T -> string, pool0: multiset<string>, a: seq<T>, i: nat, end: nat,
                   pool: multiset<string>)
    requires i < end < |a| == |xs| && Progress(xs, key, pool0, a, i, end, pool)
    requires key(a[i]) !in pool
    ensures Progress(xs, key, pool0, a, i - 1, end, pool)
  {
    assert a[i] == xs[i];
    KeepStep(xs, key, pool0, a, i, end, pool);
  }

  /** Moving the output at `i` to `end` (the `SWAP_DEPS` loop) and consuming its name. */
  method MoveOne<T>(xs: seq<T>, key: T -> string, ghost pool0: multiset<string>, a: seq<T>, i: nat, end: nat,
                    m: StrMaps.StrMap)
      returns (b: seq<T>, m': StrMaps.StrMap)
    requires i < end < |a| == |xs| && Progress(xs, key, pool0, a, i, end, StrMaps.Keys(m))
    requires key(a[i]) in StrMaps.Keys(m)
    ensures |b| == |xs| && Progress(xs, key, pool0, b, i - 1, end - 1, StrMaps.Keys(m'))
  {
    m' := StrMaps.Remove(m, key(a[i]));
    StrMaps.RemoveKeys(m, key(a[i]));
    MoveAll(xs, key, pool0, a, i, end, StrMaps.Keys(m), StrMaps.Keys(m'));
    b := ShiftToEnd(a, i, end);
  }

  /** Whether the name `k` still waits to be matched (the `str_map_contains` test). */
  method Pending(m: StrMaps.StrMap, k: string) returns (found: bool)
    ensures found <==> k in StrMaps.Keys(m)
  {
    StrMaps.ContainsIffKey(m, k);
    found := StrMaps.Contains(m, k);
  }

  /** One visit of the walk at index `i`: an output moves to `end`, any other wire stays.
      The inner `while` that follows a move in the C code never iterates, since the wire
      that slid into place was already checked. */
  method Visit<T>(xs: seq<T>, key: T -> string, ghost pool0: multiset<string>, a: seq<T>, i: nat, end: nat,
                  m: StrMaps.StrMap)
      returns (b: seq<T>, end': int, m': StrMaps.StrMap)
    requires i < end < |a| == |xs| && Progress(xs, key, pool0, a, i, end, StrMaps.Keys(m))
    ensures i <= end' <= end && |b| == |xs| && Progress(xs, key, pool0, b, i - 1, end', StrMaps.Keys(m'))
  {
    var pending := Pending(m, key(a[i]));
    if pending {
      b, end', m' := VisitOutput(xs, key, pool0, a, i, end, m);
    } else {
      b, end', m' := VisitOther(xs, key, pool0, a, i, end, m);
    }
  }

  /** A visit that finds an output: it moves to `end`, and `end` steps down. */
  method VisitOutput<T>(xs: seq<T>, key: T -> string, ghost pool0: multiset<string>, a: seq<T>, i: nat, end: nat,
                        m: StrMaps.StrMap)
      returns (b: seq<T>, end': int, m': StrMaps.StrMap)
    requires i < end < |a| == |xs| && Progress(xs, key, pool0, a, i, end, StrMaps.Keys(m))
    requires key(a[i]) in StrMaps.Keys(m)
    ensures i <= end' <= end && |b| == |xs| && Progress(xs, key, pool0, b, i - 1, end', StrMaps.Keys(m'))
  {
    b, m' := MoveOne(xs, key, pool0, a, i, end, m);
    end' := end - 1;
  }

  /** A visit that finds any other wire: nothing moves. */
  method VisitOther<T>(xs: seq<T>, key: T -> string, ghost pool0: multiset<string>, a: seq<T>, i: nat, end: nat,
                       m: StrMaps.StrMap)
      returns (b: seq<T>, end': int, m': StrMaps.StrMap)
    requires i < end < |a| == |xs| && Progress(xs, key, pool0, a, i, end, StrMaps.Keys(m))
    requires key(a[i]) !in StrMaps.Keys(m)
    ensures i <= end' <= end && |b| == |xs| && Progress(xs, key, pool0, b, i - 1, end', StrMaps.Keys(m'))
  {
    KeepAll(xs, key, pool0, a, i, end, StrMaps.Keys(m));
    b, end', m' := a, end, m;
  }

  /** The two loops of `gen_circuit` that move the outputs, over the wire records `xs`
      and the map `outputs` of expanded output names. The wire at index 0 is never an
      output (the C walk would otherwise read before the list). */
  method MoveOutputs<T>(xs: seq<T>, key: T -> string, outputs: StrMaps.StrMap)
      returns (ys: seq<T>, rest: StrMaps.StrMap)
    requires |xs| > 0 && key(xs[0]) !in StrMaps.Keys(outputs)
    ensures var p := Partition(xs, key, StrMaps.Keys(outputs));
            ys == p.kept + p.moved && StrMaps.Keys(rest) == p.left
  {
    ghost var pool0 := StrMaps.Keys(outputs);
    var end, m := TrailingOutputs(xs, key, outputs);
    WalkStart(xs, key, pool0, end, StrMaps.Keys(m));
    var a, end', m' := WalkBack(xs, key, pool0, end, m);
    WalkDone(xs, key, pool0, a, end', StrMaps.Keys(m'));
    ys, rest := a, m';
  }

  /** The second loop: the walk from just before the trailing outputs down to index 0. */
  method WalkBack<T>(xs: seq<T>, key: T -> string, ghost pool0: multiset<string>, end: nat, m: StrMaps.StrMap)
      returns (a: seq<T>, end': int, m': StrMaps.StrMap)
    requires end < |xs| && Progress(xs, key, pool0, xs, end - 1, end, StrMaps.Keys(m))
    ensures -1 <= end' < |a| == |xs| && Walked(xs, key, pool0, a, -1, end', StrMaps.Keys(m'))
  {
    a, end', m' := xs, end, m;
    var i: int := end - 1;
    while i >= 0
      invariant -1 <= i < end' < |a| == |xs|
      invariant Progress(xs, key, pool0, a, i, end', StrMaps.Keys(m'))
      decreases i
    {
      a, end', m' := Visit(xs, key, pool0, a, i, end', m');
      i := i - 1;
    }
  }
}

=== FILE: results.dfy ===
/** Failure-compatible result type shared by every module, and the fatal conditions of
    the C tool (each one ends the process with `exit(EXIT_FAILURE)` or an `assert`). */
module Results {

  datatype Option<+T> = None | Some(value: T)

  datatype Result<+T, +E> = Ok(value: T) | Err(error: E) {

    predicate IsFailure() {
      Err?
    }

    function PropagateFailure<U>(): Result<U, E>
      requires Err?
    {
      Err(error)
    }

    function Extract(): T
      requires Ok?
    {
      value
    }
  }

  /** The fatal exits of the C sources, and the exceptions of the Python correction tester. */
  datatype Failure =
    | NotFound(key: string, mapName: string)       // str_map_get / dep_map_get
    | VariableExpectedAfterNot                     // parse_expr, `~` followed by nothing
    | OperatorExpected(got: char)                  // parse_expr, unknown operator
    | InvalidLine                                  // parse_eq_str, no `=`
    | UnmatchedBracket                             // parse_eq_str, `![` without `]`
    | EmptyEquationList                            // reverse_eq_list on an empty list
    | EmptyMap(mapName: string)                    // reverse_str_map on an empty map
    | MultiplicativeDepth(dst: string)             // gen_circuit, depth > 1
    | TooManyOutputs                               // compute_CRPC, more than one output
    | AssertionFailed                              // a failing C `assert`
    | Exited                                       // an unconditional `exit(EXIT_FAILURE)`
    | ValueError                                   // Python: `list.remove` of a missing item,
                                                   // `itertools.combinations` with a negative size
    | IndexError                                   // Python: indexing past the end of a list
}

=== FILE: seqs.dfy ===
/** Sequence utilities shared by the C and the Python parts of the model. */
module Seqs {

  /** The reversal of `s`, stated element by element. */
  function Reverse<T>(s: seq<T>): (r: seq<T>)
    ensures |r| == |s|
    ensures forall i :: 0 <= i < |s| ==> r[i] == s[|s| - 1 - i]
  {
    if s == [] then [] else Reverse(s[1..]) + [s[0]]
  }

  /** The recursive helper behind `reverse_str_map` / `reverse_eq_list`: reverses the
      list starting at `xs[0]` and hangs `acc` (the previous cell) behind it. The C helper
      dereferences its first argument, so the list must not be empty. */
  function ReverseOnto<T>(xs: seq<T>, acc: seq<T>): seq<T>
    requires |xs| > 0
    decreases |xs|
  {
    if |xs| == 1 then [xs[0]] + acc
    else ReverseOnto(xs[1..], [xs[0]] + acc)
  }

  /** The C in-place reversal computes exactly the reversed list. */
  lemma {:induction false} ReverseOntoIsReverse<T>(xs: seq<T>, acc: seq<T>)
    requires |xs| > 0
    ensures ReverseOnto(xs, acc) == Reverse(xs) + acc
    decreases |xs|
  {
    if |xs| == 1 {
      assert Reverse(xs) == [xs[0]];
    } else {
      ReverseOntoIsReverse(xs[1..], [xs[0]] + acc);
      assert Reverse(xs) == Reverse(xs[1..]) + [xs[0]];
    }
  }

  /** Reversing twice gives the original sequence back. */
  lemma ReverseReverse<T>(s: seq<T>)
    ensures Reverse(Reverse(s)) == s
  {
    var r := Reverse(Reverse(s));
    assert forall i :: 0 <= i < |s| ==> r[i] == s[i];
  }

  /** Number of occurrences of `x` in `s`. */
  function Count<T(==)>(s: seq<T>, x: T): (n: nat)
    ensures n <= |s|
    ensures n == 0 <==> x !in s
  {
    if s == [] then 0 else (if s[0] == x then 1 else 0) + Count(s[1..], x)
  }

  lemma {:induction false} CountAppend<T>(a: seq<T>, b: seq<T>, x: T)
    ensures Count(a + b, x) == Count(a, x) + Count(b, x)
    decreases |a|
  {
    if a == [] {
      assert a + b == b;
    } else {
      CountAppend(a[1..], b, x);
      assert (a + b)[1..] == a[1..] + b;
    }
  }

  /** Keeps the elements whose key satisfies `keep`, in order. */
  function Filter<T>(s: seq<T>, keep: T -> bool): (r: seq<T>)
    ensures |r| <= |s|
  {
    if s == [] then []
    else (if keep(s[0]) then [s[0]] else []) + Filter(s[1..], keep)
  }

  /** `Filter` keeps exactly the elements that pass the test. */
  lemma {:induction false} FilterMembers<T>(s: seq<T>, keep: T -> bool)
    ensures forall x :: x in Filter(s, keep) <==> x in s && keep(x)
    decreases |s|
  {
    if s != [] {
      FilterMembers(s[1..], keep);
      assert s == [s[0]] + s[1..];
    }
  }

  lemma {:induction false} FilterAppend<T>(a: seq<T>, b: seq<T>, keep: T -> bool)
    ensures Filter(a + b, keep) == Filter(a, keep) + Filter(b, keep)
    decreases |a|
  {
    if a == [] {
      assert a + b == b;
    } else {
      var x, rest := a[0], a[1..];
      FilterAppend(rest, b, keep);
      assert a == [x] + rest && a + b == [x] + (rest + b);
      FilterCons(x, rest + b, keep);
      FilterCons(x, rest, keep);
    }
  }

  /** One step of `Filter` on a list with a known head. */
  lemma FilterCons<T>(x: T, s: seq<T>, keep: T -> bool)
    ensures Filter([x] + s, keep) == (if keep(x) then [x] else []) + Filter(s, keep)
  {
    assert ([x] + s)[0] == x && ([x] + s)[1..] == s;
  }

  /** `p` holds for every element. */
  predicate All<T>(s: seq<T>, p: T -> bool)
  {
    forall i :: 0 <= i < |s| ==> p(s[i])
  }

  lemma AllCons<T>(s: seq<T>, p: T -> bool)
    requires s != []
    ensures All(s, p) <==> p(s[0]) && All(s[1..], p)
  {
    assert forall i :: 0 <= i < |s[1..]| ==> s[1..][i] == s[i + 1];
  }

  /** 0, 1, ..., n-1. */
  function Range(n: nat): (r: seq<nat>)
    ensures |r| == n
    ensures forall i :: 0 <= i < n ==> r[i] == i
  {
    if n == 0 then [] else Range(n - 1) + [n - 1]
  }

  function Binomial(n: nat, k: nat): nat
  {
    if k == 0 then 1
    else if n == 0 then 0
    else Binomial(n - 1, k - 1) + Binomial(n - 1, k)
  }

  function Power(b: nat, e: nat): nat
  {
    if e == 0 then 1 else b * Power(b, e - 1)
  }

  /** The `r`-element sub-sequences of `xs`, in the order of Python's
      `itertools.combinations` (lexicographic in the positions). */
  function Combinations<T>(xs: seq<T>, r: nat): seq<seq<T>>
    decreases |xs|
  {
    if r == 0 then [[]]
    else if |xs| < r then []
    else Prepend(xs[0], Combinations(xs[1..], r - 1)) + Combinations(xs[1..], r)
  }

  function Prepend<T>(x: T, css: seq<seq<T>>): (r: seq<seq<T>>)
    ensures |r| == |css|
    ensures forall i :: 0 <= i < |css| ==> r[i] == [x] + css[i]
  {
    if css == [] then [] else [[x] + css[0]] + Prepend(x, css[1..])
  }

  lemma BinomialSmall(n: nat, k: nat)
    requires n < k
    ensures Binomial(n, k) == 0
  {
  }

  /** There are C(|xs|, r) combinations. */
  lemma {:induction false} CombinationsCount<T>(xs: seq<T>, r: nat)
    ensures |Combinations(xs, r)| == Binomial(|xs|, r)
    decreases |xs|
  {
    if r == 0 || |xs| < r {
      CountBase(xs, r);
    } else {
      var tail := xs[1..];
      CombinationsCount(tail, r - 1);
      CombinationsCount(tail, r);
      CountStep(xs, r, tail);
    }
  }

  lemma CountBase<T>(xs: seq<T>, r: nat)
    requires r == 0 || |xs| < r
    ensures |Combinations(xs, r)| == Binomial(|xs|, r)
  {
    if r != 0 {
      BinomialSmall(|xs|, r);
    }
  }

  /** Pascal's rule, as the two halves of the combinations of a non-empty sequence. */
  lemma CountStep<T>(xs: seq<T>, r: nat, tail: seq<T>)
    requires 0 < r <= |xs| && tail == xs[1..]
    requires |Combinations(tail, r - 1)| == Binomial(|tail|, r - 1)
    requires |Combinations(tail, r)| == Binomial(|tail|, r)
    ensures |Combinations(xs, r)| == Binomial(|xs|, r)
  {
    var a, b := Prepend(xs[0], Combinations(tail, r - 1)), Combinations(tail, r);
    assert Combinations(xs, r) == a + b;
  }

  /** Every combination has length r and is drawn from xs. */
  lemma {:induction false} CombinationsShape<T>(xs: seq<T>, r: nat, i: nat)
    requires i < |Combinations(xs, r)|
    ensures |Combinations(xs, r)[i]| == r
    ensures forall x :: x in Combinations(xs, r)[i] ==> x in xs
    decreases |xs|
  {
    var c := Combinations(xs, r)[i];
    if r == 0 {
      assert c == [];
    } else {
      var tail := xs[1..];
      var a, b := Prepend(xs[0], Combinations(tail, r - 1)), Combinations(tail, r);
      assert Combinations(xs, r) == a + b;
      assert forall x :: x in tail ==> x in xs by {
        assert xs == [xs[0]] + tail;
      }
      if i < |a| {
        var c' := Combinations(tail, r - 1)[i];
        assert |c'| == r - 1 && forall x :: x in c' ==> x in tail by {
          CombinationsShape(tail, r - 1, i);
        }
        assert c == [xs[0]] + c';
      } else {
        var c' := b[i - |a|];
        assert |c'| == r && forall x :: x in c' ==> x in tail by {
          CombinationsShape(tail, r, i - |a|);
        }
        assert c == c';
      }
    }
  }

  /** Concatenation of a sequence of sequences. */
  function Flatten<T>(xss: seq<seq<T>>): seq<T>
  {
    if xss == [] then [] else xss[0] + Flatten(xss[1..])
  }
}

=== FILE: str_maps.dfy ===
/** The association-list map `StrMap` of src/parser.c: a singly linked list of
    (key, value) cells with a counter `next_val`. Element 0 of `entries` is the head of the
    C list. */
module StrMaps {
  import opened Results
  import Seqs

  datatype Entry = Entry(key: string, val: int)

  datatype StrMap = StrMap(name: string, entries: seq<Entry>, nextVal: int)

  /** `make_str_map`. */
  function Make(name: string): StrMap
  {
    StrMap(name, [], 0)
  }

  /** The keys of the map, head first. */
  function KeySeq(es: seq<Entry>): (ks: seq<string>)
    ensures |ks| == |es|
    ensures forall i :: 0 <= i < |es| ==> ks[i] == es[i].key
  {
    if es == [] then [] else [es[0].key] + KeySeq(es[1..])
  }

  /** The keys of the map with their multiplicity. */
  function Keys(m: StrMap): multiset<string>
  {
    multiset(KeySeq(m.entries))
  }

  /** A map whose counter agrees with its number of cells, as every map filled only by
      `str_map_add` is. */
  predicate Counted(m: StrMap)
  {
    m.nextVal == |m.entries|
  }

  /** `str_map_add_with_val`: the new cell becomes the head. */
  function AddWithVal(m: StrMap, key: string, val: int): (r: StrMap)
    ensures r.entries == [Entry(key, val)] + m.entries
    ensures r.name == m.name && r.nextVal == m.nextVal
  {
    m.(entries := [Entry(key, val)] + m.entries)
  }

  /** `str_map_add`: the key receives the current counter, which is then incremented. */
  function Add(m: StrMap, key: string): (r: StrMap)
    ensures r.entries == [Entry(key, m.nextVal)] + m.entries
    ensures r.nextVal == m.nextVal + 1 && r.name == m.name
    ensures Counted(m) ==> Counted(r)
  {
    AddWithVal(m, key, m.nextVal).(nextVal := m.nextVal + 1)
  }

  /** Position of the first cell at or after `i` whose key is `key` (the list walk
      shared by `str_map_get`, `str_map_contains` and `str_map_remove`). */
  function FindFrom(es: seq<Entry>, key: string, i: nat): (r: Option<nat>)
    requires i <= |es|
    ensures r.Some? ==> i <= r.value < |es| && es[r.value].key == key
    ensures r.Some? ==> forall j :: i <= j < r.value ==> es[j].key != key
    ensures r.None? ==> forall j :: i <= j < |es| ==> es[j].key != key
    decreases |es| - i
  {
    if i == |es| then None
    else if es[i].key == key then Some(i)
    else FindFrom(es, key, i + 1)
  }

  /** `str_map_contains`. */
  predicate Contains(m: StrMap, key: string)
  {
    FindFrom(m.entries, key, 0).Some?
  }

  lemma ContainsIffKey(m: StrMap, key: string)
    ensures Contains(m, key) <==> key in Keys(m)
  {
    var ks := KeySeq(m.entries);
    if key in Keys(m) {
      assert key in ks;
      var j :| 0 <= j < |ks| && ks[j] == key;
      assert m.entries[j].key == key;
    }
  }

  /** `str_map_get`: the value of the first (most recently added) cell with that key; a
      missing key is fatal. */
  function Get(m: StrMap, key: string): (r: Result<int, Failure>)
    ensures r.Ok? <==> Contains(m, key)
    ensures r.Err? ==> r.error == NotFound(key, m.name)
    ensures r.Ok? ==> exists k :: 0 <= k < |m.entries| && m.entries[k] == Entry(key, r.value)
                                  && forall j :: 0 <= j < k ==> m.entries[j].key != key
  {
    match FindFrom(m.entries, key, 0)
    case Some(k) =>
      assert m.entries[k] == Entry(key, m.entries[k].val);
      Ok(m.entries[k].val)
    case None => Err(NotFound(key, m.name))
  }

  /** `str_map_remove`: unlinks the first cell with that key only; no-op if absent. */
  function Remove(m: StrMap, key: string): (r: StrMap)
    ensures r.name == m.name && r.nextVal == m.nextVal
  {
    match FindFrom(m.entries, key, 0)
    case Some(k) => m.(entries := m.entries[..k] + m.entries[k + 1..])
    case None => m
  }

  /** Removal takes exactly one copy of a present key out of the key multiset. */
  lemma RemoveKeys(m: StrMap, key: string)
    ensures Keys(Remove(m, key)) == Keys(m) - multiset{key}
    ensures Contains(m, key) ==> |Remove(m, key).entries| == |m.entries| - 1
  {
    var f := FindFrom(m.entries, key, 0);
    if f.Some? {
      CutKeys(m.entries, f.value);
    } else {
      ContainsIffKey(m, key);
      assert key !in Keys(m);
    }
  }

  /** Cutting one cell out of a cell list takes its key out of the key multiset once. */
  lemma CutKeys(es: seq<Entry>, k: nat)
    requires k < |es|
    ensures multiset(KeySeq(es[..k] + es[k + 1..])) == multiset(KeySeq(es)) - multiset{es[k].key}
  {
    var ka, kb := KeySeq(es[..k]), KeySeq(es[k + 1..]);
    KeySeqCut(es, k);
    MultisetCut(ka, es[k].key, kb);
  }

  /** The keys of a cell list around its cell `k`, with and without that cell. */
  lemma {:induction false} KeySeqCut(es: seq<Entry>, k: nat)
    requires k < |es|
    ensures KeySeq(es) == KeySeq(es[..k]) + [es[k].key] + KeySeq(es[k + 1..])
    ensures KeySeq(es[..k] + es[k + 1..]) == KeySeq(es[..k]) + KeySeq(es[k + 1..])
  {
    var l, r := KeySeq(es), KeySeq(es[..k]) + [es[k].key] + KeySeq(es[k + 1..]);
    assert |l| == |r|;
    forall i | 0 <= i < |l| ensures l[i] == r[i] {
      if i < k { assert r[i] == es[..k][i].key; }
      else if i > k { assert r[i] == es[k + 1..][i - k - 1].key; }
    }
    KeySeqAppend(es[..k], es[k + 1..]);
  }

  lemma MultisetCut<T>(a: seq<T>, x: T, b: seq<T>)
    ensures multiset(a + b) == multiset(a + [x] + b) - multiset{x}
  {
    assert multiset(a + [x] + b) == multiset(a) + multiset{x} + multiset(b);
  }

  lemma {:induction false} KeySeqAppend(a: seq<Entry>, b: seq<Entry>)
    ensures KeySeq(a + b) == KeySeq(a) + KeySeq(b)
  {
    var l := KeySeq(a + b);
    var r := KeySeq(a) + KeySeq(b);
    assert |l| == |r|;
    forall i | 0 <= i < |l| ensures l[i] == r[i] {
      if i < |a| { assert (a + b)[i] == a[i]; } else { assert (a + b)[i] == b[i - |a|]; }
    }
  }

  /** The removed cell is the first match, and every other cell keeps its order. */
  lemma RemoveFirstOnly(m: StrMap, key: string, k: nat)
    requires k < |m.entries| && m.entries[k].key == key
    requires forall j :: 0 <= j < k ==> m.entries[j].key != key
    ensures Remove(m, key).entries == m.entries[..k] + m.entries[k + 1..]
  {
    var f := FindFrom(m.entries, key, 0);
    assert f.Some?;
    assert f.value == k;
  }

  /** `reverse_str_map` through the recursive `_reverse_str_map(head, NULL)`. The C code
      reads `e->next` of the head, so an empty map (a NULL head) is the failure
      `EmptyMap`. */
  function ReverseMap(m: StrMap): (r: Result<StrMap, Failure>)
    ensures r.Err? <==> m.entries == []
    ensures r.Err? ==> r.error == EmptyMap(m.name)
    ensures r.Ok? ==> r.value.name == m.name && r.value.nextVal == m.nextVal
    ensures r.Ok? ==> r.value.entries == Seqs.Reverse(m.entries)
  {
    if m.entries == [] then Err(EmptyMap(m.name))
    else
      Seqs.ReverseOntoIsReverse(m.entries, []);
      Ok(m.(entries := Seqs.ReverseOnto(m.entries, [])))
  }

  /** `str_map_add` applied to each key in turn (the body of `parse_idents`). */
  function AddAll(m: StrMap, keys: seq<string>): (r: StrMap)
    ensures |r.entries| == |m.entries| + |keys|
    decreases |keys|
  {
    if keys == [] then m else AddAll(Add(m, keys[0]), keys[1..])
  }

  /** Adding keys one by one stacks them head-first with consecutive values. */
  lemma {:induction false} AddAllEntries(m: StrMap, keys: seq<string>)
    ensures AddAll(m, keys).nextVal == m.nextVal + |keys|
    ensures AddAll(m, keys).entries ==
            Seqs.Reverse(Numbered(keys, m.nextVal)) + m.entries
    decreases |keys|
  {
    if keys != [] {
      var m1 := Add(m, keys[0]);
      AddAllEntries(m1, keys[1..]);
      var tail := Numbered(keys[1..], m.nextVal + 1);
      assert Numbered(keys, m.nextVal) == [Entry(keys[0], m.nextVal)] + tail;
      ReverseAppendSingle([Entry(keys[0], m.nextVal)], tail);
    }
  }

  lemma ReverseAppendSingle<T>(a: seq<T>, b: seq<T>)
    ensures Seqs.Reverse(a + b) == Seqs.Reverse(b) + Seqs.Reverse(a)
  {
    var l := Seqs.Reverse(a + b);
    var r := Seqs.Reverse(b) + Seqs.Reverse(a);
    assert |l| == |r|;
    forall i | 0 <= i < |l| ensures l[i] == r[i] {
      if i < |b| {
        assert l[i] == (a + b)[|a| + |b| - 1 - i];
      } else {
        assert l[i] == (a + b)[|a| + |b| - 1 - i];
      }
    }
  }

  /** Keys paired with consecutive values starting at `start`. */
  function Numbered(keys: seq<string>, start: int): (r: seq<Entry>)
    ensures |r| == |keys|
    ensures forall i :: 0 <= i < |keys| ==> r[i] == Entry(keys[i], start + i)
  {
    if keys == [] then [] else [Entry(keys[0], start)] + Numbered(keys[1..], start + 1)
  }

  /** Filling a fresh map with `str_map_add` and then reversing it (what `parse_file`
      does with the `in`, `randoms` and `out` maps) leaves the keys in source order,
      numbered from 0. A header line without identifiers leaves the map empty, and the
      reversal fails. */
  lemma ParseThenReverse(name: string, keys: seq<string>)
    ensures keys == [] ==> ReverseMap(AddAll(Make(name), keys)) == Err(EmptyMap(name))
    ensures keys != [] ==> ReverseMap(AddAll(Make(name), keys)).Ok?
    ensures keys != [] ==> ReverseMap(AddAll(Make(name), keys)).value.entries == Numbered(keys, 0)
    ensures keys != [] ==> Counted(ReverseMap(AddAll(Make(name), keys)).value)
  {
    var n := Numbered(keys, 0);
    var filled := AddAll(Make(name), keys);
    AddAllEntries(Make(name), keys);
    assert filled.entries == Seqs.Reverse(n) + [];
    assert filled.entries == Seqs.Reverse(n);
    Seqs.ReverseReverse(n);
    assert ReverseMap(filled).Ok? ==> ReverseMap(filled).value.entries == n;
  }

  /** After `str_map_add`, the new key is found with the old counter and every other key
      still answers as before. */
  lemma GetAfterAdd(m: StrMap, key: string, other: string)
    ensures Get(Add(m, key), key) == Ok(m.nextVal)
    ensures other != key ==> Get(Add(m, key), other) == Get(m, other)
  {
    var es := Add(m, key).entries;
    assert FindFrom(es, key, 0) == Some(0);
    if other != key {
      FindShift(m.entries, Entry(key, m.nextVal), other, 0);
    }
  }

  lemma {:induction false} FindShift(es: seq<Entry>, e: Entry, key: string, i: nat)
    requires i <= |es| && e.key != key
    ensures FindFrom([e] + es, key, i + 1) == (match FindFrom(es, key, i)
                                               case Some(k) => Some(k + 1)
                                               case None => None)
    decreases |es| - i
  {
    if i < |es| && es[i].key != key {
      FindShift(es, e, key, i + 1);
    }
  }
}
